=== FILE: README.md ===
# ProAgil agent orchestration — a Dafny model

ProAgil's agent answers a user's natural-language message by calling its own REST controllers.
`AgentService` asks the LLM (Gemini, reached through `GeminiApiService` with retries) whether
the request needs one operation or a multi-step plan.

- **One operation.** The LLM names a `Controller.Action`, chosen from the endpoint catalogue
  that `ApiDocumentationService` generates. `ControllerInvoker` resolves that name by
  reflection. `ParameterExtractionService` has the LLM fill in the arguments, guided by the
  prompt of `AgentPrompts` and `ParameterInfoBuilder`. The action is then invoked and its
  result unwrapped.
- **A multi-step plan.** `MultiStepExecutor` parses the plan and runs its steps in `Order`.
  Each step takes its arguments from the user's message or from the previous step's data. The
  local `TRANSFORM_DATA` step filters or reshapes that data through the LLM.

Around this core the model also covers:
- `JsonHelper`: cleaning and normalising the LLM's JSON replies;
- `TypeHelper`: the example values shown in prompts;
- `EnvironmentVariableExtension`: configuration lookup with its environment-file override;
- `AgentController`: the HTTP front door of the agent;
- the update and delete actions of `EventController` and `EventoController`, which the agent
  ends up invoking, over a repository that records the changes it is asked to make.

The outside world becomes parameters:
- the LLM is a stream of outcomes indexed by request number;
- reflection is a registry of assemblies, types and methods;
- System.Text.Json's reader and binder are functions;
- the clock is a date and a time-of-day string;
- `Task.Delay` is a recorded list of waits.

Each core file is modelled in the source's own form:
- Loops that build text or lists, the retry loop and the step loop are methods. Each is proved
  equal to a specification function, and the properties are lemmas about that function.
- Code that only computes is modelled as functions.
- The controllers change a `Repository` object in place. Their methods are proved to issue
  exactly the changes of a specification function.

Two behaviours of the source are modelled as written and stated as lemmas:
- `Put` in both event controllers deletes the stored social networks (redes sociais) whose id
  is not among the request's **batch** (lote) ids. The request's own social-network ids are
  collected and then never used (`EventController.KeptSocialNetworkDeleted`).
- In a multi-step run, a step result without a `data` member (a failed `TRANSFORM_DATA` guard)
  ends the run with "Error in step N: …". That result is already in the list of results.

## Model

| member | source | states |
|---|---|---|
| AgentController.ProcessMessage | ProAgil.WebApi/Controllers/AgentController.cs:25-53 | a missing request or a null/blank message is exactly the 400 case, with the "empty message" text; any other message is passed to the agent unchanged and its value comes back with 200, or its exception's message with 500 and the fixed failure text |
| AgentController.BlankNeverForwarded | ProAgil.WebApi/Controllers/AgentController.cs:29-34 | a blank request gets the same 400 answer whatever the agent would have done: the agent is not consulted |
| AgentController.ServiceNeverFails | ProAgil.WebApi/Controllers/AgentController.cs:37-52 | with this repository's `AgentService`, which catches its own exceptions, the controller never answers 500, and a non-blank message is answered 200 with the service's reply |
| AgentController.Health | ProAgil.WebApi/Controllers/AgentController.cs:60-63 | always status 200 with status "healthy" and service "AgentService" |
| AgentService.ModelName | ProAgil.Domain/Agent/AgentService.cs:36-44 | a null or empty `GEMINI_MODEL` falls back to "gemini-2.5-flash", any other value is used as is; the model name is never empty |
| AgentService.ControllerAction | ProAgil.Domain/Agent/AgentService.cs:129-140 | the reply names a controller and an action exactly when it holds a single '.', and the two names joined by '.' give the reply back |
| AgentService.NamedAction | ProAgil.Domain/Agent/AgentService.cs:129-140 | "C.A" with no '.' in C or A splits into controller C and action A |
| AgentService.Dispatch | ProAgil.Domain/Agent/AgentService.cs:80-91 | a multi-step plan is handed whole to the multi-step executor, whose requests are numbered after the analysis; any other plan goes to the single-operation path; the request counts of both stages add up |
| AgentService.ErrorsBecomeReplies | ProAgil.Domain/Agent/AgentService.cs:93-102 | the reply is an error object exactly when the analysis or the single operation threw, and its message is "Error processing: " followed by that exception's message |
| AgentService.IdentificationFailurePropagates | ProAgil.Domain/Agent/AgentService.cs:117 | a failed identification request is the single operation's exception |
| AgentService.BlankReplyUnidentified | ProAgil.Domain/Agent/AgentService.cs:118-127 | a null, empty or blank identification reply is the "Could not identify the action to execute." failure, after that one request |
| AgentService.MalformedReplyRejected | ProAgil.Domain/Agent/AgentService.cs:129-137 | a reply that does not split into exactly two pieces is answered "Invalid format: " with its trimmed text, and no controller is resolved or invoked, whatever the performer |
| AgentService.WellFormedReplyPerformed | ProAgil.Domain/Agent/AgentService.cs:139-172 | a reply "C.A" is performed as controller C and action A with the requests numbered after the identification; the outcome is the performer's and the request counts add up |
| AgentService.PerformedCarriesInvocation | ProAgil.Domain/Agent/AgentService.cs:143-172 | once the action is resolved, the requests spent are the parameter extraction's; an extraction failure is the operation's failure before anything is invoked; otherwise the operation succeeds exactly when the invocation does, with the invoked value, controller and action in the result |
| AgentService.UnresolvedMakesNoRequest | ProAgil.Domain/Agent/AgentService.cs:143-149 | a controller or action that cannot be resolved is the operation's exception, with no parameter-extraction request made |
| GeminiApiService.Exhausted | ProAgil.Domain/Agent/GeminiApiService.cs:61-64 | the final exception is a plain `Exception` whose inner exception is the last transient failure (none when no attempt was made) |
| GeminiApiService.ExecuteWithRetry | ProAgil.Domain/Agent/GeminiApiService.cs:11-65 | the attempt loop returns the outcome, request count and waits of the retry policy `Retry` |
| GeminiApiService.ResumeAfterTransient | ProAgil.Domain/Agent/GeminiApiService.cs:35-51 | a transient failure on an attempt before the last keeps the loop on the policy: one more request spent, the error remembered, a wait of `delaySeconds * attempt` unless it was the last attempt |
| GeminiApiService.TransientStep | ProAgil.Domain/Agent/GeminiApiService.cs:35-51 | a transient failure followed by a well-shaped rest of the run is a well-shaped run: bounded requests, retries only after transient failures, linearly growing waits |
| GeminiApiService.RetryFromShape | ProAgil.Domain/Agent/GeminiApiService.cs:20-64 | every run of the policy from any attempt has that shape |
| GeminiApiService.RetryCalls | ProAgil.Domain/Agent/GeminiApiService.cs:20-33 | at most `maxRetries` requests (none when it is not positive); every request before the last failed transiently; a reply is the last request's reply |
| GeminiApiService.RetryFirstReply | ProAgil.Domain/Agent/GeminiApiService.cs:28-33 | a reply on the first attempt is returned as it is after one request, with no wait |
| GeminiApiService.RetryRethrows | ProAgil.Domain/Agent/GeminiApiService.cs:52-58 | an exception other than the final one is the unchanged, non-transient exception of the last request made |
| GeminiApiService.RetryWaits | ProAgil.Domain/Agent/GeminiApiService.cs:43-50 | after the transient failure of attempt a the wait is `delaySeconds * a`; there is one wait fewer than requests |
| GeminiApiService.RetryExhausted | ProAgil.Domain/Agent/GeminiApiService.cs:20-64 | when every attempt fails transiently, exactly `maxRetries` requests are made and the final exception carries the last failure as its inner exception |
| GeminiApiService.RetryDefaultsAllTransient | ProAgil.Domain/Agent/GeminiApiService.cs:14-15 | with the defaults (3 attempts, 2 seconds) and a service that keeps answering 503: three requests, waits of 2 and 4 seconds, then the final exception |
| GeminiApiService.RetryNoAttempts | ProAgil.Domain/Agent/GeminiApiService.cs:20-64 | with `maxRetries <= 0` the LLM is never called and the final exception has no inner exception |
| ControllerInvoker.FullControllerName | ProAgil.Domain/Agent/ControllerInvoker.cs:39-41 | the type name always ends in "Controller"; a name already ending so is kept, any other gets the suffix appended |
| ControllerInvoker.FullControllerNameIdempotent | ProAgil.Domain/Agent/ControllerInvoker.cs:39-41 | normalising an already normalised name changes nothing |
| ControllerInvoker.FindIn | ProAgil.Domain/Agent/ControllerInvoker.cs:34-78 | an assembly that cannot be loaded throws; a found target is the FIRST type (in `GetTypes()` order) whose name equals the normalised name ignoring case and that derives from `ControllerBase`, and the FIRST public instance method of it named like the action ignoring case and tagged HttpGet/Post/Put/Delete; a missing controller or action throws `InvalidOperationException` |
| ControllerInvoker.FindSucceedsIff | ProAgil.Domain/Agent/ControllerInvoker.cs:44-75 | the lookup succeeds exactly when the first controller type with the normalised name has a tagged public method with the action's name; a later type of the same name is never consulted |
| ControllerInvoker.UntaggedNeverChosen | ProAgil.Domain/Agent/ControllerInvoker.cs:58-68 | only a tagged public instance method of a `ControllerBase` type is ever selected |
| ControllerInvoker.InvokeController | ProAgil.Domain/Agent/ControllerInvoker.cs:80-86 | a failed lookup is the invocation's exception, unchanged |
| ControllerInvoker.Unwrap | ProAgil.Domain/Agent/ControllerInvoker.cs:92-110 | a plain return value passes through; a completed Task gives its result, and the `Value` of an `ObjectResult` inside it; a faulted Task rethrows its exception; a synchronous throw surfaces wrapped as the inner exception |
| ControllerInvoker.InvokeResolvesLikeFind | ProAgil.Domain/Agent/ControllerInvoker.cs:86-110 | after a successful lookup, the result is decided by the invocation of the resolved type and method alone |
| ControllerInvoker.AsWrittenFindsNothing | ProAgil.Domain/Agent/ControllerInvoker.cs:43 | with the assembly name as written, even `Event.Get` cannot be resolved (the assembly is not found), while the lookup in the web API assembly finds it |
| ParameterExtraction.TrimmedContent | ProAgil.Domain/Agent/ParameterExtractionService.cs:45 | a null reply content stays null; any other content gives a text with no white space at either end |
| ParameterExtraction.TrimmedContentInContent | ProAgil.Domain/Agent/ParameterExtractionService.cs:45 | the trimmed content sits inside the content with only white space before and after it |
| ParameterExtraction.SlotFromLastMember | ProAgil.Domain/Agent/ParameterExtractionService.cs:56-73 | the argument of a parameter is the deserialized value of the last dictionary member named like it; with no such member it is the type's default, null exactly for reference and nullable types |
| ParameterExtraction.FillSlots | ProAgil.Domain/Agent/ParameterExtractionService.cs:47-77 | a successful filling always has exactly as many arguments as parameters |
| ParameterExtraction.ExtractLength | ProAgil.Domain/Agent/ParameterExtractionService.cs:28-77 | a successful extraction has exactly one argument per parameter |
| ParameterExtraction.ExtractNoParameters | ProAgil.Domain/Agent/ParameterExtractionService.cs:28-33 | without parameters the result is empty and the LLM is not asked |
| ParameterExtraction.ExtractCalls | ProAgil.Domain/Agent/ParameterExtractionService.cs:35-44 | with parameters (and a prompt that can be built) the requests made are those of one retried request |
| ParameterExtraction.EmptyReplyNulls | ProAgil.Domain/Agent/ParameterExtractionService.cs:45-77 | a null or blank reply leaves every argument null, value-typed parameters included |
| ParameterExtraction.SlotsFromReply | ProAgil.Domain/Agent/ParameterExtractionService.cs:49-74 | with a reply that holds a JSON object, argument i is the deserialized member named like parameter i (the last such member), otherwise `default(T)`, which is null exactly for reference and nullable types |
| ParameterExtraction.NonObjectReplyThrows | ProAgil.Domain/Agent/ParameterExtractionService.cs:49-52 | a non-empty reply that is not a JSON object fails the whole extraction; the null literal fails with `InvalidOperationException` |
| ParameterExtraction.Bound | ProAgil.Domain/Agent/ParameterExtractionService.cs:110 | a binding that fails throws an exception of kind JsonException (the serializer's own); a binding that succeeds is the bound object |
| ParameterExtraction.FromPreviousStep | ProAgil.Domain/Agent/ParameterExtractionService.cs:80-146 | a previous payload that is not a JSON object throws `InvalidOperationException` without asking the LLM; one with a `data` member is bound case-insensitively from it without any request; otherwise the requests are those of one retried request |
| ParameterExtraction.PreviousStepMapped | ProAgil.Domain/Agent/ParameterExtractionService.cs:129-145 | on the LLM path a result is the case-sensitive binding of the cleaned, parsed reply of a successful request |
| ParameterExtractionService.FillFromDictionary | ProAgil.Domain/Agent/ParameterExtractionService.cs:54-74 | the `for` loop leaves the argument array equal to `Slots` of the parameters |
| ParameterExtractionService.AskAndFill | ProAgil.Domain/Agent/ParameterExtractionService.cs:42-77 | the request through the retry loop and the filling of the array give the outcome and request count of `Answer` |
| ParameterExtractionService.ExtractMethodParameters | ProAgil.Domain/Agent/ParameterExtractionService.cs:20-78 | the method's outcome and request count are those of the extraction `Extract` |
| JsonHelper.CleanJsonResponse | ProAgil.Domain/Agent/JsonHelper.cs:16-35 | the cleaned text is always trimmed, and a null or empty reply cleans to "" |
| JsonHelper.StripFences | ProAgil.Domain/Agent/JsonHelper.cs:22-33 | removing the fences never lengthens the text |
| JsonHelper.CleanBareBody | ProAgil.Domain/Agent/JsonHelper.cs:16-35 | a trimmed body that neither opens nor closes a fence is left exactly as it is |
| JsonHelper.StripFencedBody | ProAgil.Domain/Agent/JsonHelper.cs:22-33 | stripping "```json" + body + "```" leaves the body, for every bare body (including the all-back-tick short bodies) |
| JsonHelper.CleanFencedBody | ProAgil.Domain/Agent/JsonHelper.cs:16-35 | round trip: a bare body wrapped in a "```json ... ```" fence cleans back to the body |
| JsonHelper.ConvertArray | ProAgil.Domain/Agent/JsonHelper.cs:81-87 | an array converts to a list of the same length, element by element in order |
| JsonHelper.PutLookup | ProAgil.Domain/Agent/JsonHelper.cs:77 | after `dict[key] = v` the key maps to v and every other key keeps its value |
| JsonHelper.AssignLookup | ProAgil.Domain/Agent/JsonHelper.cs:75-78 | after the foreach of assignments a key maps to the last value assigned to it, or to what it mapped before |
| JsonHelper.ConvertObjectLookup | ProAgil.Domain/Agent/JsonHelper.cs:73-79 | the converted dictionary holds under each name the conversion of the LAST member with that name, and no other keys |
| JsonHelper.ConvertRoundTrip | ProAgil.Domain/Agent/JsonHelper.cs:69-109 | round trip: serializing the converted objects of a tree with distinct member names and long-sized integers gives the tree back |
| JsonHelper.ObjectConverted | ProAgil.Domain/Agent/JsonHelper.cs:73-79 | with distinct names an object converts to the dictionary of its converted members in document order |
| JsonHelper.DeserializeToElement | ProAgil.Domain/Agent/JsonHelper.cs:64-67 | throws exactly when the text is not JSON |
| JsonHelper.DeserializeDictionary | ProAgil.Domain/Agent/JsonHelper.cs:37-45 | succeeds exactly on a JSON object, with its members; the literal null throws `InvalidOperationException` ("Deserialization returned null.") |
| JsonHelper.DeserializeParameter | ProAgil.Domain/Agent/JsonHelper.cs:47-57 | never throws: the bound value, or on failure the type's default, which is null exactly for reference and nullable types |
| JsonHelper.TryGetProperty | ProAgil.Domain/Agent/MultiStepExecutor.cs:52-72 | throws exactly on a non-object; otherwise the last member with the name, if any |
| JsonHelper.GetProperty | ProAgil.Domain/Agent/MultiStepExecutor.cs:43-64 | succeeds exactly on an object with that member, giving its (last) value |
| JsonHelper.GetString | ProAgil.Domain/Agent/MultiStepExecutor.cs:59-74 | succeeds exactly on a string or null; a string gives that string and null gives null |
| JsonHelper.GetInt32 | ProAgil.Domain/Agent/MultiStepExecutor.cs:58 | succeeds exactly on an integral number within the 32-bit range, giving that number |
| JsonHelper.GetBoolean | ProAgil.Domain/Agent/MultiStepExecutor.cs:43 | succeeds exactly on true or false, giving it |
| Json.LastMemberIndex | ProAgil.Domain/Agent/MultiStepExecutor.cs:52 | the index found holds the name and no later member does; none found means no member has the name |
| TypeHelper.GetExampleValue | ProAgil.Domain/Agent/TypeHelper.cs:10-27 | "null" exactly for the types without an example; "\"example\"" for string, "123" for int and int?, "true" for bool and bool?, today's date as "yyyy-MM-ddT00:00:00" in quotes for DateTime and DateTime?, "[]" for a List |
| MultiStep.StringMember | ProAgil.Domain/Agent/MultiStepExecutor.cs:59-64 | `GetProperty(name).GetString()` succeeds exactly on an object whose (last) member of that name is a string or null, and then gives that member's string, or null for a null member |
| MultiStep.OptionalStringMember | ProAgil.Domain/Agent/MultiStepExecutor.cs:67-75 | succeeds exactly when the member is absent or is a string or null; an absent member gives null, a present one its string or null |
| MultiStep.ParseStep | ProAgil.Domain/Agent/MultiStepExecutor.cs:56-75 | a step is read exactly from an object whose `order` is a 32-bit number, whose `description`, `controller`, `action` and `parameterSource` are strings or null, and whose `transformation` is absent, a string or null; each field of the step is then its member's value, and a missing `transformation` is null |
| MultiStep.Elements | ProAgil.Domain/Agent/MultiStepExecutor.cs:54 | `EnumerateArray` succeeds exactly on an array, with its items |
| MultiStep.ParseEachPointwise | ProAgil.Domain/Agent/MultiStepExecutor.cs:54-78 | the foreach succeeds exactly when every item can be read, and then gives the items' values in order |
| MultiStep.ParseEachFirstFailure | ProAgil.Domain/Agent/MultiStepExecutor.cs:54-78 | when the items before i can be read and item i cannot, the foreach throws item i's exception: the first failure is the one that escapes |
| MultiStep.ParseStepsPointwise | ProAgil.Domain/Agent/MultiStepExecutor.cs:54-78 | the steps are read exactly when every element can be read, and are then the elements' steps in array order |
| MultiStep.PlanShape | ProAgil.Domain/Agent/MultiStepExecutor.cs:40-89 | a multi-step plan carries the user's message; any other plan is the bare single-step plan, in particular for a reply that is not JSON and for `"isMultiStep": false` |
| MultiStep.LateErrorDiscardsSteps | ProAgil.Domain/Agent/MultiStepExecutor.cs:54-88 | one step that cannot be read throws away the steps read before it: the analysis degrades to a single-step plan |
| MultiStep.StepsInArrayOrder | ProAgil.Domain/Agent/MultiStepExecutor.cs:50-81 | when every step can be read, the multi-step plan holds them all, in array order, with the user's message |
| MultiStep.TransformNeverResolves | ProAgil.Domain/Agent/MultiStepExecutor.cs:157-160 | a `TRANSFORM_DATA` step is handled by `TransformData` and never looks at the controllers: its run is the same whatever assemblies and invoker |
| MultiStep.ArgumentsShape | ProAgil.Domain/Agent/MultiStepExecutor.cs:169-193 | the argument array always matches the method's parameters; without parameters nothing is asked |
| MultiStep.FirstArgument | ProAgil.Domain/Agent/MultiStepExecutor.cs:170-182 | with arguments built from the previous step, argument 0 is what was built and every other argument stays null; a failure to build is the step's failure, with the same requests |
| MultiStep.PreviousStepFillsFirstOnly | ProAgil.Domain/Agent/MultiStepExecutor.cs:174-182 | a step whose parameter source is "previous_step", given non-null data, fills only argument 0, with what `BuildParametersFromPreviousStep` built for the first parameter's type; the others stay null |
| MultiStep.OtherwiseExtracted | ProAgil.Domain/Agent/MultiStepExecutor.cs:183-192 | any other step with parameters extracts all of them from its description |
| MultiStep.Matching | ProAgil.Domain/Agent/MultiStepExecutor.cs:219-224 | the candidates are exactly the public properties whose name equals the requested one ignoring case |
| MultiStep.PropertyIgnoringCase | ProAgil.Domain/Agent/MultiStepExecutor.cs:219-239 | a property found belongs to the object and matches the name ignoring case; none found means the object has no such property |
| MultiStep.ProbeRejects | ProAgil.Domain/Agent/MultiStepExecutor.cs:214-246 | a result is rejected only when it has a single public `bool` property `Success` (ignoring case) that is not true; a result without such a property is accepted |
| MultiStep.ProbeMessage | ProAgil.Domain/Agent/MultiStepExecutor.cs:240-257 | a rejection carries the serialized `Messages`, or "API returned failure" when there is none |
| MultiStep.TransformGuards | ProAgil.Domain/Agent/MultiStepExecutor.cs:283-334 | null data, an empty array and an object whose `data` is null are refused with their own messages, without any LLM request |
| MultiStep.TransformSendsFirstElement | ProAgil.Domain/Agent/MultiStepExecutor.cs:300-346 | a non-empty array, at the top or under `data`, is sent for transformation by its first element alone |
| MultiStep.TransformationReply | ProAgil.Domain/Agent/MultiStepExecutor.cs:366-413 | an array reply gives a successful array envelope whose data is a list of the same length; an object reply gives a successful envelope with the converted object, whatever `rPs` members it has; any other reply throws |
| MultiStep.OrderLeTotalPreorder | ProAgil.Domain/Agent/MultiStepExecutor.cs:97 | comparing steps by `Order` is a total preorder |
| MultiStep.TraceThreadsData | ProAgil.Domain/Agent/MultiStepExecutor.cs:95-114 | the steps run in order; the first gets the data it started with (null for the whole plan) and each later one exactly the `data` of the step before; every step but the last went on |
| MultiStep.TraceStep | ProAgil.Domain/Agent/MultiStepExecutor.cs:97-126 | the trace of a step that went on is that step followed by the trace of the rest; a step that stopped is the whole trace |
| MultiStep.RunCompletes | ProAgil.Domain/Agent/MultiStepExecutor.cs:97-145 | the run completes exactly when every step went on; it then returns the last step's data (null for an empty plan), the plan's step count and the completion message |
| MultiStep.CompletesAfterStep | ProAgil.Domain/Agent/MultiStepExecutor.cs:97-145 | the inductive step of `RunCompletes`: one more step in front keeps the completion property |
| MultiStep.RunFails | ProAgil.Domain/Agent/MultiStepExecutor.cs:103-136 | a failed run stops at its last executed step, which did not go on; its results are the envelopes of the executed steps, the failing one included unless it threw; its message names that step |
| MultiStep.FailsAfterStep | ProAgil.Domain/Agent/MultiStepExecutor.cs:103-136 | the inductive step of `RunFails`: one more step that went on keeps the failure property |
| MultiStep.StopsAtFirst | ProAgil.Domain/Agent/MultiStepExecutor.cs:110-135 | a step that threw, returned no `data`, or returned `success == false` ends the run there with "Error in step" or "Failure in step" and the envelopes so far |
| MultiStep.ExecutionOrder | ProAgil.Domain/Agent/MultiStepExecutor.cs:97 | the steps run in ascending `Order`, as a permutation of the plan's steps, steps with equal `Order` in plan order |
| MultiStepExecutor.ReadSteps | ProAgil.Domain/Agent/MultiStepExecutor.cs:54-78 | the foreach that appends each step returns the steps of `ParseSteps`, or its first failure |
| MultiStepExecutor.TryReadPlan | ProAgil.Domain/Agent/MultiStepExecutor.cs:40-81 | the `try` block returns the plan `ReadPlan` describes, or the exception it throws |
| MultiStepExecutor.AnalyzeExecutionPlan | ProAgil.Domain/Agent/MultiStepExecutor.cs:31-90 | the method's plan and request count are those of `Analyze`; a failure to read the reply degrades to the single-step plan |
| MultiStepExecutor.RunSteps | ProAgil.Domain/Agent/MultiStepExecutor.cs:94-145 | the loop over the ordered steps returns the result and request count of `RunFrom` from the first step with null data |
| MultiStepExecutor.ExecuteMultiStepOperation | ProAgil.Domain/Agent/MultiStepExecutor.cs:92-146 | the result and request count of the plan's steps in `Order`, each run by `ExecuteSingleStep` |
| ApiDocumentation.GetXmlDocumentation | ProAgil.Domain/Agent/ApiDocumentationService.cs:119-169 | a non-empty `[Description]` wins; otherwise the description is empty exactly when there is no XML summary or the trimmed summary is empty (a missing file and a failure while reading it give "") |
| ApiDocumentation.PathLeTotalPreorder | ProAgil.Domain/Agent/ApiDocumentationService.cs:37 | ordering endpoints by relative path is a total preorder |
| ApiDocumentation.SelectedEndpoints | ProAgil.Domain/Agent/ApiDocumentationService.cs:32-37 | exactly the endpoints whose path does not contain "agent" in any case are documented, sorted by path, endpoints with equal paths keeping their order |
| ApiDocumentation.GroupKeys | ProAgil.Domain/Agent/ApiDocumentationService.cs:39-43 | the group keys are distinct, every endpoint's key (its controller name, or "Unknown") is among them, and every key comes from some endpoint |
| ApiDocumentation.GroupKeysInFirstAppearanceOrder | ProAgil.Domain/Agent/ApiDocumentationService.cs:39-43 | the keys come in the order of their first endpoints among the sorted endpoints, as `GroupBy` orders its groups, and each key's first endpoint exists |
| ApiDocumentation.GroupsPartition | ProAgil.Domain/Agent/ApiDocumentationService.cs:39-45 | every documented endpoint falls in exactly one group, the one of its own key |
| ApiDocumentation.PropertyDocLines | ProAgil.Domain/Agent/ApiDocumentationService.cs:97-102 | one "      - name: Type" line per property, in property order |
| ApiDocumentation.EndpointBodyUnmarked | ProAgil.Domain/Agent/ApiDocumentationService.cs:61-108 | no line written after an action's heading (route, description, parameters, properties, blank line) can be taken for an action heading |
| ApiDocumentation.ActionHeadingIsHeading | ProAgil.Domain/Agent/ApiDocumentationService.cs:60 | the line written for an action is an action heading |
| ApiDocumentation.EndpointHeadings | ProAgil.Domain/Agent/ApiDocumentationService.cs:50-60 | each controller action yields exactly one "### [verb] action" heading; an endpoint without a controller descriptor is skipped and yields none |
| ApiDocumentation.EndpointsHeadings | ProAgil.Domain/Agent/ApiDocumentationService.cs:50-109 | the headings of a group's endpoints are theirs, in order |
| ApiDocumentation.HeadingCount | ProAgil.Domain/Agent/ApiDocumentationService.cs:50-109 | there is one heading per endpoint with a controller descriptor |
| ApiDocumentation.GroupedCountAll | ProAgil.Domain/Agent/ApiDocumentationService.cs:39-45 | grouping by distinct keys that cover every endpoint loses and duplicates no endpoint |
| ApiDocumentation.GroupHeadings | ProAgil.Domain/Agent/ApiDocumentationService.cs:45-109 | a controller section holds one action heading per action of its group |
| ApiDocumentation.GroupsHeadings | ProAgil.Domain/Agent/ApiDocumentationService.cs:45-110 | the sections together hold as many action headings as their groups hold actions |
| ApiDocumentation.CatalogueHeadings | ProAgil.Domain/Agent/ApiDocumentationService.cs:28-110 | the title does not count as an action heading, and the catalogue of the selected endpoints holds one heading per controller action among them |
| ApiDocumentation.DocumentationHeadings | ProAgil.Domain/Agent/ApiDocumentationService.cs:26-117 | the whole documentation holds exactly one action heading per documented controller action: grouping neither drops nor repeats an endpoint |
| ApiDocumentation.PropertyListing | ProAgil.Domain/Agent/ApiDocumentationService.cs:83-104 | properties are listed, all of them and in order, only for a class other than string with 1 to 20 of them; a type with more than 20 gets none |
| ApiDocumentation.Defaults | ProAgil.Domain/Agent/ApiDocumentationService.cs:56-77 | a missing HTTP method is written as GET, and a missing parameter type as "object" with no properties listed |
| ApiDocumentationService.AppendPropertyDocs | ProAgil.Domain/Agent/ApiDocumentationService.cs:97-102 | the loop appends exactly the property lines |
| ApiDocumentationService.RenderParameter | ProAgil.Domain/Agent/ApiDocumentationService.cs:77-104 | one parameter's line and, for a listed class, its properties heading and lines |
| ApiDocumentationService.AppendParameters | ProAgil.Domain/Agent/ApiDocumentationService.cs:75-105 | the loop appends the lines of every parameter, in order |
| ApiDocumentationService.RenderEndpoint | ProAgil.Domain/Agent/ApiDocumentationService.cs:52-108 | the lines of one endpoint: nothing without a controller descriptor, otherwise heading, route, description, parameters and the blank line |
| ApiDocumentationService.AppendEndpoints | ProAgil.Domain/Agent/ApiDocumentationService.cs:50-109 | the loop appends the lines of every endpoint of the group, in order |
| ApiDocumentationService.RenderGroup | ProAgil.Domain/Agent/ApiDocumentationService.cs:47-109 | a group is its "## Controller:" heading, the 50-dash rule, then its endpoints |
| ApiDocumentationService.AppendGroups | ProAgil.Domain/Agent/ApiDocumentationService.cs:45-110 | the loop appends the sections of the groups in the order of their keys |
| ApiDocumentationService.GenerateApiDocumentation | ProAgil.Domain/Agent/ApiDocumentationService.cs:26-117 | the method writes exactly the lines of `Documentation`: the title, then one section per controller group |
| ParameterInfoBuilder.OptionalIffNullDefault | ProAgil.Domain/Agent/ParameterInfoBuilder.cs:35-40 | a property is announced "(optional, can be null)" exactly when its type's default is null |
| ParameterInfoBuilder.PropertyLines | ProAgil.Domain/Agent/ParameterInfoBuilder.cs:43-71 | one entry line per property, followed by the format line exactly for DateTime and DateTime?; that second line is the date-format line |
| ParameterInfoBuilder.PropertiesLines | ProAgil.Domain/Agent/ParameterInfoBuilder.cs:30-72 | every property line is indented, so none can be taken for a parameter header |
| ParameterInfoBuilder.BlockBody | ProAgil.Domain/Agent/ParameterInfoBuilder.cs:21-78 | no line after a parameter's header starts a new header |
| ParameterInfoBuilder.AppendProperties | ProAgil.Domain/Agent/ParameterInfoBuilder.cs:30-72 | the loop appends exactly the lines of every property, in order |
| ParameterInfoBuilder.RenderBlockBody | ProAgil.Domain/Agent/ParameterInfoBuilder.cs:21-78 | what is written after a parameter's header is its `BlockBody` |
| ParameterInfoBuilder.BuildParameterInfo | ProAgil.Domain/Agent/ParameterInfoBuilder.cs:12-81 | the method writes exactly the lines of `InfoLines`: a block per parameter, in order |
| ParameterInfoBuilder.Entries | ProAgil.Domain/Agent/ParameterInfoBuilder.cs:43-71 | one entry per property, in order |
| ParameterInfoBuilder.EntryOfProperty | ProAgil.Domain/Agent/ParameterInfoBuilder.cs:43-71 | a property contributes exactly one entry line (its format line is not an entry) |
| ParameterInfoBuilder.PropertiesLinesShape | ProAgil.Domain/Agent/ParameterInfoBuilder.cs:30-72 | the entry lines among the property lines are exactly one per property, in order |
| ParameterInfoBuilder.BlockHeaders | ProAgil.Domain/Agent/ParameterInfoBuilder.cs:17-78 | within a parameter's block only its own header is a header line |
| ParameterInfoBuilder.HeaderLines | ProAgil.Domain/Agent/ParameterInfoBuilder.cs:18 | one "## Parameter: name (Type: T)" header per parameter, in order |
| ParameterInfoBuilder.HeadersInOrder | ProAgil.Domain/Agent/ParameterInfoBuilder.cs:15-79 | the headers of the whole text are one per parameter, in parameter order |
| ParameterInfoBuilder.BlockContents | ProAgil.Domain/Agent/ParameterInfoBuilder.cs:21-78 | a class parameter other than string lists every property, in order, with no cap; any other parameter gets its header and one "Simple type" line |
| ParameterInfoBuilder.ComplexBlockContents | ProAgil.Domain/Agent/ParameterInfoBuilder.cs:21-74 | the entries of a class parameter's block are exactly its properties' entries |
| ParameterInfoBuilder.GetTypePropertiesDescription | ProAgil.Domain/Agent/ParameterInfoBuilder.cs:83-94 | one "- name: Type" line per property, in order, for the first 20 properties only |
| Calendar.DayOfWeek | ProAgil.Domain/Agent/AgentPrompts.cs:124 | the day of the week is a number from 0 (Sunday) to 6, and 0001-01-01 is a Monday |
| Calendar.DayOfWeekShift | ProAgil.Domain/Agent/AgentPrompts.cs:124-125 | moving `n` days moves the day of the week `n` places round the week, modulo 7 |
| Calendar.AddDays | ProAgil.Domain/Agent/AgentPrompts.cs:119-125 | a day shift that succeeds lands on a representable date exactly `n` day numbers away |
| Calendar.AddMonths | ProAgil.Domain/Agent/AgentPrompts.cs:119-120 | a month shift succeeds exactly when the target month lies in years 1 to 9999; it lands `n` months away on the same day, or on the month's last day when the original day does not exist there |
| Calendar.FormatDate | ProAgil.Domain/Agent/AgentPrompts.cs:130-141 | a date renders as ten characters: four digits reading back as the year, a dash, two digits reading back as the month, a dash, two digits reading back as the day |
| Calendar.AddDaysBackward | ProAgil.Domain/Agent/AgentPrompts.cs:121-124 | going back `k` days succeeds exactly when it does not pass 0001-01-01 |
| Calendar.AddDaysForward | ProAgil.Domain/Agent/AgentPrompts.cs:125 | going forward `k` days succeeds whenever it does not pass 9999-12-31 |
| AgentPrompts.AddDaysMinusOne | ProAgil.Domain/Agent/AgentPrompts.cs:119-121 | `AddDays(-1)` is the previous day |
| AgentPrompts.LastDayOfMonth | ProAgil.Domain/Agent/AgentPrompts.cs:119 | the last day of the month is its last valid day, leap years included, and exists unless the month is December 9999 |
| AgentPrompts.DayBeforeNextMonth | ProAgil.Domain/Agent/AgentPrompts.cs:119 | the day before the first of the next month is the last day of this month |
| AgentPrompts.FirstOfPreviousMonth | ProAgil.Domain/Agent/AgentPrompts.cs:120 | the first day of the previous month, which exists unless the month is January 0001 |
| AgentPrompts.LastOfPreviousMonth | ProAgil.Domain/Agent/AgentPrompts.cs:121 | the last day of the previous month, which exists unless the month is January 0001 |
| AgentPrompts.WeekStart | ProAgil.Domain/Agent/AgentPrompts.cs:124 | going back by the day of the week lands on a Sunday, and succeeds exactly when that Sunday is representable |
| AgentPrompts.BackToSunday | ProAgil.Domain/Agent/AgentPrompts.cs:124 | stepping back by its day of the week from any date reaches a Sunday |
| AgentPrompts.DateAnchors | ProAgil.Domain/Agent/AgentPrompts.cs:115-125 | the anchors are all representable dates, and the only failure is the ArgumentOutOfRangeException that `AddMonths` throws ("... (Parameter 'months')") |
| AgentPrompts.AnchorsDefined | ProAgil.Domain/Agent/AgentPrompts.cs:118-125 | the anchors can be computed exactly for dates outside January 0001 and December 9999 |
| AgentPrompts.AnchorsParts | ProAgil.Domain/Agent/AgentPrompts.cs:118-125 | each anchor is the date computed on its own source line |
| AgentPrompts.AnchorsMonth | ProAgil.Domain/Agent/AgentPrompts.cs:118-123 | this month runs from its first to its last valid day, and this year from 1 January to 31 December |
| AgentPrompts.AnchorsLastMonth | ProAgil.Domain/Agent/AgentPrompts.cs:120-121 | last month is the month before this one, from its first to its last day, and ends the day before this month starts |
| AgentPrompts.MonthIndexInjective | ProAgil.Domain/Agent/AgentPrompts.cs:120 | a month is determined by its count `12 * year + month` |
| AgentPrompts.AnchorsWeek | ProAgil.Domain/Agent/AgentPrompts.cs:124-125 | the week starts on the Sunday at most six days back and ends six days after it |
| AgentPrompts.BranchOrder | ProAgil.Domain/Agent/AgentPrompts.cs:278-309 | int and int? get the integer text, string the string text although it is a class, List<T> the list text, other classes the complex-object rules, other value types nothing |
| AgentPrompts.PropertyExampleLines | ProAgil.Domain/Agent/AgentPrompts.cs:396-400 | one example line per property, in order |
| AgentPrompts.AppendPropertyExamples | ProAgil.Domain/Agent/AgentPrompts.cs:396-400 | the loop appends exactly the example lines of the shown properties |
| AgentPrompts.ExampleLinesStep | ProAgil.Domain/Agent/AgentPrompts.cs:396-400 | one more property adds its one example line at the end |
| AgentPrompts.BuildParameterExamples | ProAgil.Domain/Agent/AgentPrompts.cs:353-411 | the method writes exactly `ExampleLines`: two filter examples for a "Filter" type, otherwise the example structure |
| AgentPrompts.ExampleLineIsNotContinuation | ProAgil.Domain/Agent/AgentPrompts.cs:399-403 | a property example line is never the continuation comment |
| AgentPrompts.ContinuationAbsent | ProAgil.Domain/Agent/AgentPrompts.cs:391-407 | without the comment line no line of the structure is the continuation comment |
| AgentPrompts.ExamplesCap | ProAgil.Domain/Agent/AgentPrompts.cs:395-404 | outside the "Filter" case exactly the first min(5, n) properties are shown, in order, and the continuation comment appears exactly when there are more than five |
| AgentPrompts.ExampleLayoutShape | ProAgil.Domain/Agent/AgentPrompts.cs:390-407 | the structure has seven fixed lines plus one per shown property, plus the comment when there are more |
| AgentPrompts.ExtractionPrompt | ProAgil.Domain/Agent/AgentPrompts.cs:107-175 | the prompt is built exactly when the date anchors can be computed; otherwise the out-of-range exception escapes |
| AgentPrompts.InstructionsFirstOnly | ProAgil.Domain/Agent/AgentPrompts.cs:159-165 | filling instructions depend on the first parameter alone, and there are none without parameters |
| EnvironmentVariableExtensions.Variable | ProAgil.Domain/EnvironmentVariableExtension.cs:83 | an environment variable is null exactly when it is not set |
| EnvironmentVariableExtensions.Setting | ProAgil.Domain/EnvironmentVariableExtension.cs:88 | a configuration key is found ignoring case, and is null exactly when absent |
| EnvironmentVariableExtensions.StripStart | ProAgil.Domain/EnvironmentVariableExtension.cs:175 | trimming the start removes only blanks and leaves a suffix of the text that does not start with a blank |
| EnvironmentVariableExtensions.StripEnd | ProAgil.Domain/EnvironmentVariableExtension.cs:175 | trimming the end removes only blanks and leaves a prefix of the text that does not end with a blank |
| EnvironmentVariableExtensions.ParseInt32 | ProAgil.Domain/EnvironmentVariableExtension.cs:175 | parsing succeeds exactly when the text left after trimming white space and dropping a sign is one or more digits whose signed value fits in 32 bits, and then gives that value; otherwise it fails with FormatException when that text is not digits and with OverflowException when the value does not fit |
| EnvironmentVariableExtensions.ParsePadded | ProAgil.Domain/EnvironmentVariableExtension.cs:175 | digits, with or without a minus sign and with white space on either side, parse to their signed value when it fits in 32 bits |
| EnvironmentVariableExtensions.StripPadded | ProAgil.Domain/EnvironmentVariableExtension.cs:175 | blanks on both sides of text that starts and ends unblank are exactly what trimming removes |
| EnvironmentVariableExtensions.ParseNumber | ProAgil.Domain/EnvironmentVariableExtension.cs:175 | a trimmed number with an optional `-` or `+` succeeds exactly when its unsigned part is digits whose signed value fits in 32 bits, with that value; otherwise FormatException for non-digits and OverflowException for a value out of range |
| EnvironmentVariableExtensions.SignedNumber | ProAgil.Domain/EnvironmentVariableExtension.cs:175 | digits and a sign give their signed value exactly when it fits in 32 bits; FormatException when there are no digits or a non-digit, OverflowException when the value does not fit |
| EnvironmentVariableExtensions.ParseBoolean | ProAgil.Domain/EnvironmentVariableExtension.cs:175 | a string converts to bool exactly when, trimmed, it is "True" or "False" in any case, and gives true exactly for "True" |
| EnvironmentVariableExtensions.ChangeType | ProAgil.Domain/EnvironmentVariableExtension.cs:175 | a string converts to string unchanged; nullable, enum, list, class and struct targets throw |
| EnvironmentVariableExtensions.ConvertValue | ProAgil.Domain/EnvironmentVariableExtension.cs:166-181 | the conversion never throws: its result, or `default(T)` when it fails |
| EnvironmentVariableExtensions.Converted | ProAgil.Domain/EnvironmentVariableExtension.cs:91-96 | null text gives null exactly for reference and nullable types, and 0 for int; text asked for as a string is itself; text asked for as an int is its parsed value, or 0 when parsing fails |
| EnvironmentVariableExtensions.ConvertString | ProAgil.Domain/EnvironmentVariableExtension.cs:166-169 | text asked for as a string comes back unchanged |
| EnvironmentVariableExtensions.FailedConversionDefault | ProAgil.Domain/EnvironmentVariableExtension.cs:177-180 | text that does not parse as int or bool gives 0 or false, and a nullable target gives null |
| EnvironmentVariableExtensions.ConvertIntRoundTrip | ProAgil.Domain/EnvironmentVariableExtension.cs:166-176 | the rendering of a 32-bit int converts back to that int |
| EnvironmentVariableExtensions.ConvertBoolean | ProAgil.Domain/EnvironmentVariableExtension.cs:166-176 | "true"/"false" in any case and with blanks around converts to that boolean |
| EnvironmentVariableExtensions.ParseRendering | ProAgil.Domain/EnvironmentVariableExtension.cs:175 | `int.Parse` of an int's rendering gives the int back |
| EnvironmentVariableExtensions.ParseUnsigned | ProAgil.Domain/EnvironmentVariableExtension.cs:175 | decimal digits within range parse to their value |
| EnvironmentVariableExtensions.ParseNegative | ProAgil.Domain/EnvironmentVariableExtension.cs:175 | decimal digits after a minus sign parse to the negated value |
| EnvironmentVariableExtensions.StripUnblank | ProAgil.Domain/EnvironmentVariableExtension.cs:175 | text neither starting nor ending with a blank is unchanged by trimming |
| Text.RenderingDigits | ProAgil.Domain/EnvironmentVariableExtension.cs:175 | a natural number's rendering is decimal digits whose value is that number |
| Text.LeadingZeros | ProAgil.Domain/Agent/AgentPrompts.cs:130-141 | zeros put in front of digits do not change their value |
| Text.PadDigitsValue | ProAgil.Domain/Agent/AgentPrompts.cs:130-141 | a number padded with zeros to a width reads back as that number |
| EnvironmentVariableExtensions.GetEnvironmentVariable | ProAgil.Domain/EnvironmentVariableExtension.cs:69-97 | the environment variable wins unless it is null or empty and a config-file key is given; the configuration defaults to the application settings; null gives `default(T)` |
| EnvironmentVariableExtensions.GetEnvironmentByConfigFile | ProAgil.Domain/EnvironmentVariableExtension.cs:99-121 | only the configuration is read; an empty key gives `default(T)` |
| EnvironmentVariableExtensions.GetEnvironmentVariableOnly | ProAgil.Domain/EnvironmentVariableExtension.cs:123-137 | only the environment is read; an empty or unset key gives `default(T)` |
| EnvironmentVariableExtensions.GetNetCoreEnv | ProAgil.Domain/EnvironmentVariableExtension.cs:149-161 | DOTNET_ENVIRONMENT when set and non-empty, otherwise ASPNETCORE_ENVIRONMENT |
| EnvironmentVariableExtensions.IsProduction | ProAgil.Domain/EnvironmentVariableExtension.cs:139-147 | production exactly when the hosting environment is "Production" or "Prod" in any case |
| EnvironmentVariableExtensions.DotnetEnvironmentWins | ProAgil.Domain/EnvironmentVariableExtension.cs:149-161 | with DOTNET_ENVIRONMENT set, ASPNETCORE_ENVIRONMENT changes neither the hosting environment nor `IsProduction` |
| EnvironmentVariableExtensions.ProductionExamples | ProAgil.Domain/EnvironmentVariableExtension.cs:139-161 | "Production" and "prod" make a production host; an empty DOTNET_ENVIRONMENT defers to ASPNETCORE_ENVIRONMENT; no variables is not production |
| EnvironmentVariableExtensions.EnvironmentFileName | ProAgil.Domain/EnvironmentVariableExtension.cs:18-19 | "." + environment is inserted before the last ".json"; a name without ".json" throws |
| EnvironmentVariableExtensions.EnvironmentFileNameInverse | ProAgil.Domain/EnvironmentVariableExtension.cs:18-19 | removing the inserted text gives the file name back |
| EnvironmentVariableExtensions.AppSettingsFileName | ProAgil.Domain/EnvironmentVariableExtension.cs:18-19 | the application settings' environment file is "appsettings.<env>.json" |
| EnvironmentVariableExtensions.BuildLookup | ProAgil.Domain/EnvironmentVariableExtension.cs:12-27 | a key is configured exactly when some file defines it, and comes from the last file that does |
| EnvironmentVariableExtensions.BuildDefines | ProAgil.Domain/EnvironmentVariableExtension.cs:12-27 | a key is configured exactly when some added file defines it |
| EnvironmentVariableExtensions.BuildLast | ProAgil.Domain/EnvironmentVariableExtension.cs:12-27 | a configured key's value comes from the last added file that defines it |
| EnvironmentVariableExtensions.SourcesShape | ProAgil.Domain/EnvironmentVariableExtension.cs:12-25 | the environment file is added after the base file exactly when the hosting environment is not blank |
| EnvironmentVariableExtensions.EnvironmentFileOverrides | ProAgil.Domain/EnvironmentVariableExtension.cs:14-27 | a key of the environment file wins; any other key keeps the base file's value |
| EnvironmentVariableExtensions.ConfigSettings.constructor | ProAgil.Domain/EnvironmentVariableExtension.cs:61-64 | the application settings are loaded from "appsettings.json" with its environment file over it |
| EnvironmentVariableExtensions.ConfigSettings.LoadConfiguration | ProAgil.Domain/EnvironmentVariableExtension.cs:10-28 | the configuration becomes the files built in order; when the environment file name cannot be formed the exception escapes and the configuration is unchanged |
| EnvironmentVariableExtensions.ConfigSettings.GetValue | ProAgil.Domain/EnvironmentVariableExtension.cs:30-33 | the configured value or null; before loading, the null configuration throws |
| ProAgilRepository.Repository.constructor | ProAgil.Repository/ProAgilRepository.cs:12-15 | a repository over the given rows, query fault and save outcome, with nothing issued yet |
| ProAgilRepository.Repository.GetEventByIdAsync | ProAgil.Repository/IProAgilRepository.cs:16 | the stored event with this id, null when there is none, or the database's exception |
| ProAgilRepository.Repository.GetEventoByIdAsync | ProAgil.WebApi/Controllers/EventoController.cs:133 | the stored evento with this id, null when there is none, or the database's exception |
| ProAgilRepository.Repository.DeleteRange | ProAgil.Repository/IProAgilRepository.cs:23 | one range deletion is queued, nothing else changes |
| ProAgilRepository.Repository.Update | ProAgil.Repository/ProAgilRepository.cs:22-25 | one update is queued, nothing else changes |
| ProAgilRepository.Repository.Delete | ProAgil.Repository/ProAgilRepository.cs:27-30 | one removal is queued, nothing else changes |
| ProAgilRepository.Repository.SaveChangesAsync | ProAgil.Repository/ProAgilRepository.cs:32-35 | true exactly when the commit wrote more than zero rows, false for zero, and the context's exception passes through |
| WebApi.IdsOf | ProAgil.WebApi/Controllers/EventController.cs:169-176 | one id per item, in list order |
| WebApi.IdsOfMembers | ProAgil.WebApi/Controllers/EventController.cs:169-170 | an id is collected exactly when some item carries it |
| WebApi.CollectIds | ProAgil.WebApi/Controllers/EventoController.cs:136-140 | the `ForEach` loop collects exactly the items' ids, in order |
| WebApi.DeleteIfAny | ProAgil.WebApi/Controllers/EventController.cs:172-173 | a range deletion is issued exactly when there is something to delete |
| WebApi.UpdateAnswer | ProAgil.WebApi/Controllers/EventController.cs:190-203 | 201 exactly when rows were written, 400 when none were, 500 with the prefix and the exception's message when the save threw |
| WebApi.DeleteAnswer | ProAgil.WebApi/Controllers/EventController.cs:251-264 | 200 exactly when rows were written, 400 when none were, 500 with a fixed message when the save threw |
| EventController.PruneChildren | ProAgil.WebApi/Controllers/EventController.cs:165-182 | the method issues exactly the deletions of `Pruning` |
| EventController.Put | ProAgil.WebApi/Controllers/EventController.cs:155-204 | the answer and the changes issued are those of `PutOutcome` for the stored event and the save's result |
| EventController.SimpleUpdate | ProAgil.WebApi/Controllers/EventController.cs:206-236 | the answer and the changes issued are those of `SimpleUpdateOutcome` |
| EventController.Delete | ProAgil.WebApi/Controllers/EventController.cs:238-265 | the answer and the changes issued are those of `DeleteOutcome` |
| EventController.NothingIssuedUnlessFound | ProAgil.WebApi/Controllers/EventController.cs:161-200 | a missing event or a failed lookup issues no change; missing is 404 and a failed lookup 500 |
| EventController.StaleBatchesExactly | ProAgil.WebApi/Controllers/EventController.cs:165-170 | the batches deleted are exactly the stored batches no request batch lists; a null list deletes them all |
| EventController.StaleSocialNetworksFollowBatches | ProAgil.WebApi/Controllers/EventController.cs:175-179 | the social networks deleted are the stored ones whose id no request *batch* carries, whatever the request's social networks say |
| EventController.KeptSocialNetworkDeleted | ProAgil.WebApi/Controllers/EventController.cs:175-182 | a social network the request keeps is deleted when no batch shares its id |
| EventController.PutIssues | ProAgil.WebApi/Controllers/EventController.cs:170-190 | `Put` ends with the update and the save, never issues an empty range deletion, and deletes stale batches first exactly when there are any |
| EventController.UpdateAnswers | ProAgil.WebApi/Controllers/EventController.cs:190-203 | Created at `/api/event/{id}` with the mapped event when rows were written, BadRequest when none, 500 "Database failed " and the message when the save threw |
| EventController.SimpleUpdateIsPutWithoutPruning | ProAgil.WebApi/Controllers/EventController.cs:206-236 | `SimpleUpdate` answers like `Put` and issues the same changes without the deletions |
| EventController.DeleteAnswers | ProAgil.WebApi/Controllers/EventController.cs:238-265 | 404 exactly for a missing event, Ok exactly when rows were written, 500 with a fixed message, and the removal and save for a stored event |
| EventoController.PruneChildren | ProAgil.WebApi/Controllers/EventoController.cs:142-151 | the method issues exactly the deletions of `Pruning` |
| EventoController.Put | ProAgil.WebApi/Controllers/EventoController.cs:127-168 | the answer and the changes issued are those of `PutOutcome` |
| EventoController.PutFound | ProAgil.WebApi/Controllers/EventoController.cs:136-167 | for a stored evento, the answer and the changes issued are those of `PutOutcome` for that evento |
| EventoController.Delete | ProAgil.WebApi/Controllers/EventoController.cs:170-191 | the answer and the changes issued are those of `DeleteOutcome` |
| EventoController.NothingIssuedUnlessFound | ProAgil.WebApi/Controllers/EventoController.cs:133-165 | a missing evento or a failed lookup issues no change; missing is 404 and a failed lookup 500 |
| EventoController.NullListFails | ProAgil.WebApi/Controllers/EventoController.cs:139-165 | a null list in the request is a 500 with the null reference's message; otherwise a null list in the stored evento is a 500 with the null `source` message of ArgumentNullException; neither issues a change |
| EventoController.StaleLotesExactly | ProAgil.WebApi/Controllers/EventoController.cs:139-144 | the lotes deleted are exactly the stored lotes no request lote lists |
| EventoController.StaleRedesSociaisFollowLotes | ProAgil.WebApi/Controllers/EventoController.cs:146-148 | the redes sociais deleted are the stored ones whose id no request *lote* carries, whatever the request's redes sociais say |
| EventoController.PutDeletesOnlyWhenAny | ProAgil.WebApi/Controllers/EventoController.cs:150-151 | `Put` never issues an empty range deletion |
| EventoController.UpdateAnswers | ProAgil.WebApi/Controllers/EventoController.cs:157-167 | Created at `/api/evento/{id}` when rows were written, BadRequest when none, 500 "Banco Dados Falhou " and the message when the save threw |
| EventoController.DeleteAnswers | ProAgil.WebApi/Controllers/EventoController.cs:170-191 | 404 exactly for a missing evento, Ok exactly when rows were written, 500 with a fixed message, and the removal and save for a stored evento |
| Clr.DefaultValue | ProAgil.Domain/Agent/ParameterExtractionService.cs:70-72 | `default(T)` is null exactly for reference types and `Nullable<T>` |
| Calendar.DaysInMonth | ProAgil.Domain/Agent/AgentPrompts.cs:119 | February has 29 days in a leap year and 28 otherwise; April, June, September and November have 30; the other months 31 |
| Text.Trim | ProAgil.Domain/Agent/AgentService.cs:118 | the trimmed text has no white space at either end and is no longer than the original |
| Text.TrimRemovesWhiteSpace | ProAgil.Domain/Agent/AgentService.cs:118 | trimming removes white space only: the trimmed text sits in the original with nothing but white space before and after it |
| Text.TrimOfTrimmed | ProAgil.Domain/Agent/AgentService.cs:118 | trimming text without white space at its ends changes nothing |
| Text.Split | ProAgil.Domain/Agent/AgentService.cs:129 | splitting gives one piece more than there are separators, and no piece holds the separator |
| Text.SplitJoin | ProAgil.Domain/Agent/AgentService.cs:129 | joining the pieces with the separator gives the text back |
| Linq.Take | ProAgil.Domain/Agent/AgentPrompts.cs:396 | `Take(n)` is the first min(n, length) items, none for n <= 0 |
| Linq.OrderBy | ProAgil.Domain/Agent/MultiStepExecutor.cs:97 | ordering is a permutation of the items |
| Linq.OrderBySorted | ProAgil.Domain/Agent/MultiStepExecutor.cs:97 | under a total preorder the ordered items are sorted |
| Linq.OrderByStable | ProAgil.Domain/Agent/ApiDocumentationService.cs:37 | ordering is stable: items with equal keys keep their relative order |
| JsonHelper.ArrayRoundTrip | ProAgil.Domain/Agent/JsonHelper.cs:69-109 | converting an array whose elements round-trip gives the array back |
| JsonHelper.ObjectRoundTrip | ProAgil.Domain/Agent/JsonHelper.cs:69-109 | converting an object with distinct member names whose values round-trip gives the object back |

## Left out

- Prompt wording. `BuildIdentificationPrompt`, `BuildExecutionAnalysisPrompt`, `BuildDataTransformationPrompt` and `BuildParameterMappingPrompt` only produce text for the LLM. In this model the LLM's reply does not depend on that text, so the text is not built.
- AgentService.Dispatch: `ProcessMessage` first calls `GenerateApiDocumentation()` inside its `try` (ProAgil.Domain/Agent/AgentService.cs:77). That text only feeds the identification prompt, whose wording is not built, and generating it cannot throw in this model, so the call is not part of `Dispatch`. The documentation itself is modelled on its own by `ApiDocumentationService.GenerateApiDocumentation`.
- `BuildExtractionPrompt` keeps its data-bearing lines (dates, names, parameter info, examples) and the ways building it can throw. Its fixed guidance sentences are reduced to each branch's opening line.
- `GetXmlDocumentation` does not read the XML documentation file. What that read yields (no file, no summary, a summary, a failure) is given as data.
- Ordering by `RelativePath` and string comparison are ordinal. Case-insensitive comparison upper-cases ASCII letters only; culture rules are not modelled.
- Console output and logging are left out because they do not affect results. So are the concurrency of `async`/`await` and the singleton lock of `ConfigAppSettings.Instance`.
- `DateTime.Now` becomes a `today` date plus a `clock` string. `Task.Delay` is recorded as a list of waits instead of being slept.
- The LLM (Gemini HTTP calls) is a parameter: a stream of replies or exceptions indexed by request number.
- Reflection, controller instantiation and method invocation are parameters: an assembly registry and an abstract invoker.
- System.Text.Json parsing and typed binding are parameters.
- `ExecutionStep.ParameterMappings` is never read by the source and is not kept.
- The messages of `RuntimeBinderException` and of System.Text.Json exceptions are fixed placeholder texts. .NET's exact wording is not reproduced.
- EnvironmentVariableExtensions.ConvertValue: `Convert.ChangeType` is modelled for string, int and bool targets only. DateTime, floating-point and other numeric targets are treated as failed conversions that give `default(T)`. The null character trimmed by `bool.Parse` is included, but no other culture-specific parsing is.
- AgentService.ErrorsBecomeReplies: the `stackTrace` member of the error reply (ProAgil.Domain/Agent/AgentService.cs:96-101) is not modelled, because a stack trace depends on the runtime's frames; the reply keeps `success` and `message`.
- JsonHelper.ToJson: `JsonSerializer.Serialize` is modelled as total. It can throw on object cycles or on member types it cannot serialize; inside a step (ProAgil.Domain/Agent/MultiStepExecutor.cs:242-306) such a throw would end the run with "Error in step N", which the model never produces from serialization.
- GeminiApiService.RetryWaits: the waits are unbounded integers. `Task.Delay(delay * 1000)` computes milliseconds in 32 bits, which wraps for large delays, and throws ArgumentOutOfRangeException for a negative delay other than -1; neither is modelled.
- EventController.Put: the request body is always present in the model. A null `model` can reach the action only when it is invoked through reflection, since over HTTP `[ApiController]` (ProAgil.WebApi/Controllers/EventController.cs:18) answers 400 first. The source would then throw NullReferenceException at `model.Batches` (ProAgil.WebApi/Controllers/EventController.cs:168), after a successful lookup, and answer 500 with "Database failed " and that exception's message. This is not modelled.
- EventController.Put: the request's `Batches` and `SocialNetworks` lists are lists of present items in the model; a JSON body such as `"batches": [null]` cannot be expressed. In the source, a null item in `Batches` throws NullReferenceException at `item.Id` (ProAgil.WebApi/Controllers/EventController.cs:169) before anything is queued. A null item in `SocialNetworks` throws at ProAgil.WebApi/Controllers/EventController.cs:176, after the stale-batch `DeleteRange` (ProAgil.WebApi/Controllers/EventController.cs:173) has been queued, and the log then holds that deletion with no `Update` or save. Either way the answer is 500 with "Database failed " and the exception's message. This is not modelled.
- EventController.PruneChildren: for the same reason, the throw on a null list item at ProAgil.WebApi/Controllers/EventController.cs:169 or :176 is not modelled; its contract covers requests whose list items are all present.
- EventController.SimpleUpdate: a null `model`, possible only through reflection as for `Put`, is not modelled. The source would throw NullReferenceException at `model.Theme` (ProAgil.WebApi/Controllers/EventController.cs:218) and answer 500 with "Database failed " and that message.
- EventoController.Put: a null `model`, possible only through reflection as in `EventController`, is not modelled. The source would throw NullReferenceException at `model.Lotes` (ProAgil.WebApi/Controllers/EventoController.cs:139) and answer 500 with "Banco Dados Falhou " and that message.
- EventoController.Put: a null item inside the request's `Lotes` or `RedesSociais` list cannot be expressed in the model. In the source, the `ForEach` at ProAgil.WebApi/Controllers/EventoController.cs:139-140 throws NullReferenceException at `item.Id` before any change is queued, and the answer is 500 with "Banco Dados Falhou " and that exception's message. This is not modelled.
- EventoController.PutFound: the same null list item case (ProAgil.WebApi/Controllers/EventoController.cs:139-140) is not modelled; its contract covers requests whose list items are all present.
- The AutoMapper profile is kept abstract, as a pair of functions, because the mapping itself is configuration outside these controllers.
- Entity Framework's change tracking is not modelled. `Update`, `Delete` and `DeleteRange` are assumed never to throw, and each only records its command.
- Each repository has one save outcome, the rows written or an exception, fixed for its lifetime.
- `GetEventoByIdAsync` and the repository's query implementations are not part of this model. The lookup answers from the stored rows by id, or throws the repository's query fault.
- The other actions of `EventController` and `EventoController` (`Get`, `Post`, searches) are left out: they are outside the modelled core.
- Integers in JSON are unbounded in the model. Their 32- and 64-bit bounds appear only where the source converts (`int.Parse`, `ConvertJsonElement`'s `TryGetInt64`).

## Findings

| source | as written | input that shows it | evidently intended | confidence | as-written member | corrected member |
|---|---|---|---|---|---|---|
| ProAgil.Domain/Agent/ControllerInvoker.cs:43 | `Assembly.Load("Globo.Giro.UI.WebApi")`, an assembly this repository does not contain, so the load throws | `Event.Get`, whose `EventController.Get` is tagged `HttpGet` | load the web API assembly `ProAgil.WebApi`, where the controllers live | not executed | ControllerInvoker.AsWrittenFindsNothing | ControllerInvoker.FindSucceedsIff |

=== FILE: agent_controller.dfy ===
/**
  AgentController: the HTTP endpoints in front of the agent. `ProcessMessage` guards the
  request, hands the message to the agent service and wraps its answer; `Health` reports that
  the service is up.

  The agent service is a function from the message to its answer or exception, so that the
  controller can be read apart from any one implementation of it.
*/
module AgentController {
  import opened Wrappers
  import opened Text
  import opened Clr
  import opened MultiStep
  import AgentService

  /** The request body: `Message` may be null when the client sends it so. */
  datatype AgentRequest = AgentRequest(message: Option<string>)

  /** The action results, with the anonymous objects they carry. */
  datatype ActionResult<T> =
    | BadRequestObject(message: string)                        // 400, success = false
    | OkObject(value: T)                                       // 200
    | InternalServerError(message: string, error: string)      // 500, success = false
  {
    function StatusCode(): int {
      match this
      case BadRequestObject(_) => 400
      case OkObject(_) => 200
      case InternalServerError(_, _) => 500
    }
  }

  const EmptyMessage: string := "A mensagem não pode estar vazia."
  const ProcessingFailed: string := "Falha ao processar a mensagem"

  /** The guard of `ProcessMessage`: no request, or a message that is null or blank. */
  predicate IsBlank(request: Option<AgentRequest>) {
    request.None? || IsNullOrWhiteSpace(request.value.message)
  }

  /** `ProcessMessage`: a blank request is refused; any other message is forwarded unchanged, and
      the agent's answer is returned with status 200, or its exception with status 500. */
  function ProcessMessage<T>(request: Option<AgentRequest>, agent: string -> Result<T>): (r: ActionResult<T>)
    ensures IsBlank(request) <==> r.BadRequestObject?
    ensures r.BadRequestObject? ==> r.message == EmptyMessage
    ensures !IsBlank(request) ==>
      (match agent(request.value.message.value)
       case Ok(v) => r == OkObject(v)
       case Throws(e) => r == InternalServerError(ProcessingFailed, e.message))
  {
    if IsBlank(request) then BadRequestObject(EmptyMessage)
    else
      match agent(request.value.message.value)
      case Ok(v) => OkObject(v)
      case Throws(e) => InternalServerError(ProcessingFailed, e.message)
  }

  /** A refused request never reaches the agent: the result is the same whatever the agent. */
  lemma BlankNeverForwarded<T>(request: Option<AgentRequest>, agent: string -> Result<T>, other: string -> Result<T>)
    requires IsBlank(request)
    ensures ProcessMessage(request, agent) == ProcessMessage(request, other)
    ensures ProcessMessage(request, agent).StatusCode() == 400
  {
  }

  /** The agent service of this repository as the controller calls it: it answers every message,
      so the controller never reports status 500. */
  function Agent(w: World, k: nat): string -> Result<AgentService.Reply> {
    (message: string) => Ok(AgentService.ProcessMessage(message, w, k).reply)
  }

  lemma ServiceNeverFails(request: Option<AgentRequest>, w: World, k: nat)
    ensures ProcessMessage(request, Agent(w, k)).StatusCode() != 500
    ensures !IsBlank(request) ==>
      ProcessMessage(request, Agent(w, k)) == OkObject(AgentService.ProcessMessage(request.value.message.value, w, k).reply)
  {
  }

  /** The anonymous object `Health` returns. */
  datatype HealthStatus = HealthStatus(status: string, service: string)

  /** `Health`: always "healthy", with status 200. */
  function Health(): (r: ActionResult<HealthStatus>)
    ensures r.StatusCode() == 200 && r.value.status == "healthy" && r.value.service == "AgentService"
  {
    OkObject(HealthStatus("healthy", "AgentService"))
  }
}

=== FILE: agent_prompts.dfy ===
/**
  AgentPrompts: the parts of the extraction prompt that depend on data — the calendar anchors
  computed from the current date, which filling instructions the first parameter gets, and the
  example object listing at most five properties.

  The fixed guidance sentences of each prompt are not reproduced: each instruction branch keeps
  its opening line and the lines that carry data (parameter names, type names, dates).
*/
module AgentPrompts {
  import opened Wrappers
  import opened Text
  import opened Clr
  import opened Calendar
  import opened ControllerInvoker
  import opened TypeHelper
  import ParameterInfoBuilder

  // ---------------------------------------------------------------- date anchors

  /** The calendar ranges placed in the "CONTEXTO TEMPORAL" section. */
  datatype Anchors = Anchors(
    firstOfMonth: Date, lastOfMonth: Date,
    firstOfLastMonth: Date, lastOfLastMonth: Date,
    firstOfYear: Date, lastOfYear: Date,
    firstOfWeek: Date, lastOfWeek: Date)

  /** What `AddMonths` throws when the result leaves 0001-01-01..9999-12-31. The anchors fail
      only in January 0001 and December 9999, and there a month shift is the first call to fail. */
  function OutOfRange(): Exception {
    Error(ArgumentOutOfRange, "The added or subtracted value results in an un-representable DateTime. (Parameter 'months')")
  }

  /** Going back one day is `Prev`. */
  lemma AddDaysMinusOne(d: Date)
    requires Valid(d) && d != MinDate
    ensures AddDays(d, -1) == Prev(d)
  {
  }

  /** `firstDayOfMonth.AddMonths(1).AddDays(-1)`: the last day of the month, which exists unless
      the month is December 9999. */
  function LastDayOfMonth(first: Date): (r: Option<Date>)
    requires Valid(first) && first.day == 1
    ensures r.Some? <==> !(first.year == 9999 && first.month == 12)
    ensures r.Some? ==> r.value == Date(first.year, first.month, DaysInMonth(first.year, first.month))
  {
    match AddMonths(first, 1)
    case None => None
    case Some(nextFirst) =>
      AddDaysMinusOne(nextFirst);
      DayBeforeNextMonth(first, nextFirst);
      AddDays(nextFirst, -1)
  }

  /** The day before the first of the following month is the last day of this month. */
  lemma DayBeforeNextMonth(first: Date, nextFirst: Date)
    requires Valid(first) && first.day == 1 && Valid(nextFirst) && nextFirst.day <= 1
    requires 12 * nextFirst.year + nextFirst.month == 12 * first.year + first.month + 1
    ensures nextFirst != MinDate
    ensures Prev(nextFirst) == Some(Date(first.year, first.month, DaysInMonth(first.year, first.month)))
  {
    if first.month == 12 {
      assert nextFirst.year == first.year + 1 && nextFirst.month == 1;
    } else {
      assert nextFirst.year == first.year && nextFirst.month == first.month + 1;
    }
  }

  /** `firstDayOfMonth.AddMonths(-1)`: the first day of the previous month. */
  function FirstOfPreviousMonth(first: Date): (r: Option<Date>)
    requires Valid(first) && first.day == 1
    ensures r.Some? <==> !(first.year == 1 && first.month == 1)
    ensures r.Some? ==>
      && Valid(r.value) && r.value.day == 1
      && 12 * r.value.year + r.value.month == 12 * first.year + first.month - 1
  {
    AddMonths(first, -1)
  }

  /** `firstDayOfMonth.AddDays(-1)`: the last day of the previous month. */
  function LastOfPreviousMonth(first: Date): (r: Option<Date>)
    requires Valid(first) && first.day == 1
    ensures r.Some? <==> !(first.year == 1 && first.month == 1)
    ensures r.Some? ==>
      && Valid(r.value) && DayNumber(r.value) + 1 == DayNumber(first)
      && r.value == Date(r.value.year, r.value.month, DaysInMonth(r.value.year, r.value.month))
      && 12 * r.value.year + r.value.month == 12 * first.year + first.month - 1
  {
    if first == MinDate then None
    else
      AddDaysMinusOne(first);
      AddDays(first, -1)
  }

  /** `currentDate.AddDays(-(int)currentDate.DayOfWeek)`: the Sunday starting the week. */
  function WeekStart(c: Date): (r: Option<Date>)
    requires Valid(c)
    ensures r.Some? <==> DayOfWeek(c) <= DayNumber(c)
    ensures r.Some? ==>
      && Valid(r.value) && DayOfWeek(r.value) == 0
      && DayNumber(r.value) == DayNumber(c) - DayOfWeek(c)
  {
    var w := DayOfWeek(c);
    AddDaysBackward(c, w);
    var r := AddDays(c, -w);
    if r.Some? then
      BackToSunday(c, r.value);
      r
    else r
  }

  /** Going back from `c` by its day of the week lands on a Sunday. */
  lemma BackToSunday(c: Date, d: Date)
    requires Valid(c) && Valid(d) && DayNumber(d) == DayNumber(c) - DayOfWeek(c)
    ensures DayOfWeek(d) == 0
  {
    var m := DayNumber(c) + 1;
    assert m - m % 7 == 7 * (m / 7);
    assert DayNumber(d) + 1 == 7 * (m / 7);
  }

  /** Outside January of year 1 a date is at least six days after 0001-01-01. */
  lemma SixDaysIn(c: Date)
    requires Valid(c) && !(c.year == 1 && c.month == 1)
    ensures DayNumber(c) >= 6
  {
    if c.year >= 2 {
      DaysBeforeYearMonotonic(2, c.year);
    }
  }

  /** The anchors of `BuildExtractionPrompt`, computed in the order the source computes them;
      the first unrepresentable intermediate date throws. */
  function DateAnchors(c: Date): (r: Result<Anchors>)
    requires Valid(c)
    ensures r.Throws? ==> r.error == OutOfRange()
    ensures r.Ok? ==> AnchorsValid(r.value)
  {
    var first := Date(c.year, c.month, 1);
    var lastOfMonth := LastDayOfMonth(first);
    var firstOfLastMonth := FirstOfPreviousMonth(first);
    var lastOfLastMonth := LastOfPreviousMonth(first);
    var firstOfWeek := WeekStart(c);
    if lastOfMonth.None? || firstOfLastMonth.None? || lastOfLastMonth.None? || firstOfWeek.None? then
      Throws(OutOfRange())
    else
      var lastOfWeek := AddDays(firstOfWeek.value, 6);
      if lastOfWeek.None? then Throws(OutOfRange())
      else
        Ok(Anchors(first, lastOfMonth.value, firstOfLastMonth.value, lastOfLastMonth.value,
          Date(c.year, 1, 1), Date(c.year, 12, 31), firstOfWeek.value, lastOfWeek.value))
  }

  /** The anchors can be computed for every date except those of January 0001 (no previous
      month) and December 9999 (no next month). */
  lemma AnchorsDefined(c: Date)
    requires Valid(c)
    ensures DateAnchors(c).Ok? <==> !(c.year == 1 && c.month == 1) && !(c.year == 9999 && c.month == 12)
  {
    if !(c.year == 1 && c.month == 1) && !(c.year == 9999 && c.month == 12) {
      AnchorsInside(c);
    } else {
      AnchorsAtEdges(c);
    }
  }

  lemma AnchorsInside(c: Date)
    requires Valid(c) && !(c.year == 1 && c.month == 1) && !(c.year == 9999 && c.month == 12)
    ensures DateAnchors(c).Ok?
  {
    SixDaysIn(c);
    var fw := WeekStart(c).value;
    BeforeLastMonth(c);
    AddDaysForward(fw, 6);
  }

  lemma AnchorsAtEdges(c: Date)
    requires Valid(c) && ((c.year == 1 && c.month == 1) || (c.year == 9999 && c.month == 12))
    ensures DateAnchors(c).Throws?
  {
  }

  /** Where each anchor comes from. */
  lemma AnchorsParts(c: Date)
    requires Valid(c) && DateAnchors(c).Ok?
    ensures var a := DateAnchors(c).value;
      var first := Date(c.year, c.month, 1);
      && a.firstOfMonth == first
      && LastDayOfMonth(first) == Some(a.lastOfMonth)
      && FirstOfPreviousMonth(first) == Some(a.firstOfLastMonth)
      && LastOfPreviousMonth(first) == Some(a.lastOfLastMonth)
      && WeekStart(c) == Some(a.firstOfWeek)
      && AddDays(a.firstOfWeek, 6) == Some(a.lastOfWeek)
      && a.firstOfYear == Date(c.year, 1, 1) && a.lastOfYear == Date(c.year, 12, 31)
  {
  }

  /** This month runs from its first day to its last valid day, leap years included; the year
      range is 1 January to 31 December. */
  lemma AnchorsMonth(c: Date)
    requires Valid(c) && DateAnchors(c).Ok?
    ensures var a := DateAnchors(c).value;
      && a.firstOfMonth == Date(c.year, c.month, 1)
      && a.lastOfMonth == Date(c.year, c.month, DaysInMonth(c.year, c.month))
      && a.firstOfYear == Date(c.year, 1, 1)
      && a.lastOfYear == Date(c.year, 12, 31)
  {
    AnchorsParts(c);
  }

  /** Last month runs from the first to the last day of the month before this one, and ends the
      day before this month begins. */
  lemma AnchorsLastMonth(c: Date)
    requires Valid(c) && DateAnchors(c).Ok?
    ensures var a := DateAnchors(c).value;
      var f := a.firstOfLastMonth;
      && f.day == 1
      && 12 * f.year + f.month == 12 * c.year + c.month - 1
      && a.lastOfLastMonth == Date(f.year, f.month, DaysInMonth(f.year, f.month))
      && DayNumber(a.lastOfLastMonth) + 1 == DayNumber(a.firstOfMonth)
  {
    AnchorsParts(c);
    var a := DateAnchors(c).value;
    MonthIndexInjective(a.firstOfLastMonth.year, a.firstOfLastMonth.month,
      a.lastOfLastMonth.year, a.lastOfLastMonth.month);
  }

  /** A month is determined by its count `12 * year + month`. */
  lemma MonthIndexInjective(y1: int, m1: int, y2: int, m2: int)
    requires 1 <= m1 <= 12 && 1 <= m2 <= 12 && 12 * y1 + m1 == 12 * y2 + m2
    ensures y1 == y2 && m1 == m2
  {
  }

  /** The week starts on the Sunday at most six days back and ends six days after it. */
  lemma AnchorsWeek(c: Date)
    requires Valid(c) && DateAnchors(c).Ok?
    ensures var a := DateAnchors(c).value;
      && DayOfWeek(a.firstOfWeek) == 0
      && DayNumber(a.firstOfWeek) == DayNumber(c) - DayOfWeek(c)
      && DayNumber(c) - 6 <= DayNumber(a.firstOfWeek) <= DayNumber(c)
      && DayNumber(a.lastOfWeek) == DayNumber(a.firstOfWeek) + 6
  {
    AnchorsParts(c);
  }

  // ---------------------------------------------------------------- instruction branches

  /** Which block of filling instructions `BuildParameterInstructions` writes. */
  datatype Branch = IntegerBranch | StringBranch | ListBranch | ComplexBranch | NoInstructions

  /** The type tests of `BuildParameterInstructions`, in their order. */
  function SelectBranch(t: ClrType): Branch {
    if t == IntType || t == NullableOf(IntType) then IntegerBranch
    else if t == StringType then StringBranch
    else if t.ListOf? then ListBranch
    else if IsClass(t) then ComplexBranch
    else NoInstructions
  }

  /** The complex-object rules go to classes other than string and List<T>; string, although a
      class, always gets the string text; value types other than int and int? get nothing. */
  lemma BranchOrder(t: ClrType)
    ensures SelectBranch(t) == ComplexBranch <==> IsClass(t) && t != StringType && !t.ListOf?
    ensures SelectBranch(t) == NoInstructions <==> IsValueType(t) && t != IntType && t != NullableOf(IntType)
    ensures IsClass(StringType) && SelectBranch(StringType) == StringBranch
    ensures SelectBranch(t) == IntegerBranch <==> t == IntType || t == NullableOf(IntType)
  {
  }

  const ExamplesHeading: string := "### Exemplos:"
  const ContinuationLine: string := "    // ... outras propriedades"
  const ExampleCap: int := 5

  /** The line giving the example value of one property. */
  function PropertyExampleLine(p: Prop, today: Date): string
    requires Valid(today)
  {
    "    \"" + p.name + "\": " + GetExampleValue(p.propType, today) + ","
  }

  function PropertyExampleLines(props: seq<Prop>, today: Date): (r: seq<string>)
    requires Valid(today)
    ensures |r| == |props|
    ensures forall i :: 0 <= i < |props| ==> r[i] == PropertyExampleLine(props[i], today)
  {
    if props == [] then []
    else PropertyExampleLines(props[..|props| - 1], today) + [PropertyExampleLine(props[|props| - 1], today)]
  }

  function OpenObjectLine(paramName: string): string {
    "  \"" + paramName + "\": {"
  }

  function DateLine(field: string, d: Date, time: string, last: bool): string
    requires Valid(d)
  {
    "    \"" + field + "\": \"" + FormatDate(d) + "T" + time + "\"" + (if last then "" else ",")
  }

  const ThisMonthExample: string := "Exemplo 1 - 'Liste os evento criados este mês':"
  const TodayExample: string := "Exemplo 2 - 'evento do palestrante Magazine Luiza criados hoje':"
  const SpeakerLine: string := "    \"Mnepalestrante\": \"Magazine Luiza\","
  const StartField: string := "DataInicioCriacao"
  const EndField: string := "DataTerminoCriacao"
  const StartOfDay: string := "00:00:00"
  const EndOfDay: string := "23:59:59"

  /** `BuildParameterExamples` for a type whose name contains "Filter": two filter objects, the
      first over this month, the second over today. */
  function FilterExampleLines(paramName: string, first: Date, last: Date, today: Date): seq<string>
    requires Valid(first) && Valid(last) && Valid(today)
  {
    [ExamplesHeading, "",
     ThisMonthExample, "{", OpenObjectLine(paramName),
     DateLine(StartField, first, StartOfDay, false),
     DateLine(EndField, last, EndOfDay, true),
     "  }", "}", "",
     TodayExample, "{", OpenObjectLine(paramName),
     SpeakerLine,
     DateLine(StartField, today, StartOfDay, false),
     DateLine(EndField, today, EndOfDay, true),
     "  }", "}"]
  }

  /** `BuildParameterExamples` for any other type: the first five properties with their example
      values, then a continuation comment when there are more. */
  function StructureExampleLines(paramName: string, t: ClrType, today: Date): seq<string>
    requires Valid(today)
  {
    ExampleLayout(paramName, Linq.Take(Properties(t), ExampleCap), |Properties(t)| > ExampleCap, today)
  }

  /** The example object: heading, opening line, the property lines, the continuation comment
      when `more`, the closing lines. */
  function ExampleLayout(paramName: string, taken: seq<Prop>, more: bool, today: Date): seq<string>
    requires Valid(today)
  {
    StructureHeading + [OpenObjectLine(paramName)] + PropertyExampleLines(taken, today)
      + (if more then [ContinuationLine] else []) + StructureClosing
  }

  function ExampleLines(paramName: string, t: ClrType, first: Date, last: Date, today: Date): seq<string>
    requires Valid(first) && Valid(last) && Valid(today)
  {
    if Contains(Name(t), "Filter") then FilterExampleLines(paramName, first, last, today)
    else StructureExampleLines(paramName, t, today)
  }

  const StructureHeading: seq<string> := [ExamplesHeading, "", "Estrutura esperada:", "{"]
  const StructureClosing: seq<string> := ["  }", "}"]

  /** The `Take(5)` loop of `BuildParameterExamples`. */
  method AppendPropertyExamples(lines: seq<string>, shown: seq<Prop>, today: Date) returns (r: seq<string>)
    requires Valid(today)
    ensures r == lines + PropertyExampleLines(shown, today)
  {
    r := lines;
    for i := 0 to |shown|
      invariant r == lines + PropertyExampleLines(shown[..i], today)
    {
      ExampleLinesStep(shown, i, today);
      r := r + [PropertyExampleLine(shown[i], today)];
    }
    assert shown[..|shown|] == shown;
  }

  lemma ExampleLinesStep(shown: seq<Prop>, i: nat, today: Date)
    requires Valid(today) && i < |shown|
    ensures PropertyExampleLines(shown[..i + 1], today)
      == PropertyExampleLines(shown[..i], today) + [PropertyExampleLine(shown[i], today)]
  {
    assert shown[..i + 1][..i] == shown[..i];
  }

  /** `BuildParameterExamples`: the lines appended to its StringBuilder. */
  method BuildParameterExamples(paramName: string, t: ClrType, first: Date, last: Date, today: Date)
    returns (lines: seq<string>)
    requires Valid(first) && Valid(last) && Valid(today)
    ensures lines == ExampleLines(paramName, t, first, last, today)
  {
    if Contains(Name(t), "Filter") {
      lines := FilterExampleLines(paramName, first, last, today);
    } else {
      var props := Properties(t);
      lines := AppendPropertyExamples(StructureHeading + [OpenObjectLine(paramName)],
                                      Linq.Take(props, ExampleCap), today);
      if |props| > ExampleCap {
        lines := lines + [ContinuationLine];
      }
      lines := lines + StructureClosing;
      assert lines == ExampleLayout(paramName, Linq.Take(props, ExampleCap), |props| > ExampleCap, today);
    }
  }

  /** A property example line is never the continuation comment. */
  lemma ExampleLineIsNotContinuation(p: Prop, today: Date)
    requires Valid(today)
    ensures PropertyExampleLine(p, today) != ContinuationLine
  {
    assert PropertyExampleLine(p, today)[4] == '"';
    assert ContinuationLine[4] == '/';
  }

  /** No line of the example object other than the continuation comment equals it. */
  lemma ContinuationAbsent(paramName: string, shown: seq<Prop>, today: Date)
    requires Valid(today)
    ensures ContinuationLine !in StructureHeading + [OpenObjectLine(paramName)]
                                 + PropertyExampleLines(shown, today) + StructureClosing
  {
    var lines := PropertyExampleLines(shown, today);
    assert ContinuationLine !in lines by {
      forall i | 0 <= i < |lines| ensures lines[i] != ContinuationLine {
        ExampleLineIsNotContinuation(shown[i], today);
      }
    }
    assert ContinuationLine !in StructureHeading + [OpenObjectLine(paramName)] by {
      assert OpenObjectLine(paramName)[2] == '"';
    }
    assert ContinuationLine !in StructureClosing;
  }

  /** Outside the "Filter" case exactly the first min(5, n) properties are shown, in order,
      followed by the continuation comment exactly when there are more than five. */
  lemma ExamplesCap(paramName: string, t: ClrType, first: Date, last: Date, today: Date)
    requires Valid(first) && Valid(last) && Valid(today)
    requires !Contains(Name(t), "Filter")
    ensures var lines := ExampleLines(paramName, t, first, last, today);
      var n := |Properties(t)|;
      var shown := if n < ExampleCap then n else ExampleCap;
      && |lines| == 7 + shown + (if n > ExampleCap then 1 else 0)
      && (forall i :: 0 <= i < shown ==> lines[5 + i] == PropertyExampleLine(Properties(t)[i], today))
      && (ContinuationLine in lines <==> n > ExampleCap)
  {
    var taken := Linq.Take(Properties(t), ExampleCap);
    var more := |Properties(t)| > ExampleCap;
    assert ExampleLines(paramName, t, first, last, today) == ExampleLayout(paramName, taken, more, today);
    ExampleLayoutShape(paramName, taken, more, today);
  }

  lemma ExampleLayoutShape(paramName: string, taken: seq<Prop>, more: bool, today: Date)
    requires Valid(today)
    ensures var lines := ExampleLayout(paramName, taken, more, today);
      && |lines| == 7 + |taken| + (if more then 1 else 0)
      && (forall i :: 0 <= i < |taken| ==> lines[5 + i] == PropertyExampleLine(taken[i], today))
      && (ContinuationLine in lines <==> more)
  {
    var lines := ExampleLayout(paramName, taken, more, today);
    var head := StructureHeading + [OpenObjectLine(paramName)];
    var shown := PropertyExampleLines(taken, today);
    assert |head| == 5;
    forall i | 0 <= i < |taken| ensures lines[5 + i] == PropertyExampleLine(taken[i], today) {
      assert lines[5 + i] == shown[i];
    }
    if more {
      assert lines[5 + |shown|] == ContinuationLine;
    } else {
      assert lines == head + shown + StructureClosing;
      ContinuationAbsent(paramName, taken, today);
    }
  }

  // ---------------------------------------------------------------- instructions

  const IntegerNotice: string := "IMPORTANTE: O parâmetro esperado é um número inteiro."
  const StringNotice: string := "IMPORTANTE: O parâmetro esperado é uma string."
  const ListNotice: string := "IMPORTANTE: O parâmetro esperado é uma lista de "
  const JsonArrayLine: string := "- Retorne um array JSON"
  const ComplexNotice: string := "IMPORTANTE: O parâmetro esperado é um objeto complexo."

  function ExampleFor(name: string): string {
    "Exemplo para '" + name + "': "
  }

  /** `BuildParameterInstructions`: the opening line of each branch and its data-bearing lines. */
  function InstructionLines(p: Param, first: Date, last: Date, today: Date): seq<string>
    requires Valid(first) && Valid(last) && Valid(today)
  {
    var t := p.paramType;
    match SelectBranch(t)
    case IntegerBranch =>
      [IntegerNotice, "", ExampleFor(p.name) + "42"]
    case StringBranch =>
      [StringNotice, "", ExampleFor(p.name) + "Magazine Luiza"]
    case ListBranch =>
      [ListNotice + Name(t.element) + ".", JsonArrayLine, "",
       "Exemplo: [" + (if t.element == IntType then "1, 2, 3" else "\"item1\", \"item2\"") + "]"]
    case ComplexBranch =>
      [ComplexNotice, ""] + ExampleLines(p.name, t, first, last, today)
    case NoInstructions => []
  }

  /** Every anchor is a date of the calendar. */
  predicate AnchorsValid(a: Anchors) {
    && Valid(a.firstOfMonth) && Valid(a.lastOfMonth)
    && Valid(a.firstOfLastMonth) && Valid(a.lastOfLastMonth)
    && Valid(a.firstOfYear) && Valid(a.lastOfYear)
    && Valid(a.firstOfWeek) && Valid(a.lastOfWeek)
  }

  /** The complete extraction prompt, one entry per `AppendLine`, once the anchors are known;
      `clock` is the time of day of `DateTime.Now` as "HH:mm:ss". */
  function PromptLines(message: string, controllerName: string, actionName: string,
                       parameters: seq<Param>, today: Date, clock: string, a: Anchors): seq<string>
    requires Valid(today) && AnchorsValid(a)
  {
    TemporalContext(today, clock, a)
    + RequestSection(message, controllerName, actionName, parameters)
    + FirstParameterInstructions(parameters, a, today)
    + ["", AnswerHeading]
  }

  const RoleLine: string := "Você é um assistente especializado em preencher parâmetros de APIs."
  const TemporalHeading: string := "## CONTEXTO TEMPORAL"
  const NowLabel: string := "- Data/hora atual: "
  const TodayLabel: string := "- Hoje: "
  const MonthLabel: string := "- Este mês: "
  const LastMonthLabel: string := "- Mês passado: "
  const WeekLabel: string := "- Esta semana: "
  const YearLabel: string := "- Este ano: "
  const RangeSeparator: string := " a "
  const MessageHeading: string := "## MENSAGEM DO USUÁRIO"
  const MethodHeading: string := "## MÉTODO A SER CHAMADO"
  const ParametersHeading: string := "## PARÂMETROS NECESSÁRIOS"
  const InstructionsHeading: string := "## INSTRUÇÕES DE PREENCHIMENTO"
  const AnswerHeading: string := "## RESPOSTA ESPERADA"

  /** "first a last", both as yyyy-MM-dd. */
  function DateRange(from: Date, to: Date): string
    requires Valid(from) && Valid(to)
  {
    FormatDate(from) + RangeSeparator + FormatDate(to)
  }

  /** The opening of the prompt: the role, then today's date and the anchors. */
  function TemporalContext(today: Date, clock: string, a: Anchors): seq<string>
    requires Valid(today) && AnchorsValid(a)
  {
    [RoleLine, "", TemporalHeading,
     NowLabel + FormatDate(today) + " " + clock,
     TodayLabel + FormatDate(today),
     MonthLabel + DateRange(a.firstOfMonth, a.lastOfMonth),
     LastMonthLabel + DateRange(a.firstOfLastMonth, a.lastOfLastMonth),
     WeekLabel + DateRange(a.firstOfWeek, a.lastOfWeek),
     YearLabel + DateRange(a.firstOfYear, a.lastOfYear), ""]
  }

  /** The user's message, the action to call and its parameters, up to the instructions. */
  function RequestSection(message: string, controllerName: string, actionName: string,
                          parameters: seq<Param>): seq<string>
  {
    [MessageHeading, message, "",
     MethodHeading, controllerName + "." + actionName, "",
     ParametersHeading,
     ParameterInfoBuilder.Render(ParameterInfoBuilder.InfoLines(parameters)), "",
     InstructionsHeading, ""]
  }

  predicate AnchorsOverflow(today: Date) {
    (today.year == 1 && today.month == 1) || (today.year == 9999 && today.month == 12)
  }

  /** `BuildExtractionPrompt`: the prompt, or the exception computing its anchors throws, which
      happens exactly when the anchors overflow. */
  function ExtractionPrompt(message: string, controllerName: string, actionName: string,
                            parameters: seq<Param>, today: Date, clock: string): (r: Result<seq<string>>)
    requires Valid(today)
    ensures r.Throws? <==> AnchorsOverflow(today)
    ensures r.Throws? ==> r.error == OutOfRange()
  {
    var anchors := DateAnchors(today);
    AnchorsDefined(today);
    if anchors.Throws? then Throws(anchors.error)
    else Ok(PromptLines(message, controllerName, actionName, parameters, today, clock, anchors.value))
  }

  /** Only the first parameter gets filling instructions. */
  function FirstParameterInstructions(parameters: seq<Param>, a: Anchors, today: Date): seq<string>
    requires Valid(a.firstOfMonth) && Valid(a.lastOfMonth) && Valid(today)
  {
    if parameters == [] then [] else InstructionLines(parameters[0], a.firstOfMonth, a.lastOfMonth, today)
  }

  /** The instructions depend on the first parameter alone, and there are none without parameters. */
  lemma InstructionsFirstOnly(parameters: seq<Param>, others: seq<Param>, a: Anchors, today: Date)
    requires Valid(a.firstOfMonth) && Valid(a.lastOfMonth) && Valid(today)
    ensures parameters == [] ==> FirstParameterInstructions(parameters, a, today) == []
    ensures parameters != [] ==>
      FirstParameterInstructions(parameters + others, a, today) == FirstParameterInstructions(parameters[..1], a, today)
  {
    if parameters != [] {
      assert (parameters + others)[0] == parameters[..1][0];
    }
  }
}

=== FILE: agent_service.dfy ===
/**
  AgentService: the entry point that turns a user message into the execution of one controller
  action, or of a multi-step plan.

  The LLM is the request stream of `GeminiApiService`; every operation takes the number `k` of
  requests made so far and reports how many it made. The identification prompt and the API
  documentation it embeds only shape what the LLM is asked, so they do not appear here.
*/
module AgentService {
  import opened Wrappers
  import opened Text
  import opened Clr
  import opened GeminiApiService
  import opened ControllerInvoker
  import opened ParameterExtraction
  import opened MultiStep

  const DefaultModel: string := "gemini-2.5-flash"
  const UnidentifiedMessage: string := "Could not identify the action to execute."
  const InvalidFormatPrefix: string := "Invalid format: "
  const ProcessingErrorPrefix: string := "Error processing: "

  /** The model used when `GEMINI_MODEL` is not configured. */
  function ModelName(configured: Option<string>): (r: string)
    ensures IsNullOrEmpty(configured) ==> r == DefaultModel
    ensures !IsNullOrEmpty(configured) ==> r == configured.value
    ensures r != ""
  {
    if IsNullOrEmpty(configured) then DefaultModel else configured.value
  }

  /** The anonymous objects of the single-operation path. */
  datatype SingleResult =
    | Unidentified
    | InvalidFormat(text: string)
    | Performed(data: Value, controller: string, action: string)
  {
    predicate Success() {
      Performed?
    }

    function Message(): Option<string> {
      match this
      case Unidentified => Some(UnidentifiedMessage)
      case InvalidFormat(text) => Some(InvalidFormatPrefix + text)
      case Performed(_, _, _) => None
    }
  }

  /** What the single-operation path did: its result or exception, and its LLM requests. */
  datatype Single = Single(outcome: Result<SingleResult>, calls: nat)

  /** The controller and action named by the identification reply: exactly two pieces around a
      single '.'. */
  function ControllerAction(reply: string): (r: Option<(string, string)>)
    ensures r.Some? <==> Count(reply, '.') == 1
    ensures r.Some? ==> Join([r.value.0, r.value.1], '.') == reply
  {
    var parts := Split(reply, '.');
    SplitJoin(reply, '.');
    if |parts| != 2 then None
    else
      assert parts[1..] == [parts[1]];
      Some((parts[0], parts[1]))
  }

  /** Resolution, argument extraction and invocation for a well-formed "Controller.Action". The
      resolved method's parameters are filled from the whole user message. */
  function Perform(controllerName: string, actionName: string, w: World, k: nat): Single {
    match FindControllerAndMethod(w.assemblies, controllerName, actionName)
    case Throws(e) => Single(Throws(e), 0)
    case Ok(target) =>
      Invoked(Extract(target.action.parameters, w.llm, k, w.today, w.parse, w.bind), controllerName, actionName, w)
  }

  /** The invocation with the extracted `args`; a failed extraction is the answer. */
  function Invoked(args: Extraction, controllerName: string, actionName: string, w: World): Single {
    match args.outcome
    case Throws(e) => Single(Throws(e), args.calls)
    case Ok(methodParams) =>
      match InvokeController(w.assemblies, w.invoke, controllerName, actionName, methodParams)
      case Throws(e) => Single(Throws(e), args.calls)
      case Ok(result) => Single(Ok(Performed(result, controllerName, actionName)), args.calls)
  }

  /** The resolution, extraction and invocation of a named controller action, given the number
      of the next LLM request. */
  type Performer = (string, string, nat) -> Single

  function PerformerOf(w: World): Performer {
    (controllerName: string, actionName: string, j: nat) => Perform(controllerName, actionName, w, j)
  }

  /** What `ExecuteSingleOperation` does with the identification request's outcome `run`: a
      blank reply and a reply that is not "Controller.Action" are failures; a named action is
      performed with the requests numbered after the identification. */
  function Identified(run: RetryRun, k: nat, perform: Performer): Single {
    match run.outcome
    case Throws(e) => Single(Throws(e), run.calls)
    case Ok(content) => Answer(TrimmedContent(content), run.calls, k, perform)
  }

  /** The same for a trimmed identification `reply`, after `calls` requests. */
  function Answer(reply: Option<string>, calls: nat, k: nat, perform: Performer): Single {
    if IsNullOrEmpty(reply) then Single(Ok(Unidentified), calls)
    else
      var named := ControllerAction(reply.value);
      if named.None? then Single(Ok(InvalidFormat(reply.value)), calls)
      else
        var done := perform(named.value.0, named.value.1, k + calls);
        Single(done.outcome, calls + done.calls)
  }

  /** `ExecuteSingleOperation`, with the LLM requests numbered from `k`. */
  function ExecuteSingleOperation(w: World, k: nat): Single {
    Identified(Retry(w.llm, k, DefaultMaxRetries, DefaultDelaySeconds), k, PerformerOf(w))
  }

  /** The objects `ProcessMessage` returns: a multi-step result, a single-operation result, or
      the error object built from an exception. */
  datatype Reply =
    | MultiStepReply(run: MultiStepResult)
    | SingleReply(single: SingleResult)
    | ProcessingError(message: string)

  datatype Processed = Processed(reply: Reply, calls: nat)

  function ErrorReply(e: Exception): Reply {
    ProcessingError(ProcessingErrorPrefix + e.message)
  }

  /** The multi-step path: a plan and the number of the next LLM request. */
  type MultiStepPath = (ExecutionPlan, nat) -> Run

  /** The single-operation path, given the number of the next LLM request. */
  type SinglePath = nat -> Single

  /** What `ProcessMessage` does once the plan has been analysed: a multi-step plan is executed
      step by step, anything else as a single operation, numbering their LLM requests after the
      analysis; every exception becomes an error object. */
  function Respond(analysis: Analysis, k: nat, multi: MultiStepPath, single: SinglePath): Processed {
    match analysis.outcome
    case Throws(e) => Processed(ErrorReply(e), analysis.calls)
    case Ok(plan) =>
      if plan.isMultiStep then
        var run := multi(plan, k + analysis.calls);
        Processed(MultiStepReply(run.outcome), analysis.calls + run.calls)
      else
        var done := single(k + analysis.calls);
        match done.outcome
        case Throws(e) => Processed(ErrorReply(e), analysis.calls + done.calls)
        case Ok(r) => Processed(SingleReply(r), analysis.calls + done.calls)
  }

  function MultiStepOf(w: World): MultiStepPath {
    (plan: ExecutionPlan, j: nat) => ExecuteMultiStep(plan, w, j)
  }

  function SingleOf(w: World): SinglePath {
    (j: nat) => ExecuteSingleOperation(w, j)
  }

  /** `ProcessMessage`, with the LLM requests numbered from `k`. */
  function ProcessMessage(message: string, w: World, k: nat): Processed {
    Respond(Analyze(message, w.llm, k, w.parse), k, MultiStepOf(w), SingleOf(w))
  }

  // ---------------------------------------------------------------- properties

  /** The dispatch of `ProcessMessage`: a multi-step plan is handed whole to the multi-step
      path, which numbers its requests after the analysis; any other plan goes to the
      single-operation path; the calls of both stages add up. */
  lemma Dispatch(analysis: Analysis, k: nat, multi: MultiStepPath, single: SinglePath)
    requires analysis.outcome.Ok?
    ensures var plan := analysis.outcome.value;
      var p := Respond(analysis, k, multi, single);
      && (plan.isMultiStep ==>
            var run := multi(plan, k + analysis.calls);
            p == Processed(MultiStepReply(run.outcome), analysis.calls + run.calls))
      && (!plan.isMultiStep ==>
            var done := single(k + analysis.calls);
            && p.calls == analysis.calls + done.calls
            && (done.outcome.Ok? ==> p.reply == SingleReply(done.outcome.value)))
  {
  }

  /** No exception escapes `ProcessMessage`: the reply is an error object exactly when the
      analysis or the single operation threw, and its message is that exception's, prefixed. */
  lemma ErrorsBecomeReplies(analysis: Analysis, k: nat, multi: MultiStepPath, single: SinglePath)
    ensures var p := Respond(analysis, k, multi, single);
      var thrown := if analysis.outcome.Throws? then Some(analysis.outcome.error)
        else if analysis.outcome.value.isMultiStep then None
        else var done := single(k + analysis.calls); if done.outcome.Throws? then Some(done.outcome.error) else None;
      && (p.reply.ProcessingError? <==> thrown.Some?)
      && (thrown.Some? ==> p.reply.message == ProcessingErrorPrefix + thrown.value.message)
      && (p.reply.ProcessingError? ==> StartsWith(p.reply.message, ProcessingErrorPrefix))
  {
    forall e: Exception ensures StartsWith(ErrorReply(e).message, ProcessingErrorPrefix) {
      assert (ProcessingErrorPrefix + e.message)[..|ProcessingErrorPrefix|] == ProcessingErrorPrefix;
    }
  }

  /** A failed identification request is the operation's exception. */
  lemma IdentificationFailurePropagates(run: RetryRun, k: nat, perform: Performer)
    requires run.outcome.Throws?
    ensures Identified(run, k, perform) == Single(Throws(run.outcome.error), run.calls)
  {
  }

  /** A null, empty or blank identification reply ends the operation with the "could not
      identify" failure, after the identification request alone. */
  lemma BlankReplyUnidentified(run: RetryRun, k: nat, perform: Performer)
    requires run.outcome.Ok? && IsNullOrEmpty(TrimmedContent(run.outcome.value))
    ensures var s := Identified(run, k, perform);
      && s == Single(Ok(Unidentified), run.calls)
      && !s.outcome.value.Success() && s.outcome.value.Message() == Some(UnidentifiedMessage)
  {
  }

  /** A reply that is not one '.' between two pieces is rejected with its own text before any
      controller is looked up: nothing is performed, whatever the performer. */
  lemma MalformedReplyRejected(run: RetryRun, k: nat, perform: Performer, other: Performer)
    requires run.outcome.Ok? && !IsNullOrEmpty(TrimmedContent(run.outcome.value))
    requires Count(TrimmedContent(run.outcome.value).value, '.') != 1
    ensures var reply := TrimmedContent(run.outcome.value).value;
      var s := Identified(run, k, perform);
      && s == Single(Ok(InvalidFormat(reply)), run.calls)
      && s == Identified(run, k, other)
      && s.outcome.value.Message() == Some(InvalidFormatPrefix + reply)
  {
  }

  /** A well-formed "C.A" is performed as controller C and action A, with the requests numbered
      after the identification; its outcome and requests are the performer's. */
  lemma WellFormedReplyPerformed(run: RetryRun, k: nat, perform: Performer, controllerName: string, actionName: string)
    requires run.outcome.Ok? && TrimmedContent(run.outcome.value) == Some(controllerName + "." + actionName)
    requires Count(controllerName, '.') == 0 && Count(actionName, '.') == 0
    ensures var done := perform(controllerName, actionName, k + run.calls);
      Identified(run, k, perform) == Single(done.outcome, run.calls + done.calls)
  {
    var reply := controllerName + "." + actionName;
    assert reply != "" by {
      assert |reply| == |controllerName| + 1 + |actionName|;
    }
    NamedAction(controllerName, actionName);
    IdentifiedNamed(run, k, perform, reply, controllerName, actionName);
  }

  lemma IdentifiedNamed(run: RetryRun, k: nat, perform: Performer, reply: string, controllerName: string, actionName: string)
    requires run.outcome.Ok? && TrimmedContent(run.outcome.value) == Some(reply)
    requires reply != "" && ControllerAction(reply) == Some((controllerName, actionName))
    ensures var done := perform(controllerName, actionName, k + run.calls);
      Identified(run, k, perform) == Single(done.outcome, run.calls + done.calls)
  {
    var done := perform(controllerName, actionName, k + run.calls);
    AnswerNamed(reply, run.calls, k, perform, controllerName, actionName);
    IdentifiedAnswer(run, k, perform, reply, Single(done.outcome, run.calls + done.calls));
  }

  lemma IdentifiedAnswer(run: RetryRun, k: nat, perform: Performer, reply: string, result: Single)
    requires run.outcome.Ok? && TrimmedContent(run.outcome.value) == Some(reply)
    requires Answer(Some(reply), run.calls, k, perform) == result
    ensures Identified(run, k, perform) == result
  {
  }

  lemma AnswerNamed(reply: string, calls: nat, k: nat, perform: Performer, controllerName: string, actionName: string)
    requires reply != "" && ControllerAction(reply) == Some((controllerName, actionName))
    ensures var done := perform(controllerName, actionName, k + calls);
      Answer(Some(reply), calls, k, perform) == Single(done.outcome, calls + done.calls)
  {
  }

  /** "C.A" with no '.' in C or A names controller C and action A. */
  lemma NamedAction(controllerName: string, actionName: string)
    requires Count(controllerName, '.') == 0 && Count(actionName, '.') == 0
    ensures ControllerAction(controllerName + "." + actionName) == Some((controllerName, actionName))
  {
    CountAppend(controllerName, ".", '.');
    CountAppend(controllerName + ".", actionName, '.');
    SplitPieces(controllerName, actionName, '.');
  }

  /** Once the action is resolved, the requests spent are the argument extraction's; an
      extraction failure is the operation's failure, before anything is invoked; otherwise the
      operation succeeds exactly when the invocation does, with the invoked value as its data. */
  lemma PerformedCarriesInvocation(controllerName: string, actionName: string, w: World, k: nat,
                                   target: Target, args: Extraction)
    requires FindControllerAndMethod(w.assemblies, controllerName, actionName) == Ok(target)
    requires args == Extract(target.action.parameters, w.llm, k, w.today, w.parse, w.bind)
    ensures var done := Perform(controllerName, actionName, w, k);
      && done.calls == args.calls
      && (args.outcome.Throws? ==> done.outcome == Throws(args.outcome.error))
      && (args.outcome.Ok? ==>
            var invoked := InvokeController(w.assemblies, w.invoke, controllerName, actionName, args.outcome.value);
            && (done.outcome.Ok? <==> invoked.Ok?)
            && (done.outcome.Ok? ==> done.outcome.value == Performed(invoked.value, controllerName, actionName))
            && (done.outcome.Throws? ==> done.outcome.error == invoked.error))
  {
    assert Perform(controllerName, actionName, w, k) == Invoked(args, controllerName, actionName, w);
  }

  /** A failed lookup is reported before any parameter is extracted. */
  lemma UnresolvedMakesNoRequest(controllerName: string, actionName: string, w: World, k: nat)
    requires FindControllerAndMethod(w.assemblies, controllerName, actionName).Throws?
    ensures Perform(controllerName, actionName, w, k)
      == Single(Throws(FindControllerAndMethod(w.assemblies, controllerName, actionName).error), 0)
  {
  }

  // ---------------------------------------------------------------- helpers

  lemma {:induction false} CountAppend(a: string, b: string, c: char)
    ensures Count(a + b, c) == Count(a, c) + Count(b, c)
  {
    if a != [] {
      assert (a + b)[0] == a[0];
      assert (a + b)[1..] == a[1..] + b;
      CountAppend(a[1..], b, c);
    } else {
      assert a + b == b;
    }
  }

  /** Splitting "a" + [sep] + "b" with no separator in either piece gives the two pieces. */
  lemma {:induction false} SplitPieces(a: string, b: string, sep: char)
    requires Count(a, sep) == 0 && Count(b, sep) == 0
    ensures Split(a + [sep] + b, sep) == [a, b]
  {
    if a == [] {
      assert a + [sep] + b == [sep] + b;
      assert ([sep] + b)[1..] == b;
      SplitNone(b, sep);
    } else {
      assert (a + [sep] + b)[1..] == a[1..] + [sep] + b;
      assert a[0] != sep;
      SplitPieces(a[1..], b, sep);
      assert [a[0]] + a[1..] == a;
    }
  }

  lemma {:induction false} SplitNone(s: string, sep: char)
    requires Count(s, sep) == 0
    ensures Split(s, sep) == [s]
  {
    if s != [] {
      SplitNone(s[1..], sep);
      assert [s[0]] + s[1..] == s;
    }
  }
}

=== FILE: api_documentation_service.dfy ===
/**
  ApiDocumentationService: the endpoint catalogue given to the LLM to pick an action.

  The ApiExplorer is replaced by its output: the endpoint descriptions in the order the explorer
  lists them. Each description has its relative path, its HTTP method (possibly absent), its
  controller action descriptor (absent for non-controller endpoints) and its parameters.
  The documentation lookup of an action is data: its `[Description]` text, if any, and what
  reading the XML documentation file would give.
*/
module ApiDocumentation {
  import opened Wrappers
  import opened Text
  import opened Clr
  import opened Linq

  /** What the XML documentation lookup finds: no file, no summary node, a summary, or an
      exception while loading or querying the file. */
  datatype XmlDoc = NoXmlFile | NoSummary | Summary(text: string) | XmlFailure

  datatype ActionDescriptor = ActionDescriptor(
    controllerName: string,
    actionName: string,
    descriptionAttribute: Option<string>,
    xmlDoc: XmlDoc)

  datatype ParameterDescription = ParameterDescription(name: string, paramType: Option<ClrType>, source: string)

  datatype ApiDescription = ApiDescription(
    relativePath: string,
    httpMethod: Option<string>,
    controllerAction: Option<ActionDescriptor>,
    parameters: seq<ParameterDescription>)

  // ---------------------------------------------------------------- description lookup

  /** `GetXmlDocumentation`: a non-empty `[Description]` wins, then the trimmed XML summary;
      everything else, failures included, gives "". */
  function GetXmlDocumentation(a: ActionDescriptor): (r: string)
    ensures a.descriptionAttribute.Some? && a.descriptionAttribute.value != "" ==> r == a.descriptionAttribute.value
    ensures (a.descriptionAttribute.None? || a.descriptionAttribute.value == "") ==>
      (r == "" <==> !a.xmlDoc.Summary? || Trim(a.xmlDoc.text) == "")
  {
    if a.descriptionAttribute.Some? && a.descriptionAttribute.value != "" then a.descriptionAttribute.value
    else
      match a.xmlDoc
      case Summary(text) => Trim(text)
      case _ => ""
  }

  // ---------------------------------------------------------------- selection

  predicate MentionsAgent(e: ApiDescription) {
    ContainsIgnoreCase(e.relativePath, "agent")
  }

  predicate IsListed(e: ApiDescription) {
    !MentionsAgent(e)
  }

  /** The key of `OrderBy(api => api.RelativePath)`. */
  predicate PathLe(a: ApiDescription, b: ApiDescription) {
    OrdinalLe(a.relativePath, b.relativePath)
  }

  lemma PathLeTotalPreorder()
    ensures TotalPreorder(PathLe)
  {
    forall a: ApiDescription, b: ApiDescription ensures PathLe(a, b) || PathLe(b, a) {
      OrdinalLeTotal(a.relativePath, b.relativePath);
    }
    forall a: ApiDescription, b: ApiDescription, c: ApiDescription | PathLe(a, b) && PathLe(b, c)
      ensures PathLe(a, c)
    {
      OrdinalLeTransitive(a.relativePath, b.relativePath, c.relativePath);
    }
  }

  /** The endpoints documented, in the order they are documented before grouping. */
  function Selected(endpoints: seq<ApiDescription>): seq<ApiDescription> {
    OrderBy(Filter(endpoints, IsListed), PathLe)
  }

  /** Exactly the endpoints whose path does not mention "agent" (in any case) are kept, sorted by
      path, endpoints with the same path keeping their order. */
  lemma SelectedEndpoints(endpoints: seq<ApiDescription>, a: ApiDescription)
    ensures forall e :: e in Selected(endpoints) <==> e in endpoints && !MentionsAgent(e)
    ensures Sorted(Selected(endpoints), PathLe)
    ensures Ties(Selected(endpoints), a, PathLe) == Ties(Filter(endpoints, IsListed), a, PathLe)
  {
    var kept := Filter(endpoints, IsListed);
    FilterMembers(endpoints, IsListed);
    assert forall e :: e in Selected(endpoints) <==> e in multiset(Selected(endpoints));
    assert forall e :: e in kept <==> e in multiset(kept);
    PathLeTotalPreorder();
    OrderBySorted(kept, PathLe);
    OrderByStable(kept, a, PathLe);
  }

  // ---------------------------------------------------------------- grouping

  /** The `GroupBy` key: the controller name, or "Unknown" without a controller descriptor. */
  function GroupKey(e: ApiDescription): string {
    if e.controllerAction.Some? then e.controllerAction.value.controllerName else "Unknown"
  }

  /** The group keys in order of first appearance, each once. */
  function GroupKeys(xs: seq<ApiDescription>): (keys: seq<string>)
    ensures forall i, j :: 0 <= i < j < |keys| ==> keys[i] != keys[j]
    ensures forall e :: e in xs ==> GroupKey(e) in keys
    ensures forall k :: k in keys ==> exists e :: e in xs && GroupKey(e) == k
  {
    if xs == [] then []
    else
      var init := xs[..|xs| - 1];
      var x := xs[|xs| - 1];
      var keys := GroupKeys(init);
      assert forall e :: e in xs ==> e in init || e == x;
      assert forall e :: e in init ==> e in xs;
      if GroupKey(x) in keys then keys else keys + [GroupKey(x)]
  }

  /** The index of the first endpoint with group key `key`, or |xs| when there is none. */
  function FirstWithKey(xs: seq<ApiDescription>, key: string): (n: nat)
    ensures n <= |xs|
    ensures n < |xs| ==> GroupKey(xs[n]) == key
    ensures forall m :: 0 <= m < n ==> GroupKey(xs[m]) != key
  {
    if xs == [] then 0
    else if GroupKey(xs[0]) == key then 0
    else 1 + FirstWithKey(xs[1..], key)
  }

  /** The keys come in the order in which their first endpoints come, which is the order
      `GroupBy` gives its groups. */
  lemma {:induction false} GroupKeysInFirstAppearanceOrder(xs: seq<ApiDescription>)
    ensures var keys := GroupKeys(xs);
      forall i, j :: 0 <= i < j < |keys| ==> FirstWithKey(xs, keys[i]) < FirstWithKey(xs, keys[j])
    ensures forall k :: k in GroupKeys(xs) ==> FirstWithKey(xs, k) < |xs|
  {
    if xs != [] {
      var init := xs[..|xs| - 1];
      var x := xs[|xs| - 1];
      assert xs == init + [x];
      GroupKeysInFirstAppearanceOrder(init);
      if GroupKey(x) in GroupKeys(init) {
        OldKeyKeepsOrder(init, x);
      } else {
        NewKeyKeepsOrder(init, x);
      }
    }
  }

  /** The keys of `init` keep their first endpoints when an endpoint is appended. */
  lemma KeysKeepFirst(init: seq<ApiDescription>, x: ApiDescription)
    requires forall k :: k in GroupKeys(init) ==> FirstWithKey(init, k) < |init|
    ensures forall k :: k in GroupKeys(init) ==> FirstWithKey(init + [x], k) == FirstWithKey(init, k)
  {
    forall k | k in GroupKeys(init)
      ensures FirstWithKey(init + [x], k) == FirstWithKey(init, k)
    {
      FirstWithKeyExtends(init, x, k);
    }
  }

  lemma OldKeyKeepsOrder(init: seq<ApiDescription>, x: ApiDescription)
    requires GroupKey(x) in GroupKeys(init)
    requires var keys := GroupKeys(init);
      forall i, j :: 0 <= i < j < |keys| ==> FirstWithKey(init, keys[i]) < FirstWithKey(init, keys[j])
    requires forall k :: k in GroupKeys(init) ==> FirstWithKey(init, k) < |init|
    ensures var keys := GroupKeys(init + [x]);
      forall i, j :: 0 <= i < j < |keys| ==> FirstWithKey(init + [x], keys[i]) < FirstWithKey(init + [x], keys[j])
    ensures forall k :: k in GroupKeys(init + [x]) ==> FirstWithKey(init + [x], k) < |init + [x]|
  {
    var xs := init + [x];
    assert xs[..|xs| - 1] == init;
    assert GroupKeys(xs) == GroupKeys(init);
    KeysKeepFirst(init, x);
  }

  lemma NewKeyKeepsOrder(init: seq<ApiDescription>, x: ApiDescription)
    requires GroupKey(x) !in GroupKeys(init)
    requires var keys := GroupKeys(init);
      forall i, j :: 0 <= i < j < |keys| ==> FirstWithKey(init, keys[i]) < FirstWithKey(init, keys[j])
    requires forall k :: k in GroupKeys(init) ==> FirstWithKey(init, k) < |init|
    ensures var keys := GroupKeys(init + [x]);
      forall i, j :: 0 <= i < j < |keys| ==> FirstWithKey(init + [x], keys[i]) < FirstWithKey(init + [x], keys[j])
    ensures forall k :: k in GroupKeys(init + [x]) ==> FirstWithKey(init + [x], k) < |init + [x]|
  {
    var xs := init + [x];
    var keys := GroupKeys(init);
    var all := keys + [GroupKey(x)];
    assert xs[..|xs| - 1] == init;
    assert GroupKeys(xs) == all;
    KeysKeepFirst(init, x);
    NewKeyLast(init, x, keys);
    forall i, j | 0 <= i < j < |all|
      ensures FirstWithKey(xs, all[i]) < FirstWithKey(xs, all[j])
    {
      assert all[i] == keys[i];
      if j < |keys| {
        assert all[j] == keys[j];
      }
    }
  }

  /** A key that no earlier endpoint has first appears at the appended endpoint. */
  lemma NewKeyLast(init: seq<ApiDescription>, x: ApiDescription, keys: seq<string>)
    requires keys == GroupKeys(init) && GroupKey(x) !in keys
    ensures FirstWithKey(init + [x], GroupKey(x)) == |init|
  {
    var xs := init + [x];
    assert xs[|init|] == x;
  }

  /** Appending an endpoint does not move the first endpoint of a key that already occurs. */
  lemma FirstWithKeyExtends(init: seq<ApiDescription>, x: ApiDescription, key: string)
    requires FirstWithKey(init, key) < |init|
    ensures FirstWithKey(init + [x], key) == FirstWithKey(init, key)
  {
    var n := FirstWithKey(init, key);
    assert (init + [x])[n] == init[n];
  }

  function Group(xs: seq<ApiDescription>, key: string): seq<ApiDescription> {
    Filter(xs, e => GroupKey(e) == key)
  }

  /** Every documented endpoint falls in exactly one group: the one of its own key. */
  lemma GroupsPartition(xs: seq<ApiDescription>, e: ApiDescription, key: string)
    requires e in xs
    ensures GroupKey(e) in GroupKeys(xs)
    ensures e in Group(xs, key) <==> key == GroupKey(e)
  {
    FilterMembers(xs, e => GroupKey(e) == key);
  }

  // ---------------------------------------------------------------- rendering

  const Title: string := "# Available API Endpoints\n"
  const Dashes: string := "----------"
  /** `new string('-', 50)`. */
  const Rule: string := Dashes + Dashes + Dashes + Dashes + Dashes
  const PropertyCap: int := 20

  function ControllerHeading(key: string): string {
    "\n## Controller: " + key
  }

  /** "### [verb] action", with "GET" when the description has no HTTP method. */
  function ActionHeading(e: ApiDescription): string
    requires e.controllerAction.Some?
  {
    "\n### [" + e.httpMethod.GetOr("GET") + "] " + e.controllerAction.value.actionName
  }

  function TypeNameOf(p: ParameterDescription): string {
    if p.paramType.Some? then Name(p.paramType.value) else "object"
  }

  function ParameterLine(p: ParameterDescription): string {
    "  - " + p.name + " (" + TypeNameOf(p) + ") [" + p.source + "]"
  }

  /** Properties are listed for class types other than string with 1 to 20 of them. */
  predicate ListsProperties(t: Option<ClrType>) {
    t.Some? && IsClass(t.value) && t.value != StringType && 0 < |Properties(t.value)| <= PropertyCap
  }

  function PropertyDocLine(p: Prop): string {
    "      - " + p.name + ": " + Name(p.propType)
  }

  function PropertyDocLines(props: seq<Prop>): (r: seq<string>)
    ensures |r| == |props| && forall i :: 0 <= i < |props| ==> r[i] == PropertyDocLine(props[i])
  {
    if props == [] then [] else PropertyDocLines(props[..|props| - 1]) + [PropertyDocLine(props[|props| - 1])]
  }

  function PropertiesHeading(p: ParameterDescription): string {
    "    Properties of " + TypeNameOf(p) + ":"
  }

  function PropertyBlock(p: ParameterDescription): seq<string> {
    if ListsProperties(p.paramType)
    then [PropertiesHeading(p)] + PropertyDocLines(Properties(p.paramType.value))
    else []
  }

  function ParameterLines(p: ParameterDescription): seq<string> {
    [ParameterLine(p)] + PropertyBlock(p)
  }

  function ParametersLines(ps: seq<ParameterDescription>): seq<string> {
    SelectMany(ps, ParameterLines)
  }

  /** The "Description:" line, written only for a non-empty description. */
  function DocLines(doc: string): seq<string> {
    if doc != "" then ["Description: " + doc] else []
  }

  function DescriptionLines(a: ActionDescriptor): seq<string> {
    DocLines(GetXmlDocumentation(a))
  }

  function ParametersSection(ps: seq<ParameterDescription>): seq<string> {
    if ps != [] then ["Parameters:"] + ParametersLines(ps) else []
  }

  function RouteLine(e: ApiDescription): string {
    "Route: " + e.relativePath
  }

  /** The lines after an action's heading. */
  function EndpointBody(e: ApiDescription): seq<string>
    requires e.controllerAction.Some?
  {
    [RouteLine(e)] + DescriptionLines(e.controllerAction.value) + ParametersSection(e.parameters) + [""]
  }

  /** What one endpoint contributes; nothing without a controller descriptor. */
  function EndpointLines(e: ApiDescription): seq<string> {
    if e.controllerAction.None? then [] else [ActionHeading(e)] + EndpointBody(e)
  }

  function EndpointsLines(es: seq<ApiDescription>): seq<string> {
    SelectMany(es, EndpointLines)
  }

  function GroupLines(xs: seq<ApiDescription>, key: string): seq<string> {
    [ControllerHeading(key), Rule] + EndpointsLines(Group(xs, key))
  }

  function GroupsLines(xs: seq<ApiDescription>, keys: seq<string>): seq<string> {
    if keys == [] then [] else GroupsLines(xs, keys[..|keys| - 1]) + GroupLines(xs, keys[|keys| - 1])
  }

  lemma GroupsLinesStep(xs: seq<ApiDescription>, keys: seq<string>, i: nat)
    requires i < |keys|
    ensures GroupsLines(xs, keys[..i + 1]) == GroupsLines(xs, keys[..i]) + GroupLines(xs, keys[i])
  {
    assert keys[..i + 1][..i] == keys[..i];
  }

  /** One more round of the loop over the groups. */
  lemma GroupsLinesExtend(init: seq<string>, xs: seq<ApiDescription>, keys: seq<string>, i: nat,
                          acc: seq<string>, next: seq<string>)
    requires i < |keys| && acc == init + GroupsLines(xs, keys[..i]) && next == GroupLines(xs, keys[i])
    ensures acc + next == init + GroupsLines(xs, keys[..i + 1])
  {
    GroupsLinesStep(xs, keys, i);
  }

  /** The lines `GenerateApiDocumentation` appends, in order. */
  function Documentation(endpoints: seq<ApiDescription>): seq<string> {
    var selected := Selected(endpoints);
    [Title] + GroupsLines(selected, GroupKeys(selected))
  }

  // ---------------------------------------------------------------- the rendering loops

  // ---------------------------------------------------------------- properties of the text

  predicate IsActionHeading(line: string) {
    StartsWith(line, "\n### [")
  }

  /** A line that cannot be an action heading: its fourth character is not '#'. */
  predicate Unmarked(line: string) {
    |line| < 4 || line[3] != '#'
  }

  predicate AllUnmarked(lines: seq<string>) {
    forall i :: 0 <= i < |lines| ==> Unmarked(lines[i])
  }

  lemma UnmarkedIsNotHeading(line: string)
    requires Unmarked(line)
    ensures !IsActionHeading(line)
  {
  }

  lemma AllUnmarkedAppend(a: seq<string>, b: seq<string>)
    requires AllUnmarked(a) && AllUnmarked(b)
    ensures AllUnmarked(a + b)
  {
    forall i | 0 <= i < |a + b| ensures Unmarked((a + b)[i]) {
      if i >= |a| {
        assert (a + b)[i] == b[i - |a|];
      }
    }
  }

  lemma PropertyBlockUnmarked(p: ParameterDescription)
    ensures AllUnmarked(PropertyBlock(p))
  {
    if ListsProperties(p.paramType) {
      var props := Properties(p.paramType.value);
      var docs := PropertyDocLines(props);
      assert PropertiesHeading(p)[3] == ' ';
      forall i | 0 <= i < |docs| ensures Unmarked(docs[i]) {
        assert PropertyDocLine(props[i])[3] == ' ';
      }
      AllUnmarkedAppend([PropertiesHeading(p)], docs);
    }
  }

  lemma ParameterLinesUnmarked(p: ParameterDescription)
    ensures AllUnmarked(ParameterLines(p))
  {
    assert ParameterLine(p)[3] == ' ';
    PropertyBlockUnmarked(p);
    AllUnmarkedAppend([ParameterLine(p)], PropertyBlock(p));
  }

  lemma {:induction false} ParametersLinesUnmarked(ps: seq<ParameterDescription>)
    ensures AllUnmarked(ParametersLines(ps))
  {
    if ps != [] {
      ParametersLinesUnmarked(ps[..|ps| - 1]);
      ParameterLinesUnmarked(ps[|ps| - 1]);
      AllUnmarkedAppend(ParametersLines(ps[..|ps| - 1]), ParameterLines(ps[|ps| - 1]));
    }
  }

  lemma DocLinesUnmarked(doc: string)
    ensures AllUnmarked(DocLines(doc))
  {
    if doc != "" {
      assert ("Description: " + doc)[3] == 'c';
    }
  }

  lemma ParametersSectionUnmarked(ps: seq<ParameterDescription>)
    ensures AllUnmarked(ParametersSection(ps))
  {
    if ps != [] {
      ParametersLinesUnmarked(ps);
      assert AllUnmarked(["Parameters:"]) by { assert "Parameters:"[3] == 'a'; }
      AllUnmarkedAppend(["Parameters:"], ParametersLines(ps));
    }
  }

  lemma RouteUnmarked(e: ApiDescription)
    ensures AllUnmarked([RouteLine(e)])
  {
    assert RouteLine(e)[3] == 't';
  }

  lemma EndpointBodyUnmarked(e: ApiDescription)
    requires e.controllerAction.Some?
    ensures AllUnmarked(EndpointBody(e))
  {
    var route := [RouteLine(e)];
    var desc := DescriptionLines(e.controllerAction.value);
    var section := ParametersSection(e.parameters);
    assert AllUnmarked(route + desc) by {
      RouteUnmarked(e);
      DocLinesUnmarked(GetXmlDocumentation(e.controllerAction.value));
      AllUnmarkedAppend(route, desc);
    }
    assert AllUnmarked(route + desc + section) by {
      ParametersSectionUnmarked(e.parameters);
      AllUnmarkedAppend(route + desc, section);
    }
    AllUnmarkedAppend(route + desc + section, [""]);
  }

  /** The heading of an action, as a heading. */
  lemma ActionHeadingIsHeading(e: ApiDescription)
    requires e.controllerAction.Some?
    ensures IsActionHeading(ActionHeading(e))
  {
    assert ActionHeading(e)[..6] == "\n### [";
  }

  predicate HasDescriptor(e: ApiDescription) {
    e.controllerAction.Some?
  }

  /** The heading an endpoint contributes: one for a controller action, none otherwise. */
  function HeadingOf(e: ApiDescription): seq<string> {
    if e.controllerAction.Some? then [ActionHeading(e)] else []
  }

  /** Each controller action yields exactly one "### [verb] action" heading; an endpoint
      without a controller descriptor yields none. */
  lemma EndpointHeadings(e: ApiDescription)
    ensures Filter(EndpointLines(e), IsActionHeading) == HeadingOf(e)
  {
    if e.controllerAction.Some? {
      var body := EndpointBody(e);
      EndpointBodyUnmarked(e);
      forall i | 0 <= i < |body| ensures !IsActionHeading(body[i]) {
        UnmarkedIsNotHeading(body[i]);
      }
      ActionHeadingIsHeading(e);
      FilterNone(body, IsActionHeading);
      FilterAppend([ActionHeading(e)], body, IsActionHeading);
      assert [ActionHeading(e)][1..] == [];
    }
  }

  /** The headings of a run of endpoints are theirs, in order. */
  lemma {:induction false} EndpointsHeadings(es: seq<ApiDescription>)
    ensures Filter(EndpointsLines(es), IsActionHeading) == SelectMany(es, HeadingOf)
  {
    if es != [] {
      var init := es[..|es| - 1];
      EndpointsHeadings(init);
      EndpointHeadings(es[|es| - 1]);
      FilterAppend(EndpointsLines(init), EndpointLines(es[|es| - 1]), IsActionHeading);
    }
  }

  /** One heading per endpoint that has one. */
  lemma {:induction false} HeadingCount(es: seq<ApiDescription>)
    ensures |SelectMany(es, HeadingOf)| == |Filter(es, HasDescriptor)|
  {
    if es != [] {
      var init := es[..|es| - 1];
      HeadingCount(init);
      FilterAppend(init, [es[|es| - 1]], HasDescriptor);
      assert init + [es[|es| - 1]] == es;
      assert [es[|es| - 1]][1..] == [];
    }
  }

  /** How many endpoints with a descriptor the groups named by `keys` hold together. */
  function GroupedCount(xs: seq<ApiDescription>, keys: seq<string>): nat {
    if keys == [] then 0
    else GroupedCount(xs, keys[..|keys| - 1]) + |Filter(Group(xs, keys[|keys| - 1]), HasDescriptor)|
  }

  predicate DistinctKeys(keys: seq<string>) {
    forall i, j :: 0 <= i < j < |keys| ==> keys[i] != keys[j]
  }

  lemma {:induction false} GroupedCountEmpty(keys: seq<string>)
    ensures GroupedCount([], keys) == 0
  {
    if keys != [] {
      GroupedCountEmpty(keys[..|keys| - 1]);
    }
  }

  /** Appending `x` adds it to the group of its own key only. */
  lemma {:induction false} GroupedCountSnoc(ys: seq<ApiDescription>, x: ApiDescription, keys: seq<string>)
    requires DistinctKeys(keys)
    ensures GroupedCount(ys + [x], keys)
      == GroupedCount(ys, keys) + (if HasDescriptor(x) && GroupKey(x) in keys then 1 else 0)
  {
    if keys != [] {
      var init := keys[..|keys| - 1];
      var k := keys[|keys| - 1];
      assert DistinctKeys(init);
      GroupedCountSnoc(ys, x, init);
      FilterAppend(ys, [x], e => GroupKey(e) == k);
      assert [x][1..] == [];
      FilterAppend(Group(ys, k), Filter([x], e => GroupKey(e) == k), HasDescriptor);
      assert GroupKey(x) in keys <==> GroupKey(x) in init || GroupKey(x) == k;
      assert GroupKey(x) == k ==> GroupKey(x) !in init;
    }
  }

  /** Grouping by distinct keys covering every endpoint loses and duplicates nothing. */
  lemma {:induction false} GroupedCountAll(xs: seq<ApiDescription>, keys: seq<string>)
    requires DistinctKeys(keys)
    requires forall e :: e in xs ==> GroupKey(e) in keys
    ensures GroupedCount(xs, keys) == |Filter(xs, HasDescriptor)|
  {
    if xs == [] {
      GroupedCountEmpty(keys);
    } else {
      var ys := xs[..|xs| - 1];
      var x := xs[|xs| - 1];
      assert xs == ys + [x];
      assert forall e :: e in ys ==> e in xs;
      GroupedCountAll(ys, keys);
      GroupedCountSnoc(ys, x, keys);
      FilterAppend(ys, [x], HasDescriptor);
      assert [x][1..] == [];
    }
  }

  lemma GroupHeadings(xs: seq<ApiDescription>, key: string)
    ensures |Filter(GroupLines(xs, key), IsActionHeading)| == |Filter(Group(xs, key), HasDescriptor)|
  {
    var members := Group(xs, key);
    FilterAppend([ControllerHeading(key), Rule], EndpointsLines(members), IsActionHeading);
    assert ControllerHeading(key)[3] == ' ';
    UnmarkedIsNotHeading(ControllerHeading(key));
    assert Rule[3] == '-';
    UnmarkedIsNotHeading(Rule);
    FilterNone([ControllerHeading(key), Rule], IsActionHeading);
    EndpointsHeadings(members);
    HeadingCount(members);
  }

  lemma {:induction false} GroupsHeadings(xs: seq<ApiDescription>, keys: seq<string>)
    ensures |Filter(GroupsLines(xs, keys), IsActionHeading)| == GroupedCount(xs, keys)
  {
    if keys != [] {
      var init := keys[..|keys| - 1];
      GroupsHeadings(xs, init);
      GroupsLinesStep(xs, keys, |keys| - 1);
      assert keys[..|keys|] == keys;
      FilterAppend(GroupsLines(xs, init), GroupLines(xs, keys[|keys| - 1]), IsActionHeading);
      GroupHeadings(xs, keys[|keys| - 1]);
    }
  }

  lemma TitleIsNoHeading()
    ensures Filter([Title], IsActionHeading) == []
  {
    assert Title[3] == 'v';
    UnmarkedIsNotHeading(Title);
  }

  /** The heading count of the catalogue written for the endpoints `selected`. */
  lemma CatalogueHeadings(selected: seq<ApiDescription>)
    ensures |Filter([Title] + GroupsLines(selected, GroupKeys(selected)), IsActionHeading)|
      == |Filter(selected, HasDescriptor)|
  {
    var keys := GroupKeys(selected);
    FilterAppend([Title], GroupsLines(selected, keys), IsActionHeading);
    TitleIsNoHeading();
    GroupsHeadings(selected, keys);
    GroupedCountAll(selected, keys);
  }

  /** The catalogue holds one "### [verb] action" heading per documented controller action:
      grouping neither drops nor repeats an endpoint. */
  lemma DocumentationHeadings(endpoints: seq<ApiDescription>)
    ensures |Filter(Documentation(endpoints), IsActionHeading)|
      == |Filter(Selected(endpoints), HasDescriptor)|
  {
    CatalogueHeadings(Selected(endpoints));
  }

  predicate IsPropertyDocLine(line: string) {
    StartsWith(line, "      - ")
  }

  lemma PropertyDocLinesAreDocLines(props: seq<Prop>)
    ensures Filter(PropertyDocLines(props), IsPropertyDocLine) == PropertyDocLines(props)
  {
    var docs := PropertyDocLines(props);
    forall i | 0 <= i < |docs| ensures IsPropertyDocLine(docs[i]) {
      assert docs[i][..8] == "      - ";
    }
    FilterAll(docs, IsPropertyDocLine);
  }

  lemma PropertyBlockDocs(p: ParameterDescription)
    ensures Filter(PropertyBlock(p), IsPropertyDocLine)
      == if ListsProperties(p.paramType) then PropertyDocLines(Properties(p.paramType.value)) else []
  {
    if ListsProperties(p.paramType) {
      var docs := PropertyDocLines(Properties(p.paramType.value));
      assert Filter([PropertiesHeading(p)], IsPropertyDocLine) == [] by {
        assert !IsPropertyDocLine(PropertiesHeading(p)) by { assert PropertiesHeading(p)[4] == 'P'; }
      }
      FilterAppend([PropertiesHeading(p)], docs, IsPropertyDocLine);
      PropertyDocLinesAreDocLines(Properties(p.paramType.value));
    }
  }

  /** Properties are listed, all of them and in order, only for a class other than string with
      1 to 20 of them; a class with more than 20 gets none. */
  lemma PropertyListing(p: ParameterDescription)
    ensures Filter(ParameterLines(p), IsPropertyDocLine)
      == if ListsProperties(p.paramType) then PropertyDocLines(Properties(p.paramType.value)) else []
    ensures |Filter(ParameterLines(p), IsPropertyDocLine)| <= PropertyCap
    ensures p.paramType.Some? && |Properties(p.paramType.value)| > PropertyCap ==>
      Filter(ParameterLines(p), IsPropertyDocLine) == []
  {
    assert Filter([ParameterLine(p)], IsPropertyDocLine) == [] by {
      assert !IsPropertyDocLine(ParameterLine(p)) by { assert ParameterLine(p)[2] == '-'; }
    }
    FilterAppend([ParameterLine(p)], PropertyBlock(p), IsPropertyDocLine);
    PropertyBlockDocs(p);
  }

  /** A missing HTTP method is shown as GET and a missing parameter type as "object", with no
      properties listed. */
  lemma Defaults(e: ApiDescription, p: ParameterDescription)
    ensures e.controllerAction.Some? && e.httpMethod.None? ==>
      ActionHeading(e) == "\n### [GET] " + e.controllerAction.value.actionName
    ensures p.paramType.None? ==>
      ParameterLines(p) == ["  - " + p.name + " (object) [" + p.source + "]"]
  {
    if p.paramType.None? {
      assert TypeNameOf(p) == "object";
      assert "  - " + p.name + " (" + "object" + ") [" + p.source + "]"
        == "  - " + p.name + " (object) [" + p.source + "]";
      assert PropertyBlock(p) == [];
    }
  }
}

/**
  The service proper: `GenerateApiDocumentation` and its nested loops, each proved to append
  exactly the lines `ApiDocumentation` specifies.
*/
module ApiDocumentationService {
  import opened Clr
  import opened Linq
  import opened ApiDocumentation

  /** The `foreach (var prop in properties)` loop. */
  method AppendPropertyDocs(lines: seq<string>, props: seq<Prop>) returns (r: seq<string>)
    ensures r == lines + PropertyDocLines(props)
  {
    r := lines;
    for i := 0 to |props|
      invariant r == lines + PropertyDocLines(props[..i])
    {
      assert props[..i + 1][..i] == props[..i];
      r := r + [PropertyDocLine(props[i])];
    }
    assert props[..|props|] == props;
  }

  /** One parameter's line and, for a listed class, its properties. */
  method RenderParameter(p: ParameterDescription) returns (lines: seq<string>)
    ensures lines == ParameterLines(p)
  {
    lines := [ParameterLine(p)];
    if p.paramType.Some? && IsClass(p.paramType.value) && p.paramType.value != StringType {
      var props := Properties(p.paramType.value);
      if 0 < |props| <= PropertyCap {
        lines := AppendPropertyDocs([ParameterLine(p), PropertiesHeading(p)], props);
      }
    }
    assert lines == [ParameterLine(p)] + PropertyBlock(p);
  }

  /** The `foreach (var param in api.ParameterDescriptions)` loop. */
  method AppendParameters(lines: seq<string>, ps: seq<ParameterDescription>) returns (r: seq<string>)
    ensures r == lines + ParametersLines(ps)
  {
    r := lines;
    for i := 0 to |ps|
      invariant r == lines + SelectMany(ps[..i], ParameterLines)
    {
      var pl := RenderParameter(ps[i]);
      SelectManyExtend(lines, ps, ParameterLines, i, r, pl);
      r := r + pl;
    }
    assert ps[..|ps|] == ps;
  }

  /** The body of the inner `foreach (var api in controllerGroup)`. */
  method RenderEndpoint(e: ApiDescription) returns (lines: seq<string>)
    ensures lines == EndpointLines(e)
  {
    lines := [];
    if e.controllerAction.Some? {
      var section: seq<string> := [];
      if e.parameters != [] {
        section := AppendParameters(["Parameters:"], e.parameters);
      }
      assert section == ParametersSection(e.parameters);
      var body := [RouteLine(e)] + DescriptionLines(e.controllerAction.value) + section + [""];
      lines := [ActionHeading(e)] + body;
    }
  }

  /** The inner `foreach (var api in controllerGroup)` loop. */
  method AppendEndpoints(lines: seq<string>, es: seq<ApiDescription>) returns (r: seq<string>)
    ensures r == lines + SelectMany(es, EndpointLines)
  {
    r := lines;
    for i := 0 to |es|
      invariant r == lines + SelectMany(es[..i], EndpointLines)
    {
      var el := RenderEndpoint(es[i]);
      SelectManyExtend(lines, es, EndpointLines, i, r, el);
      r := r + el;
    }
    assert es[..|es|] == es;
  }

  /** One controller group: its heading, the rule, then its endpoints. */
  method RenderGroup(xs: seq<ApiDescription>, key: string) returns (r: seq<string>)
    ensures r == GroupLines(xs, key)
  {
    r := AppendEndpoints([ControllerHeading(key), Rule], Group(xs, key));
  }

  /** The outer `foreach (var controllerGroup in groupedByController)` loop. */
  method AppendGroups(lines: seq<string>, xs: seq<ApiDescription>, keys: seq<string>) returns (r: seq<string>)
    ensures r == lines + GroupsLines(xs, keys)
  {
    r := lines;
    for i := 0 to |keys|
      invariant r == lines + GroupsLines(xs, keys[..i])
    {
      var group := RenderGroup(xs, keys[i]);
      GroupsLinesExtend(lines, xs, keys, i, r, group);
      r := r + group;
    }
    assert keys[..|keys|] == keys;
  }

  /** `GenerateApiDocumentation`: the title, then one section per controller group. */
  method GenerateApiDocumentation(endpoints: seq<ApiDescription>) returns (lines: seq<string>)
    ensures lines == Documentation(endpoints)
  {
    var selected := Selected(endpoints);
    lines := AppendGroups([Title], selected, GroupKeys(selected));
  }
}

=== FILE: calendar.dfy ===
/**
  The proleptic Gregorian calendar of `System.DateTime`, reduced to dates (the time of day plays
  no part in the anchors the agent computes): validity, a day count from 0001-01-01, the
  day of the week, and the `AddDays`/`AddMonths` arithmetic, which throws outside 0001..9999.
*/
module Calendar {
  import opened Wrappers
  import opened Text

  datatype Date = Date(year: int, month: int, day: int)

  predicate IsLeapYear(y: int) {
    y % 4 == 0 && (y % 100 != 0 || y % 400 == 0)
  }

  function DaysInMonth(y: int, m: int): (n: int)
    requires 1 <= m <= 12
    ensures 28 <= n <= 31
    ensures n == 29 <==> m == 2 && IsLeapYear(y)
    ensures n == 28 <==> m == 2 && !IsLeapYear(y)
    ensures n == 30 <==> m == 4 || m == 6 || m == 9 || m == 11
    ensures n == 31 <==> m == 1 || m == 3 || m == 5 || m == 7 || m == 8 || m == 10 || m == 12
  {
    if m == 2 then (if IsLeapYear(y) then 29 else 28)
    else if m == 4 || m == 6 || m == 9 || m == 11 then 30
    else 31
  }

  function YearLength(y: int): int {
    if IsLeapYear(y) then 366 else 365
  }

  /** A date `DateTime` can represent. */
  predicate Valid(d: Date) {
    1 <= d.year <= 9999 && 1 <= d.month <= 12 && 1 <= d.day <= DaysInMonth(d.year, d.month)
  }

  const MinDate: Date := Date(1, 1, 1)
  const MaxDate: Date := Date(9999, 12, 31)

  function DaysBeforeYear(y: int): nat
    decreases y
  {
    if y <= 1 then 0 else DaysBeforeYear(y - 1) + YearLength(y - 1)
  }

  /** Days of year `y` before the first of month `m` (13 stands for the next January). */
  function DaysBeforeMonth(y: int, m: int): nat
    requires 1 <= m <= 13
  {
    var leap := if m > 2 && IsLeapYear(y) then 1 else 0;
    leap + (if m == 1 then 0 else if m == 2 then 31 else if m == 3 then 59 else if m == 4 then 90
      else if m == 5 then 120 else if m == 6 then 151 else if m == 7 then 181 else if m == 8 then 212
      else if m == 9 then 243 else if m == 10 then 273 else if m == 11 then 304 else if m == 12 then 334
      else 365)
  }

  /** Days elapsed since 0001-01-01. */
  function DayNumber(d: Date): nat
    requires Valid(d)
  {
    DaysBeforeYear(d.year) + DaysBeforeMonth(d.year, d.month) + d.day - 1
  }

  /** `DateTime.DayOfWeek` as an int: 0 is Sunday, 6 is Saturday (0001-01-01 was a Monday). */
  function DayOfWeek(d: Date): (w: int)
    requires Valid(d)
    ensures 0 <= w < 7
    ensures d == MinDate ==> w == 1
  {
    (DayNumber(d) + 1) % 7
  }

  /** The following day, or None after the last representable one. */
  function Next(d: Date): (r: Option<Date>)
    requires Valid(d)
    ensures r.None? <==> d == MaxDate
    ensures r.Some? ==> Valid(r.value) && DayNumber(r.value) == DayNumber(d) + 1
  {
    if d.day < DaysInMonth(d.year, d.month) then Some(Date(d.year, d.month, d.day + 1))
    else if d.month < 12 then Some(Date(d.year, d.month + 1, 1))
    else if d.year < 9999 then Some(Date(d.year + 1, 1, 1))
    else None
  }

  /** The preceding day, or None before the first representable one. */
  function Prev(d: Date): (r: Option<Date>)
    requires Valid(d)
    ensures r.None? <==> d == MinDate
    ensures r.Some? ==> Valid(r.value) && DayNumber(r.value) + 1 == DayNumber(d)
  {
    if d.day > 1 then Some(Date(d.year, d.month, d.day - 1))
    else if d.month > 1 then Some(Date(d.year, d.month - 1, DaysInMonth(d.year, d.month - 1)))
    else if d.year > 1 then Some(Date(d.year - 1, 12, 31))
    else None
  }

  /** `AddDays(n)`: None where .NET throws ArgumentOutOfRangeException. */
  function AddDays(d: Date, n: int): (r: Option<Date>)
    requires Valid(d)
    ensures r.Some? ==> Valid(r.value) && DayNumber(r.value) == DayNumber(d) + n
    decreases if n < 0 then -n else n
  {
    if n == 0 then Some(d)
    else if n > 0 then
      match Next(d)
      case None => None
      case Some(e) => AddDays(e, n - 1)
    else
      match Prev(d)
      case None => None
      case Some(e) => AddDays(e, n + 1)
  }

  /** `AddMonths(n)`: the same day in the month `n` months away, clamped to that month's length;
      None where .NET throws ArgumentOutOfRangeException. */
  function AddMonths(d: Date, n: int): (r: Option<Date>)
    requires Valid(d)
    ensures r.Some? <==> 12 <= 12 * d.year + (d.month - 1) + n < 12 * 10000
    ensures r.Some? ==> Valid(r.value) && r.value.day <= d.day
    ensures r.Some? ==> 12 * r.value.year + r.value.month == 12 * d.year + d.month + n
    ensures r.Some? ==>
      r.value.day == d.day || (r.value.day < d.day && r.value.day == DaysInMonth(r.value.year, r.value.month))
  {
    var total := 12 * d.year + (d.month - 1) + n;
    var y := total / 12;
    var m := total % 12 + 1;
    if 1 <= y <= 9999 then
      var dim := DaysInMonth(y, m);
      Some(Date(y, m, if d.day <= dim then d.day else dim))
    else None
  }

  /** `ToString("yyyy-MM-dd")`. */
  function FormatDate(d: Date): (s: string)
    requires Valid(d)
    ensures |s| == 10 && s[4] == '-' && s[7] == '-'
    ensures AllDigits(s[..4]) && DigitsValue(s[..4]) == d.year
    ensures AllDigits(s[5..7]) && DigitsValue(s[5..7]) == d.month
    ensures AllDigits(s[8..]) && DigitsValue(s[8..]) == d.day
  {
    var y := PadDigits(d.year, 4);
    var m := PadDigits(d.month, 2);
    var dd := PadDigits(d.day, 2);
    PadDigitsSmall(d.year, 4);
    PadDigitsSmall(d.month, 2);
    PadDigitsSmall(d.day, 2);
    PadDigitsValue(d.year, 4);
    PadDigitsValue(d.month, 2);
    PadDigitsValue(d.day, 2);
    var s := y + "-" + m + "-" + dd;
    assert s[..4] == y && s[5..7] == m && s[8..] == dd;
    s
  }

  lemma PadDigitsSmall(n: nat, width: nat)
    requires (width == 2 && n < 100) || (width == 4 && n < 10000)
    ensures |PadDigits(n, width)| == width
  {
    DigitCount(n);
  }

  /** Numbers below 10^k have at most k digits, for k up to 4. */
  lemma DigitCount(n: nat)
    requires n < 10000
    ensures n < 10 ==> |IntToString(n)| == 1
    ensures n < 100 ==> |IntToString(n)| <= 2
    ensures n < 1000 ==> |IntToString(n)| <= 3
    ensures |IntToString(n)| <= 4
  {
    if n >= 10 {
      DigitCount(n / 10);
    }
  }

  // ---------------------------------------------------------------- facts about the day count

  /** Only the first representable day has day number 0. */
  lemma DayNumberZero(d: Date)
    requires Valid(d)
    ensures DayNumber(d) == 0 <==> d == MinDate
  {
  }

  /** Moving `n` days moves the day of the week `n` places round the week. */
  lemma DayOfWeekShift(d: Date, n: int)
    requires Valid(d) && AddDays(d, n).Some?
    ensures DayOfWeek(AddDays(d, n).value) == (DayOfWeek(d) + n) % 7
  {
    WeekShift(DayNumber(d), n);
  }

  lemma WeekShift(days: nat, n: int)
    ensures (days + n + 1) % 7 == ((days + 1) % 7 + n) % 7
  {
    var k := days + 1;
    assert k + n == (k % 7 + n) + 7 * (k / 7);
  }

  /** Stepping back `k` days succeeds exactly when it does not pass 0001-01-01. */
  lemma {:induction false} AddDaysBackward(d: Date, k: nat)
    requires Valid(d)
    ensures AddDays(d, -(k as int)).Some? <==> k <= DayNumber(d)
    decreases k
  {
    if k > 0 {
      DayNumberZero(d);
      if Prev(d).Some? {
        AddDaysBackward(Prev(d).value, k - 1);
      }
    }
  }

  /** Stepping forward `k` days succeeds when it does not pass 9999-12-31. */
  lemma {:induction false} AddDaysForward(d: Date, k: nat)
    requires Valid(d)
    requires DayNumber(d) + k <= DayNumber(MaxDate)
    ensures AddDays(d, k).Some?
    decreases k
  {
    if k > 0 {
      AddDaysForward(Next(d).value, k - 1);
    }
  }

  lemma {:induction false} DaysBeforeYearMonotonic(a: int, b: int)
    requires a <= b
    ensures DaysBeforeYear(a) <= DaysBeforeYear(b)
    decreases b - a
  {
    if a < b {
      DaysBeforeYearMonotonic(a, b - 1);
    }
  }

  /** Every date up to 9999-11-30 is at least 31 days before the last representable day. */
  lemma BeforeLastMonth(d: Date)
    requires Valid(d) && !(d.year == 9999 && d.month == 12)
    ensures DayNumber(d) <= DaysBeforeYear(9999) + 333
    ensures DayNumber(MaxDate) == DaysBeforeYear(9999) + 364
  {
    if d.year < 9999 {
      DaysBeforeYearMonotonic(d.year + 1, 9999);
    }
  }
}

=== FILE: clr.dfy ===
/**
  The runtime world the agent reflects over, reduced to data: the types it asks about
  (name, value type or class, public instance properties), the objects it passes around and
  the exceptions that can interrupt it.
*/
module Clr {
  import opened Wrappers

  /** A .NET type, described by what the agent code asks of it through reflection. */
  datatype ClrType =
    | StringType
    | IntType                              // int
    | BoolType                             // bool
    | DateTimeType                         // DateTime
    | NumberType(name: string)             // any other numeric value type (Int64, Decimal, Double, ...)
    | EnumType(name: string)
    | NullableOf(underlying: ClrType)      // Nullable<T>, written T?
    | ListOf(element: ClrType)             // List<T>
    | ClassType(name: string, props: seq<Prop>)
    | StructType(name: string, props: seq<Prop>)

  /** A public instance property: its name and declared type. */
  datatype Prop = Prop(name: string, propType: ClrType)

  /** `Type.Name`: generic types carry their arity after a back-tick. */
  function Name(t: ClrType): string {
    match t
    case StringType => "String"
    case IntType => "Int32"
    case BoolType => "Boolean"
    case DateTimeType => "DateTime"
    case NumberType(n) => n
    case EnumType(n) => n
    case NullableOf(_) => "Nullable`1"
    case ListOf(_) => "List`1"
    case ClassType(n, _) => n
    case StructType(n, _) => n
  }

  predicate IsValueType(t: ClrType) {
    !(t.StringType? || t.ListOf? || t.ClassType?)
  }

  /** `Type.IsClass`: string, List<T> and user classes. */
  predicate IsClass(t: ClrType) {
    !IsValueType(t)
  }

  /** `type.GetProperties(BindingFlags.Public | BindingFlags.Instance)`, in declaration order. */
  function Properties(t: ClrType): seq<Prop> {
    match t
    case ClassType(_, props) => props
    case StructType(_, props) => props
    case ListOf(e) => [Prop("Capacity", IntType), Prop("Count", IntType), Prop("Item", e)]
    case StringType => [Prop("Chars", StructType("Char", [])), Prop("Length", IntType)]
    case NullableOf(u) => [Prop("HasValue", BoolType), Prop("Value", u)]
    case _ => []
  }

  /** An object as the agent sees it after reflection or deserialization. */
  datatype Value =
    | Null
    | Bool(b: bool)
    | Integer(n: int)                      // a boxed integral number (int, long, an enum)
    | Floating                             // a boxed floating-point number; its value is not modelled
    | Str(s: string)
    | DateTimeValue(iso: string)           // a boxed DateTime, by its ISO 8601 rendering
    | List(items: seq<Value>)              // List<object?> and arrays
    | Dict(entries: seq<Entry>)            // Dictionary<string, object?>, in insertion order
    | Obj(typeName: string, fields: seq<Field>)          // any other object: its public properties
    | ObjectResult(resultType: string, statusCode: Option<int>, value: Value)  // ObjectResult and subclasses
    | StatusCodeResult(resultType: string, code: int)                        // OkResult, NotFoundResult, ...

  datatype Entry = Entry(key: string, value: Value)

  /** A public property of an object: name, declared type and current value. */
  datatype Field = Field(name: string, declared: ClrType, value: Value)

  /** `t.IsValueType ? Activator.CreateInstance(t) : null`; a boxed `default(T?)` is null. */
  function DefaultValue(t: ClrType): (v: Value)
    ensures !IsValueType(t) || t.NullableOf? <==> v == Null
    decreases t
  {
    match t
    case IntType => Integer(0)
    case BoolType => Bool(false)
    case DateTimeType => DateTimeValue("0001-01-01T00:00:00")
    case NumberType(_) => Integer(0)
    case EnumType(_) => Integer(0)
    case StructType(n, props) =>
      Obj(n, seq(|props|, i requires 0 <= i < |props| =>
        Field(props[i].name, props[i].propType, DefaultValue(props[i].propType))))
    case _ => Null
  }

  datatype ExceptionKind =
    | HttpRequest | InvalidOperation | JsonError | RuntimeBinder | AmbiguousMatch
    | ArgumentOutOfRange | KeyNotFound | FileNotFound | NullReference | Format | General
    | OtherKind(typeName: string)

  /** A thrown exception: its type, `Message` and `InnerException`. */
  datatype Exception = Exception(kind: ExceptionKind, message: string, inner: Option<Exception>)

  function Error(kind: ExceptionKind, message: string): Exception {
    Exception(kind, message, None)
  }

  /** What dereferencing null throws. */
  function NullReferenceException(): Exception {
    Error(NullReference, "Object reference not set to an instance of an object.")
  }

  /** What a LINQ operator throws when its `source` sequence is null. */
  function ArgumentNullException(paramName: string): Exception {
    Error(OtherKind("ArgumentNullException"), "Value cannot be null. (Parameter '" + paramName + "')")
  }

  /** A computation that either returns a value or throws. */
  datatype Result<+T> = Ok(value: T) | Throws(error: Exception) {
    /** What lets `:-` propagate an exception to the caller. */
    predicate IsFailure() {
      Throws?
    }

    function PropagateFailure<U>(): Result<U>
      requires Throws?
    {
      Throws(error)
    }

    function Extract(): T
      requires Ok?
    {
      value
    }
  }
}

=== FILE: controller_invoker.dfy ===
/**
  ControllerInvoker: resolving "Controller.Action" to a verb-tagged controller method and
  unwrapping what invoking it returns.

  Reflection is replaced by an explicit registry: the assemblies `Assembly.Load` can find, each
  with its types in `GetTypes()` order, each type with its methods in `GetMethods()` order.
  Instantiating the controller and running the method are one abstract `Invoker`.
*/
module ControllerInvoker {
  import opened Wrappers
  import opened Text
  import opened Clr
  import opened Linq

  /** The routing attributes a method can carry. */
  datatype Verb = HttpGet | HttpPost | HttpPut | HttpDelete | HttpPatch

  /** A parameter of an action method: its name and declared type. */
  datatype Param = Param(name: string, paramType: ClrType)

  datatype MethodInfo = MethodInfo(
    name: string,
    isPublicInstance: bool,
    verbs: set<Verb>,
    parameters: seq<Param>)

  datatype TypeInfo = TypeInfo(name: string, derivesFromControllerBase: bool, methods: seq<MethodInfo>)

  /** The assemblies that can be loaded, by assembly name. */
  type Assemblies = map<string, seq<TypeInfo>>

  /** What `method.Invoke(instance, args)` did: returned a plain object, returned a Task that
      completed with a result, returned a Task that faulted, or threw synchronously. */
  datatype Invocation = Returned(result: Value) | Completed(taskResult: Value) | Faulted(error: Exception) | Threw(error: Exception)

  type Invoker = (TypeInfo, MethodInfo, seq<Value>) -> Invocation

  /** The assembly the lookup loads, as written. */
  const AssemblyNameAsWritten: string := "Globo.Giro.UI.WebApi"

  /** The assembly this repository's controllers are compiled into (project ProAgil.WebApi). */
  const WebApiAssemblyName: string := "ProAgil.WebApi"

  const ControllerSuffix: string := "Controller"

  /** The controller's type name: "Controller" appended unless already there. */
  function FullControllerName(controllerName: string): (r: string)
    ensures EndsWith(r, ControllerSuffix)
    ensures EndsWith(controllerName, ControllerSuffix) ==> r == controllerName
    ensures !EndsWith(controllerName, ControllerSuffix) ==> r == controllerName + ControllerSuffix
  {
    if EndsWith(controllerName, ControllerSuffix) then controllerName
    else
      assert (controllerName + ControllerSuffix)[|controllerName|..] == ControllerSuffix;
      controllerName + ControllerSuffix
  }

  /** Normalising twice is normalising once. */
  lemma FullControllerNameIdempotent(controllerName: string)
    ensures FullControllerName(FullControllerName(controllerName)) == FullControllerName(controllerName)
  {
  }

  predicate IsControllerNamed(fullName: string, t: TypeInfo) {
    EqualsIgnoreCase(t.name, fullName) && t.derivesFromControllerBase
  }

  /** Carries one of the four routing attributes the lookup accepts (HttpPatch is not one). */
  predicate IsTagged(m: MethodInfo) {
    HttpGet in m.verbs || HttpPost in m.verbs || HttpPut in m.verbs || HttpDelete in m.verbs
  }

  predicate IsActionNamed(actionName: string, m: MethodInfo) {
    m.isPublicInstance && EqualsIgnoreCase(m.name, actionName) && IsTagged(m)
  }

  /** A resolved controller: the type and its method. */
  datatype Target = Target(controller: TypeInfo, action: MethodInfo)

  /** `FindControllerAndMethod`, loading the named assembly. */
  function FindIn(assemblies: Assemblies, assemblyName: string, controllerName: string, actionName: string)
    : (r: Result<Target>)
    ensures assemblyName !in assemblies ==> r.Throws? && r.error.kind == FileNotFound
    ensures r.Ok? ==>
      var types := assemblies[assemblyName];
      var full := FullControllerName(controllerName);
      && (exists i :: 0 <= i < |types| && types[i] == r.value.controller
            && (forall j :: 0 <= j < i ==> !IsControllerNamed(full, types[j])))
      && IsControllerNamed(full, r.value.controller)
      && IsActionNamed(actionName, r.value.action)
      && (exists i :: 0 <= i < |r.value.controller.methods| && r.value.controller.methods[i] == r.value.action
            && (forall j :: 0 <= j < i ==> !IsActionNamed(actionName, r.value.controller.methods[j])))
    ensures r.Throws? && assemblyName in assemblies ==> r.error.kind == InvalidOperation
  {
    if assemblyName !in assemblies then
      Throws(Error(FileNotFound, "Could not load file or assembly '" + assemblyName + "'."))
    else
      var types := assemblies[assemblyName];
      var full := FullControllerName(controllerName);
      match FirstIndex(types, t => IsControllerNamed(full, t))
      case None => Throws(Error(InvalidOperation, "Controller '" + full + "' não encontrado."))
      case Some(i) =>
        var t := types[i];
        match FirstIndex(t.methods, m => IsActionNamed(actionName, m))
        case None =>
          Throws(Error(InvalidOperation,
            "Action '" + actionName + "' não encontrada no controller '" + full + "'."))
        case Some(j) => Ok(Target(t, t.methods[j]))
  }

  /** The lookup as written: it loads "Globo.Giro.UI.WebApi". */
  function FindControllerAndMethodAsWritten(assemblies: Assemblies, controllerName: string, actionName: string)
    : Result<Target>
  {
    FindIn(assemblies, AssemblyNameAsWritten, controllerName, actionName)
  }

  /** The lookup against this repository's web API assembly, which the rest of the model uses. */
  function FindControllerAndMethod(assemblies: Assemblies, controllerName: string, actionName: string)
    : Result<Target>
  {
    FindIn(assemblies, WebApiAssemblyName, controllerName, actionName)
  }

  /** The lookup succeeds exactly when the first controller type with the normalised name has
      a tagged public method with the action's name; a later type with the same name is never
      consulted. */
  lemma FindSucceedsIff(assemblies: Assemblies, controllerName: string, actionName: string)
    requires WebApiAssemblyName in assemblies
    ensures var types := assemblies[WebApiAssemblyName];
      var full := FullControllerName(controllerName);
      FindControllerAndMethod(assemblies, controllerName, actionName).Ok? <==>
        exists i :: 0 <= i < |types| && IsControllerNamed(full, types[i])
          && (forall j :: 0 <= j < i ==> !IsControllerNamed(full, types[j]))
          && exists m :: m in types[i].methods && IsActionNamed(actionName, m)
  {
    var types := assemblies[WebApiAssemblyName];
    var full := FullControllerName(controllerName);
    var fi := FirstIndex(types, t => IsControllerNamed(full, t));
    if fi.Some? {
      var t := types[fi.value];
      var fm := FirstIndex(t.methods, m => IsActionNamed(actionName, m));
      if fm.Some? {
        assert t.methods[fm.value] in t.methods;
      }
    }
  }

  /** Only a tagged, public instance method is ever selected. */
  lemma UntaggedNeverChosen(assemblies: Assemblies, controllerName: string, actionName: string)
    ensures var r := FindControllerAndMethod(assemblies, controllerName, actionName);
      r.Ok? ==>
        IsTagged(r.value.action) && r.value.action.isPublicInstance
        && r.value.controller.derivesFromControllerBase
  {
  }

  /** `InvokeController`: resolve again, invoke, then unwrap. */
  function InvokeController(assemblies: Assemblies, invoke: Invoker, controllerName: string,
                            actionName: string, args: seq<Value>): (r: Result<Value>)
    ensures FindControllerAndMethod(assemblies, controllerName, actionName).Throws? ==>
      r == Throws(FindControllerAndMethod(assemblies, controllerName, actionName).error)
  {
    match FindControllerAndMethod(assemblies, controllerName, actionName)
    case Throws(e) => Throws(e)
    case Ok(target) => Unwrap(invoke(target.controller, target.action, args))
  }

  /** What the invoker hands back: an awaited Task gives its result, and an ObjectResult inside
      it gives its `Value`; a plain return value passes through as it is. */
  function Unwrap(inv: Invocation): (r: Result<Value>)
    ensures inv.Returned? ==> r == Ok(inv.result)
    ensures inv.Completed? && inv.taskResult.ObjectResult? ==> r == Ok(inv.taskResult.value)
    ensures inv.Completed? && !inv.taskResult.ObjectResult? ==> r == Ok(inv.taskResult)
    ensures inv.Faulted? ==> r == Throws(inv.error)
    ensures inv.Threw? ==> r.Throws? && r.error.inner == Some(inv.error)
  {
    match inv
    case Returned(v) => Ok(v)
    case Completed(v) => if v.ObjectResult? then Ok(v.value) else Ok(v)
    case Faulted(e) => Throws(e)
    case Threw(e) =>
      Throws(Exception(OtherKind("TargetInvocationException"),
        "Exception has been thrown by the target of an invocation.", Some(e)))
  }

  /** Invocation fails on resolution exactly when the lookup fails: a successful lookup hands
      the call to the invoker, whose outcome alone decides the result. */
  lemma InvokeResolvesLikeFind(assemblies: Assemblies, invoke: Invoker, controllerName: string,
                               actionName: string, args: seq<Value>)
    ensures var f := FindControllerAndMethod(assemblies, controllerName, actionName);
      f.Ok? ==> InvokeController(assemblies, invoke, controllerName, actionName, args)
                  == Unwrap(invoke(f.value.controller, f.value.action, args))
  {
  }

  // ---------------------------------------------------------------- the assembly name

  /** This repository's controller registry in miniature: EventController with its `Get`. */
  function SampleAssemblies(): Assemblies {
    map[WebApiAssemblyName := [TypeInfo("EventController", true,
      [MethodInfo("Get", true, {HttpGet}, [])])]]
  }

  /** As written, no controller of this repository can be resolved: the assembly it loads is
      not the one the controllers live in. */
  lemma AsWrittenFindsNothing()
    ensures FindControllerAndMethodAsWritten(SampleAssemblies(), "Event", "Get").Throws?
    ensures FindControllerAndMethodAsWritten(SampleAssemblies(), "Event", "Get").error.kind == FileNotFound
    ensures FindControllerAndMethod(SampleAssemblies(), "Event", "Get").Ok?
  {
    var t := SampleAssemblies()[WebApiAssemblyName][0];
    assert IsControllerNamed(FullControllerName("Event"), t) by {
      assert FullControllerName("Event") == "EventController";
    }
    assert IsActionNamed("Get", t.methods[0]);
  }
}

=== FILE: domain.dfy ===
/**
  ProAgilDomain: the event entities and their transfer objects, as far as the update and delete
  endpoints use them — an identifier and the child lists that `Put` prunes. Every other column
  passes through the object mapper, which the model keeps abstract.
*/
module ProAgilDomain {
  import opened Wrappers

  datatype Batch = Batch(id: int)
  datatype SocialNetwork = SocialNetwork(id: int)

  /** `Event`: both child lists are initialised to empty lists, so they are never null. */
  datatype Event = Event(id: int, batches: seq<Batch>, socialNetworks: seq<SocialNetwork>)

  datatype Lote = Lote(id: int)
  datatype RedeSocial = RedeSocial(id: int)

  /** `Evento`: its child lists have no initialiser, so either may be null. */
  datatype Evento = Evento(id: int, lotes: Option<seq<Lote>>, redesSociais: Option<seq<RedeSocial>>)

  datatype BatchDto = BatchDto(id: int)
  datatype SocialNetworkDto = SocialNetworkDto(id: int)

  /** `EventDto`: the lists start out empty, but a request body may set either to null. */
  datatype EventDto = EventDto(id: int, batches: Option<seq<BatchDto>>, socialNetworks: Option<seq<SocialNetworkDto>>)

  datatype LoteDto = LoteDto(id: int)
  datatype RedeSocialDto = RedeSocialDto(id: int)

  /** `EventoDto`: the lists have no initialiser; a body that omits one leaves it null. */
  datatype EventoDto = EventoDto(id: int, lotes: Option<seq<LoteDto>>, redesSociais: Option<seq<RedeSocialDto>>)
}

=== FILE: environment_variable_extension.dfy ===
/**
  EnvironmentVariableExtensions and ConfigSettings: settings read from the process environment
  and from the JSON configuration files, converted to the type the caller asks for.

  The process environment is a map from variable names to values. A configuration is the map
  `IConfigurationRoot` answers from; its keys are compared ignoring case, so a `Settings` map is
  keyed by the upper-cased key. The JSON files a configuration may load are given as a map from
  file names to the settings they hold.
*/
module EnvironmentVariableExtensions {
  import opened Wrappers
  import opened Text
  import opened Clr

  type Environment = map<string, string>
  type Settings = map<string, string>

  /** `Environment.GetEnvironmentVariable(name)`: null when the variable is not set. */
  function Variable(env: Environment, name: string): (r: Option<string>)
    ensures r.Some? <==> name in env
  {
    if name in env then Some(env[name]) else None
  }

  /** `configuration[key]`: keys match ignoring case; null when the key is absent. */
  function Setting(settings: Settings, key: string): (r: Option<string>)
    ensures r.Some? <==> UpperAll(key) in settings
  {
    if UpperAll(key) in settings then Some(settings[UpperAll(key)]) else None
  }

  // ---------------------------------------------------------------- ConvertValue

  const Int32Min: int := -0x8000_0000
  const Int32Max: int := 0x7FFF_FFFF

  /** The white space `Int32.Parse` accepts around a number. */
  predicate IsNumberWhite(c: char) {
    c == ' ' || '\t' <= c <= '\r'
  }

  /** The characters `Boolean.Parse` trims: white space and the null character. */
  predicate IsBooleanBlank(c: char) {
    IsWhiteSpace(c) || c == '\0'
  }

  /** `s` without the leading characters that satisfy `blank`. */
  function StripStart(s: string, blank: char -> bool): (r: string)
    ensures |r| <= |s| && r == s[|s| - |r|..]
    ensures forall i :: 0 <= i < |s| - |r| ==> blank(s[i])
    ensures r == [] || !blank(r[0])
  {
    if |s| > 0 && blank(s[0]) then StripStart(s[1..], blank) else s
  }

  /** `s` without the trailing characters that satisfy `blank`. */
  function StripEnd(s: string, blank: char -> bool): (r: string)
    ensures |r| <= |s| && r == s[..|r|]
    ensures forall i :: |r| <= i < |s| ==> blank(s[i])
    ensures r == [] || !blank(r[|r| - 1])
  {
    if |s| > 0 && blank(s[|s| - 1]) then StripEnd(s[..|s| - 1], blank) else s
  }

  function Strip(s: string, blank: char -> bool): string {
    StripEnd(StripStart(s, blank), blank)
  }

  /** `int.Parse(s)`: optional white space, an optional sign, at least one decimal digit,
      optional white space; a number outside the range of `int` overflows. */
  function ParseInt32(s: string): (r: Result<int>)
    ensures r.Ok? ==> Int32Min <= r.value <= Int32Max
    ensures var t := Strip(s, IsNumberWhite);
      r.Ok? <==> Fits(IsNegative(t), Unsigned(t))
    ensures var t := Strip(s, IsNumberWhite);
      r.Ok? ==> r.value == Signed(IsNegative(t), Unsigned(t))
    ensures var digits := Unsigned(Strip(s, IsNumberWhite));
      r.Throws? ==> r.error == if digits == [] || !AllDigits(digits) then FormatError(s) else OverflowError()
  {
    ParseNumber(s, Strip(s, IsNumberWhite))
  }

  /** A number text whose sign is a minus. */
  predicate IsNegative(t: string) {
    |t| > 0 && t[0] == '-'
  }

  /** The digits of a number text once its sign, if any, is dropped. */
  function Unsigned(t: string): string {
    if |t| > 0 && (t[0] == '-' || t[0] == '+') then t[1..] else t
  }

  /** The value of `digits`, negated when a minus sign came before them. */
  function Signed(negative: bool, digits: string): int
    requires AllDigits(digits)
  {
    if negative then 0 - DigitsValue(digits) else DigitsValue(digits)
  }

  /** `digits` is one or more decimal digits whose signed value fits in an `int`. */
  predicate Fits(negative: bool, digits: string) {
    digits != [] && AllDigits(digits) && Int32Min <= Signed(negative, digits) <= Int32Max
  }

  /** The sign and digits `t` that remain of `s` once the white space around it is removed. */
  function ParseNumber(s: string, t: string): (r: Result<int>)
    ensures r.Ok? ==> Int32Min <= r.value <= Int32Max
    ensures r.Ok? <==> Fits(IsNegative(t), Unsigned(t))
    ensures r.Ok? ==> r.value == Signed(IsNegative(t), Unsigned(t))
    ensures r.Throws? ==>
      r.error == if Unsigned(t) == [] || !AllDigits(Unsigned(t)) then FormatError(s) else OverflowError()
  {
    if |t| > 0 && t[0] == '-' then SignedNumber(s, true, t[1..])
    else if |t| > 0 && t[0] == '+' then SignedNumber(s, false, t[1..])
    else SignedNumber(s, false, t)
  }

  /** The number `digits` stand for, signed: FormatException unless they are one or more
      decimal digits, OverflowException when the value does not fit. */
  function SignedNumber(s: string, negative: bool, digits: string): (r: Result<int>)
    ensures r.Ok? ==> Int32Min <= r.value <= Int32Max
    ensures r.Ok? <==> Fits(negative, digits)
    ensures r.Ok? ==> r.value == Signed(negative, digits)
    ensures r.Throws? ==> r.error == if digits == [] || !AllDigits(digits) then FormatError(s) else OverflowError()
  {
    if digits == [] || !AllDigits(digits) then
      Throws(FormatError(s))
    else
      var magnitude: int := DigitsValue(digits);
      var n := if negative then -magnitude else magnitude;
      if n < Int32Min || n > Int32Max then
        Throws(OverflowError())
      else Ok(n)
  }

  function FormatError(s: string): Exception {
    Error(Format, "The input string '" + s + "' was not in a correct format.")
  }

  function OverflowError(): Exception {
    Error(OtherKind("OverflowException"), "Value was either too large or too small for an Int32.")
  }

  /** `bool.Parse(s)`: "True" or "False" ignoring case, after trimming. */
  function ParseBoolean(s: string): (r: Result<bool>)
    ensures r.Ok? <==>
      (EqualsIgnoreCase(Strip(s, IsBooleanBlank), "True") || EqualsIgnoreCase(Strip(s, IsBooleanBlank), "False"))
    ensures r.Ok? ==> (r.value <==> EqualsIgnoreCase(Strip(s, IsBooleanBlank), "True"))
  {
    var t := Strip(s, IsBooleanBlank);
    if EqualsIgnoreCase(t, "True") then Ok(true)
    else if EqualsIgnoreCase(t, "False") then Ok(false)
    else Throws(Error(Format, "String '" + s + "' was not recognized as a valid Boolean."))
  }

  /** `Convert.ChangeType(value, typeof(T))` for a string value. A string is itself; int and
      bool are parsed; `Nullable<T>`, enums, lists, classes and structs cannot be converted to. */
  function ChangeType(value: string, t: ClrType): (r: Result<Value>)
    ensures t == StringType ==> r == Ok(Str(value))
    ensures t.NullableOf? || t.EnumType? || t.ListOf? || t.ClassType? || t.StructType? ==> r.Throws?
  {
    match t
    case StringType => Ok(Str(value))
    case IntType => (match ParseInt32(value) case Ok(n) => Ok(Integer(n)) case Throws(e) => Throws(e))
    case BoolType => (match ParseBoolean(value) case Ok(b) => Ok(Bool(b)) case Throws(e) => Throws(e))
    case _ =>
      Throws(Error(OtherKind("InvalidCastException"),
        "Invalid cast from 'System.String' to '" + Name(t) + "'."))
  }

  /** `ConvertValue<T>`: never throws; a failed conversion gives `default(T)`. */
  function ConvertValue(value: string, t: ClrType): (r: Value)
    ensures ChangeType(value, t).Ok? ==> r == ChangeType(value, t).value
    ensures ChangeType(value, t).Throws? ==> r == DefaultValue(t)
  {
    match ChangeType(value, t)
    case Ok(v) => v
    case Throws(_) => DefaultValue(t)
  }

  /** The value a lookup returns for the text it found: `default(T)` for null, the conversion
      otherwise. */
  function Converted(text: Option<string>, t: ClrType): (r: Value)
    ensures text.None? ==> r == DefaultValue(t)
    ensures text.Some? ==> r == ConvertValue(text.value, t)
    ensures text.None? ==> (r == Null <==> !IsValueType(t) || t.NullableOf?)
    ensures text.None? && t == IntType ==> r == Integer(0)
    ensures text.Some? && t == StringType ==> r == Str(text.value)
    ensures text.Some? && t == IntType ==>
      r == (match ParseInt32(text.value) case Ok(n) => Integer(n) case Throws(_) => Integer(0))
  {
    if text.None? then DefaultValue(t) else ConvertValue(text.value, t)
  }

  // ---------------------------------------------------------------- properties of ConvertValue

  /** Text asked for as a string comes back unchanged. */
  lemma ConvertString(value: string)
    ensures ConvertValue(value, StringType) == Str(value)
  {
  }

  /** A value that cannot be parsed as the asked type gives that type's default: 0, false, or
      null for a nullable type. */
  lemma FailedConversionDefault(value: string, t: ClrType)
    requires t == IntType || t == BoolType || t.NullableOf?
    requires t == IntType ==> ParseInt32(value).Throws?
    requires t == BoolType ==> ParseBoolean(value).Throws?
    ensures ConvertValue(value, t) == (if t == IntType then Integer(0) else if t == BoolType then Bool(false) else Null)
  {
  }

  /** The rendering of an int converts back to that int. */
  lemma ConvertIntRoundTrip(n: int)
    requires Int32Min <= n <= Int32Max
    ensures ConvertValue(IntToString(n), IntType) == Integer(n)
  {
    var s := IntToString(n);
    assert ParseInt32(s) == Ok(n) by {
      ParseRendering(n);
    }
    assert ChangeType(s, IntType) == Ok(Integer(n));
  }

  /** A boolean written either way, in any case and with surrounding blanks, converts. */
  lemma ConvertBoolean(value: string, b: bool)
    requires EqualsIgnoreCase(Strip(value, IsBooleanBlank), if b then "True" else "False")
    ensures ConvertValue(value, BoolType) == Bool(b)
  {
    if !b {
      assert UpperAll("True") != UpperAll("False") by { assert UpperAll("True")[0] != UpperAll("False")[0]; }
    }
  }

  lemma ParseRendering(n: int)
    requires Int32Min <= n <= Int32Max
    ensures ParseInt32(IntToString(n)) == Ok(n)
  {
    var s := IntToString(n);
    var m: nat := if n < 0 then -n else n;
    var d := IntToString(m);
    RenderingDigits(m);
    assert IsDigit(d[0]) && IsDigit(d[|d| - 1]);
    if n < 0 {
      assert s == "-" + d;
      assert s[1..] == d;
      ParseNegative(s, d);
    } else {
      assert s == d;
      ParseUnsigned(s, d);
    }
    assert s[|s| - 1] == d[|d| - 1];
    StripUnblank(s, IsNumberWhite);
  }

  /** Decimal digits parse to their value. */
  lemma ParseUnsigned(s: string, digits: string)
    requires |digits| > 0 && AllDigits(digits) && DigitsValue(digits) <= Int32Max
    ensures ParseNumber(s, digits) == Ok(DigitsValue(digits))
  {
    assert IsDigit(digits[0]);
  }

  /** Decimal digits after a minus sign parse to the negated value. */
  lemma ParseNegative(s: string, digits: string)
    requires |digits| > 0 && AllDigits(digits) && Int32Min <= 0 - DigitsValue(digits)
    ensures ParseNumber(s, "-" + digits) == Ok(0 - DigitsValue(digits))
  {
    var t := "-" + digits;
    assert t[0] == '-' && t[1..] == digits;
    assert Unsigned(t) == digits && IsNegative(t);
  }

  /** Digits, signed or not, with white space on either side parse to their value when it fits. */
  lemma ParsePadded(lead: string, negative: bool, digits: string, trail: string)
    requires forall i :: 0 <= i < |lead| ==> IsNumberWhite(lead[i])
    requires forall i :: 0 <= i < |trail| ==> IsNumberWhite(trail[i])
    requires |digits| > 0 && AllDigits(digits)
    requires if negative then DigitsValue(digits) <= -Int32Min else DigitsValue(digits) <= Int32Max
    ensures var number := (if negative then "-" else "") + digits;
      ParseInt32(lead + number + trail) == Ok(if negative then 0 - DigitsValue(digits) else DigitsValue(digits))
  {
    var number := (if negative then "-" else "") + digits;
    var s := lead + number + trail;
    assert !IsNumberWhite(number[0]) && !IsNumberWhite(number[|number| - 1]) by {
      assert IsDigit(digits[0]) && IsDigit(digits[|digits| - 1]);
      assert number[|number| - 1] == digits[|digits| - 1];
    }
    StripPadded(lead, number, trail, IsNumberWhite);
    assert ParseInt32(s) == ParseNumber(s, number);
    if negative {
      ParseNegative(s, digits);
    } else {
      assert number == digits;
      ParseUnsigned(s, digits);
    }
  }

  /** Blanks on either side of text that starts and ends unblank are stripped away. */
  lemma StripPadded(lead: string, text: string, trail: string, blank: char -> bool)
    requires forall i :: 0 <= i < |lead| ==> blank(lead[i])
    requires forall i :: 0 <= i < |trail| ==> blank(trail[i])
    requires |text| > 0 && !blank(text[0]) && !blank(text[|text| - 1])
    ensures Strip(lead + text + trail, blank) == text
  {
    StripStartBlanks(lead, text + trail, blank);
    assert lead + text + trail == lead + (text + trail);
    StripEndBlanks(text, trail, blank);
  }

  /** Stripping leading blanks from blanks followed by text that starts unblank leaves that text. */
  lemma {:induction false} StripStartBlanks(lead: string, rest: string, blank: char -> bool)
    requires forall i :: 0 <= i < |lead| ==> blank(lead[i])
    requires rest == [] || !blank(rest[0])
    ensures StripStart(lead + rest, blank) == rest
  {
    if lead != [] {
      assert (lead + rest)[1..] == lead[1..] + rest;
      StripStartBlanks(lead[1..], rest, blank);
    } else {
      assert lead + rest == rest;
    }
  }

  /** Stripping trailing blanks from text that ends unblank followed by blanks leaves that text. */
  lemma {:induction false} StripEndBlanks(front: string, trail: string, blank: char -> bool)
    requires forall i :: 0 <= i < |trail| ==> blank(trail[i])
    requires front == [] || !blank(front[|front| - 1])
    ensures StripEnd(front + trail, blank) == front
  {
    if trail != [] {
      var shorter := trail[..|trail| - 1];
      assert (front + trail)[..|front + trail| - 1] == front + shorter;
      StripEndBlanks(front, shorter, blank);
    } else {
      assert front + trail == front;
    }
  }

  /** Text that neither starts nor ends with a blank is not changed by stripping. */
  lemma StripUnblank(s: string, blank: char -> bool)
    requires |s| > 0 && !blank(s[0]) && !blank(s[|s| - 1])
    ensures Strip(s, blank) == s
  {
  }

  // ---------------------------------------------------------------- the lookups

  /** The configuration a lookup reads: the one passed in, or else the application settings. */
  function ConfigurationOf(configuration: Option<Settings>, appSettings: Settings): Settings {
    configuration.GetOr(appSettings)
  }

  /** `GetEnvironmentVariable<T>(environmentKey, configFileKey, configuration)`: the environment
      variable, unless it is null or empty and there is a config-file key to consult instead.
      `appSettings` is the configuration of the application settings used when none is passed. */
  method GetEnvironmentVariable(env: Environment, environmentKey: string, configFileKey: string,
                                configuration: Option<Settings>, appSettings: Settings, t: ClrType)
    returns (r: Value)
    ensures var fromEnv := if environmentKey == "" then None else Variable(env, environmentKey);
      && (!IsNullOrEmpty(fromEnv) ==> r == ConvertValue(fromEnv.value, t))
      && (IsNullOrEmpty(fromEnv) && configFileKey != "" ==>
            r == Converted(Setting(ConfigurationOf(configuration, appSettings), configFileKey), t))
      && (IsNullOrEmpty(fromEnv) && configFileKey == "" ==> r == Converted(fromEnv, t))
  {
    var text: Option<string> := None;
    var settings := appSettings;
    if configuration.Some? {
      settings := configuration.value;
    }
    if environmentKey != "" {
      text := Variable(env, environmentKey);
    }
    if IsNullOrEmpty(text) && configFileKey != "" {
      text := Setting(settings, configFileKey);
    }
    r := Converted(text, t);
  }

  /** `GetEnvironmentByConfigFile<T>`: the config-file key alone; an empty key gives the
      default without consulting the configuration. */
  method GetEnvironmentByConfigFile(configFileKey: string, configuration: Option<Settings>,
                                    appSettings: Settings, t: ClrType)
    returns (r: Value)
    ensures configFileKey == "" ==> r == DefaultValue(t)
    ensures configFileKey != "" ==> r == Converted(Setting(ConfigurationOf(configuration, appSettings), configFileKey), t)
  {
    var text: Option<string> := None;
    var settings := appSettings;
    if configuration.Some? {
      settings := configuration.value;
    }
    if configFileKey != "" {
      text := Setting(settings, configFileKey);
    }
    r := Converted(text, t);
  }

  /** `GetEnvironmentVariable<T>(environmentKey)`: the environment alone, never the
      configuration; an empty key or an unset variable gives the default. */
  method GetEnvironmentVariableOnly(env: Environment, environmentKey: string, t: ClrType)
    returns (r: Value)
    ensures environmentKey == "" || environmentKey !in env ==> r == DefaultValue(t)
    ensures environmentKey != "" && environmentKey in env ==> r == ConvertValue(env[environmentKey], t)
  {
    var text: Option<string> := None;
    if environmentKey != "" {
      text := Variable(env, environmentKey);
    }
    r := Converted(text, t);
  }

  // ---------------------------------------------------------------- the hosting environment

  const DotnetEnvironment: string := "DOTNET_ENVIRONMENT"
  const AspNetCoreEnvironment: string := "ASPNETCORE_ENVIRONMENT"

  /** `GetNetCoreEnv`: DOTNET_ENVIRONMENT when it is set and not empty, else
      ASPNETCORE_ENVIRONMENT as it is (possibly null or empty). */
  function GetNetCoreEnv(env: Environment): (r: Option<string>)
    ensures !IsNullOrEmpty(Variable(env, DotnetEnvironment)) ==> r == Variable(env, DotnetEnvironment)
    ensures IsNullOrEmpty(Variable(env, DotnetEnvironment)) ==> r == Variable(env, AspNetCoreEnvironment)
  {
    var dotnet := Variable(env, DotnetEnvironment);
    if !IsNullOrEmpty(dotnet) then dotnet else Variable(env, AspNetCoreEnvironment)
  }

  /** `IsProduction`: the hosting environment is "Production" or "Prod", in any case. */
  function IsProduction(env: Environment): (r: bool)
    ensures r <==>
      (GetNetCoreEnv(env).Some?
       && (UpperAll(GetNetCoreEnv(env).value) == "PRODUCTION" || UpperAll(GetNetCoreEnv(env).value) == "PROD"))
  {
    var name := GetNetCoreEnv(env);
    if !(name.Some? && EqualsIgnoreCase(name.value, "PRODUCTION")) then
      name.Some? && EqualsIgnoreCase(name.value, "PROD")
    else true
  }

  /** A non-empty DOTNET_ENVIRONMENT decides the hosting environment: ASPNETCORE_ENVIRONMENT is
      then ignored, whatever it holds. */
  lemma DotnetEnvironmentWins(env: Environment, aspNetCore: string)
    requires !IsNullOrEmpty(Variable(env, DotnetEnvironment))
    ensures GetNetCoreEnv(env[AspNetCoreEnvironment := aspNetCore]) == GetNetCoreEnv(env)
    ensures IsProduction(env[AspNetCoreEnvironment := aspNetCore]) == IsProduction(env)
  {
    assert Variable(env[AspNetCoreEnvironment := aspNetCore], DotnetEnvironment) == Variable(env, DotnetEnvironment);
  }

  /** Without DOTNET_ENVIRONMENT, ASPNETCORE_ENVIRONMENT "Production" makes a production host,
      while an unset hosting environment does not. */
  lemma ProductionExamples()
    ensures IsProduction(map[AspNetCoreEnvironment := "Production"])
    ensures IsProduction(map[DotnetEnvironment := "prod", AspNetCoreEnvironment := "Development"])
    ensures !IsProduction(map[DotnetEnvironment := "", AspNetCoreEnvironment := "Staging"])
    ensures !IsProduction(map[])
  {
    var e1: Environment := map[AspNetCoreEnvironment := "Production"];
    assert DotnetEnvironment !in e1;
    assert UpperAll("Production") == "PRODUCTION";
    assert UpperAll("prod") == "PROD";
    var e3: Environment := map[DotnetEnvironment := "", AspNetCoreEnvironment := "Staging"];
    assert UpperAll("Staging")[1] == 'T';
  }

  // ---------------------------------------------------------------- LoadConfiguration

  const JsonExtension: string := ".json"

  /** The environment-specific file name: "." + env inserted just before the last ".json";
      `string.Insert` at -1 throws when the name has no ".json". */
  function EnvironmentFileName(file: string, environment: string): (r: Result<string>)
    ensures r.Throws? <==> LastIndexOf(file, JsonExtension) == -1
    ensures r.Ok? ==>
      var i := LastIndexOf(file, JsonExtension);
      && r.value == file[..i] + "." + environment + file[i..]
      && OccursAt(r.value, "." + environment + JsonExtension, i)
  {
    var i := LastIndexOf(file, JsonExtension);
    if i == -1 then
      Throws(Error(ArgumentOutOfRange, "Specified argument was out of the range of valid values. (Parameter 'startIndex')"))
    else
      var r := file[..i] + "." + environment + file[i..];
      assert r[i..i + |"." + environment + JsonExtension|] == "." + environment + file[i..i + 5];
      Ok(r)
  }

  /** Removing the inserted text gives the file name back: the insertion changes nothing else. */
  lemma EnvironmentFileNameInverse(file: string, environment: string)
    requires EnvironmentFileName(file, environment).Ok?
    ensures var i := LastIndexOf(file, JsonExtension);
      var r := EnvironmentFileName(file, environment).value;
      r[..i] + r[i + |environment| + 1..] == file
  {
    var i := LastIndexOf(file, JsonExtension);
    var r := EnvironmentFileName(file, environment).value;
    assert r[..i] == file[..i];
    assert r[i + |environment| + 1..] == file[i..];
  }

  /** The application settings file gets "appsettings.<env>.json" as its environment file. */
  lemma AppSettingsFileName(environment: string)
    ensures EnvironmentFileName("appsettings.json", environment) == Ok("appsettings." + environment + ".json")
  {
    var file := "appsettings.json";
    assert OccursAt(file, JsonExtension, 11);
    var i := LastIndexOf(file, JsonExtension);
    assert i == 11;
    assert file[..11] == "appsettings" && file[11..] == ".json";
    assert EnvironmentFileName(file, environment).value == file[..11] + "." + environment + file[11..];
    assert file[..11] + "." == "appsettings.";
    assert file[..11] + "." + environment + file[11..] == "appsettings." + environment + ".json";
  }

  /** What a JSON file contributes: its settings, or nothing when it is absent (optional). */
  function FileSettings(files: map<string, Settings>, file: string): Settings {
    if file in files then files[file] else map[]
  }

  /** `ConfigurationBuilder.Build()` over the JSON files added in turn: a later file overrides
      the keys it defines. */
  function Build(sources: seq<string>, files: map<string, Settings>): Settings {
    if sources == [] then map[]
    else Build(sources[..|sources| - 1], files) + FileSettings(files, sources[|sources| - 1])
  }

  /** A key comes from the last source that defines it. */
  lemma BuildLookup(sources: seq<string>, files: map<string, Settings>, key: string)
    ensures key in Build(sources, files) <==> exists j :: 0 <= j < |sources| && key in FileSettings(files, sources[j])
    ensures key in Build(sources, files) ==>
      exists j :: 0 <= j < |sources| && key in FileSettings(files, sources[j])
        && Build(sources, files)[key] == FileSettings(files, sources[j])[key]
        && forall l :: j < l < |sources| ==> key !in FileSettings(files, sources[l])
  {
    BuildDefines(sources, files, key);
    if key in Build(sources, files) {
      var j := BuildLast(sources, files, key);
    }
  }

  lemma {:induction false} BuildDefines(sources: seq<string>, files: map<string, Settings>, key: string)
    ensures key in Build(sources, files) <==> exists j :: 0 <= j < |sources| && key in FileSettings(files, sources[j])
  {
    if sources != [] {
      var init := sources[..|sources| - 1];
      BuildDefines(init, files, key);
      if key in Build(init, files) {
        var j :| 0 <= j < |init| && key in FileSettings(files, init[j]);
        assert sources[j] == init[j];
      }
      forall j | 0 <= j < |init| && key in FileSettings(files, sources[j])
        ensures key in Build(init, files)
      {
        assert sources[j] == init[j];
      }
    }
  }

  /** The source a defined key's value comes from: the last one that defines it. */
  lemma {:induction false} BuildLast(sources: seq<string>, files: map<string, Settings>, key: string) returns (j: nat)
    requires key in Build(sources, files)
    ensures j < |sources| && key in FileSettings(files, sources[j])
    ensures Build(sources, files)[key] == FileSettings(files, sources[j])[key]
    ensures forall l :: j < l < |sources| ==> key !in FileSettings(files, sources[l])
  {
    var init := sources[..|sources| - 1];
    if key in FileSettings(files, sources[|sources| - 1]) {
      j := |sources| - 1;
    } else {
      j := BuildLast(init, files, key);
      assert sources[j] == init[j];
      forall l | j < l < |sources| ensures key !in FileSettings(files, sources[l]) {
        if l < |init| {
          assert sources[l] == init[l];
        }
      }
    }
  }

  /** The JSON files `LoadConfiguration(file)` adds, in order: the file, then its environment
      file when the hosting environment is set and not blank. */
  function Sources(file: string, env: Environment): Result<seq<string>> {
    var netCoreEnv := GetNetCoreEnv(env);
    if netCoreEnv.Some? && !IsNullOrWhiteSpace(netCoreEnv) then
      match EnvironmentFileName(file, netCoreEnv.value)
      case Throws(e) => Throws(e)
      case Ok(path) => Ok([file, path])
    else Ok([file])
  }

  /** The environment file is added exactly when the hosting environment is not blank, and then
      it overrides the base file key by key. */
  lemma SourcesShape(file: string, env: Environment, key: string)
    requires Sources(file, env).Ok?
    ensures var netCoreEnv := GetNetCoreEnv(env);
      var sources := Sources(file, env).value;
      && (IsNullOrWhiteSpace(netCoreEnv) ==> sources == [file])
      && (!IsNullOrWhiteSpace(netCoreEnv) ==>
            sources == [file, EnvironmentFileName(file, netCoreEnv.value).value])
  {
  }

  /** Settings loaded from a base file and an environment file: a key of the environment file
      wins; any other key keeps the base file's value. */
  lemma EnvironmentFileOverrides(file: string, path: string, files: map<string, Settings>, key: string)
    ensures var built := Build([file, path], files);
      && (key in FileSettings(files, path) ==> key in built && built[key] == FileSettings(files, path)[key])
      && (key !in FileSettings(files, path) ==>
            (key in built <==> key in FileSettings(files, file))
            && (key in built ==> built[key] == FileSettings(files, file)[key]))
  {
    assert [file, path][..1] == [file];
    assert [file][..0] == [];
    var empty: Settings := map[];
    assert Build([file], files) == empty + FileSettings(files, file);
    assert empty + FileSettings(files, file) == FileSettings(files, file);
  }

  /** The settings object: `Configuration` is null until `LoadConfiguration` has run. */
  class ConfigSettings {
    var configuration: Option<Settings>

    /** `ConfigAppSettings`: the application settings, with the environment file of the hosting
        environment over them. */
    constructor (env: Environment, files: map<string, Settings>)
      ensures configuration == Some(Build(Sources("appsettings.json", env).value, files))
    {
      configuration := None;
      new;
      var netCoreEnv := GetNetCoreEnv(env);
      if netCoreEnv.Some? && !IsNullOrWhiteSpace(netCoreEnv) {
        AppSettingsFileName(netCoreEnv.value);
      }
      var failure := LoadConfiguration("appsettings.json", env, files);
    }

    /** `LoadConfiguration(file)`: the file, then its environment file, built into the
        configuration. When the environment file name cannot be formed the exception escapes
        and `Configuration` is left as it was. */
    method LoadConfiguration(file: string, env: Environment, files: map<string, Settings>)
      returns (failure: Option<Exception>)
      modifies this
      ensures Sources(file, env).Ok? ==> failure == None && configuration == Some(Build(Sources(file, env).value, files))
      ensures Sources(file, env).Throws? ==> failure == Some(Sources(file, env).error) && configuration == old(configuration)
    {
      var sources := [file];
      var netCoreEnv := GetNetCoreEnv(env);
      if netCoreEnv.Some? && !IsNullOrWhiteSpace(netCoreEnv) {
        var path := EnvironmentFileName(file, netCoreEnv.value);
        if path.Throws? {
          return Some(path.error);
        }
        assert [file] + [path.value] == [file, path.value];
        sources := sources + [path.value];
      }
      assert Sources(file, env) == Ok(sources);
      configuration := Some(Build(sources, files));
      failure := None;
    }

    /** `GetValue(key)`: the configured value, or null; before loading, the null configuration
        throws. */
    function GetValue(key: string): (r: Result<Option<string>>)
      reads this
      ensures configuration.None? <==> r.Throws?
      ensures configuration.Some? ==> r == Ok(Setting(configuration.value, key))
    {
      if configuration.None? then Throws(NullReferenceException())
      else Ok(Setting(configuration.value, key))
    }
  }
}

=== FILE: event_controller.dfy ===
/**
  EventController: the endpoints that change a stored event. `Put` replaces an event and prunes
  the batches and social networks the request no longer lists, `SimpleUpdate` replaces it without
  pruning, `Delete` removes it.

  Each endpoint is a method over the repository, specified by a function that gives its answer
  and the changes it issues from what the lookup and the save report.
*/
module EventController {
  import opened Wrappers
  import opened Clr
  import opened Text
  import opened Linq
  import opened ProAgilDomain
  import opened ProAgilRepository
  import opened WebApi

  const DatabaseFailed: string := "Database failed "
  const DatabaseConnectionFailed: string := "Database connection failed"

  function Location(id: int): string {
    "/api/event/" + IntToString(id)
  }

  /** The batch ids `Put` collects from the request; none when its list is null. */
  function BatchIds(model: EventDto): seq<int> {
    if model.batches.None? then [] else IdsOf(model.batches.value, (b: BatchDto) => b.id)
  }

  function SocialNetworkIds(model: EventDto): seq<int> {
    if model.socialNetworks.None? then [] else IdsOf(model.socialNetworks.value, (n: SocialNetworkDto) => n.id)
  }

  /** `Where(batch => !ids.Contains(batch.Id))`. */
  function UnlistedBatches(batches: seq<Batch>, ids: seq<int>): seq<Batch> {
    Filter(batches, (b: Batch) => b.id !in ids)
  }

  /** `Where(network => !ids.Contains(network.Id))`. */
  function UnlistedSocialNetworks(networks: seq<SocialNetwork>, ids: seq<int>): seq<SocialNetwork> {
    Filter(networks, (n: SocialNetwork) => n.id !in ids)
  }

  /** The stored batches whose id the request does not list. */
  function StaleBatches(entity: Event, model: EventDto): seq<Batch> {
    UnlistedBatches(entity.batches, BatchIds(model))
  }

  /** The stored social networks whose id is not among the request's *batch* ids: the list of
      social network ids is collected but never consulted. */
  function StaleSocialNetworks(entity: Event, model: EventDto): seq<SocialNetwork> {
    UnlistedSocialNetworks(entity.socialNetworks, BatchIds(model))
  }

  function BatchEntities(batches: seq<Batch>): seq<Entity> {
    seq(|batches|, i requires 0 <= i < |batches| => BatchEntity(batches[i]))
  }

  function SocialNetworkEntities(networks: seq<SocialNetwork>): seq<Entity> {
    seq(|networks|, i requires 0 <= i < |networks| => SocialNetworkEntity(networks[i]))
  }

  /** The deletions `Put` issues before it updates the event. */
  function Pruning(entity: Event, model: EventDto): seq<Command> {
    DeleteIfAny(BatchEntities(StaleBatches(entity, model)))
      + DeleteIfAny(SocialNetworkEntities(StaleSocialNetworks(entity, model)))
  }

  /** The update and save that `Put` and `SimpleUpdate` end with, and their answer. */
  function Replace(entity: Event, saved: Result<bool>, model: EventDto, mapper: Mapper<EventDto, Event>): Outcome<EventDto> {
    var updated := mapper.onto(model, entity);
    Outcome(UpdateAnswer(saved, Location(model.id), mapper.toDto(updated), DatabaseFailed),
            [Update(EventEntity(updated)), SaveChanges])
  }

  /** The specification of `Put`. */
  function PutOutcome(found: Result<Option<Event>>, saved: Result<bool>, model: EventDto,
                      mapper: Mapper<EventDto, Event>): Outcome<EventDto> {
    match found
    case Throws(e) => Outcome(ServerError(DatabaseFailed + e.message), [])
    case Ok(None) => Outcome(NotFound, [])
    case Ok(Some(entity)) =>
      var replaced := Replace(entity, saved, model, mapper);
      Outcome(replaced.result, Pruning(entity, model) + replaced.issued)
  }

  /** The specification of `SimpleUpdate`. */
  function SimpleUpdateOutcome(found: Result<Option<Event>>, saved: Result<bool>, model: EventDto,
                               mapper: Mapper<EventDto, Event>): Outcome<EventDto> {
    match found
    case Throws(e) => Outcome(ServerError(DatabaseFailed + e.message), [])
    case Ok(None) => Outcome(NotFound, [])
    case Ok(Some(entity)) => Replace(entity, saved, model, mapper)
  }

  /** The specification of `Delete`. */
  function DeleteOutcome(found: Result<Option<Event>>, saved: Result<bool>): Outcome<EventDto> {
    match found
    case Throws(_) => Outcome(ServerError(DatabaseConnectionFailed), [])
    case Ok(None) => Outcome(NotFound, [])
    case Ok(Some(entity)) => Outcome(DeleteAnswer(saved, DatabaseConnectionFailed), [Command.Delete(EventEntity(entity)), SaveChanges])
  }

  /** The first half of `Put`: collect the request's ids, then delete the stored batches and
      social networks they do not list. */
  method PruneChildren(repo: Repository, entity: Event, model: EventDto)
    modifies repo
    ensures repo.log == old(repo.log) + Pruning(entity, model)
  {
    var batchIds: seq<int> := [];
    var socialNetworkIds: seq<int> := [];
    if model.batches.Some? {
      batchIds := CollectIds(model.batches.value, (b: BatchDto) => b.id);
    }
    var batches := UnlistedBatches(entity.batches, batchIds);
    if |batches| > 0 {
      repo.DeleteRange(BatchEntities(batches));
    }
    if model.socialNetworks.Some? {
      socialNetworkIds := CollectIds(model.socialNetworks.value, (n: SocialNetworkDto) => n.id);
    }
    var socialNetworks := UnlistedSocialNetworks(entity.socialNetworks, batchIds);
    if |socialNetworks| > 0 {
      repo.DeleteRange(SocialNetworkEntities(socialNetworks));
    }
  }

  /** `Put(id, model)`. */
  method Put(repo: Repository, id: int, model: EventDto, mapper: Mapper<EventDto, Event>) returns (r: ActionResult<EventDto>)
    modifies repo
    ensures var o := PutOutcome(repo.EventById(id), repo.Saved(), model, mapper);
      r == o.result && repo.log == old(repo.log) + o.issued
  {
    var found := repo.GetEventByIdAsync(id);
    if found.Throws? {
      return ServerError(DatabaseFailed + found.error.message);
    }
    if found.value.None? {
      return NotFound;
    }
    var entity := found.value.value;
    PruneChildren(repo, entity, model);
    var updated := mapper.onto(model, entity);
    repo.Update(EventEntity(updated));
    var saved := repo.SaveChangesAsync();
    r := UpdateAnswer(saved, Location(model.id), mapper.toDto(updated), DatabaseFailed);
  }

  /** `SimpleUpdate(id, model)`. */
  method SimpleUpdate(repo: Repository, id: int, model: EventDto, mapper: Mapper<EventDto, Event>) returns (r: ActionResult<EventDto>)
    modifies repo
    ensures var o := SimpleUpdateOutcome(repo.EventById(id), repo.Saved(), model, mapper);
      r == o.result && repo.log == old(repo.log) + o.issued
  {
    var found := repo.GetEventByIdAsync(id);
    if found.Throws? {
      return ServerError(DatabaseFailed + found.error.message);
    }
    if found.value.None? {
      return NotFound;
    }
    var updated := mapper.onto(model, found.value.value);
    repo.Update(EventEntity(updated));
    var saved := repo.SaveChangesAsync();
    r := UpdateAnswer(saved, Location(model.id), mapper.toDto(updated), DatabaseFailed);
  }

  /** `Delete(id)`. */
  method Delete(repo: Repository, id: int) returns (r: ActionResult<EventDto>)
    modifies repo
    ensures var o := DeleteOutcome(repo.EventById(id), repo.Saved());
      r == o.result && repo.log == old(repo.log) + o.issued
  {
    var found := repo.GetEventByIdAsync(id);
    if found.Throws? {
      return ServerError(DatabaseConnectionFailed);
    }
    if found.value.None? {
      return NotFound;
    }
    repo.Delete(EventEntity(found.value.value));
    var saved := repo.SaveChangesAsync();
    r := DeleteAnswer(saved, DatabaseConnectionFailed);
  }

  // ---------------------------------------------------------------- properties

  /** An event that is not stored, or a lookup that throws, changes nothing. */
  lemma NothingIssuedUnlessFound(found: Result<Option<Event>>, saved: Result<bool>, model: EventDto,
                                 mapper: Mapper<EventDto, Event>)
    requires !(found.Ok? && found.value.Some?)
    ensures PutOutcome(found, saved, model, mapper).issued == []
    ensures SimpleUpdateOutcome(found, saved, model, mapper).issued == []
    ensures DeleteOutcome(found, saved).issued == []
    ensures found == Ok(None) <==> PutOutcome(found, saved, model, mapper).result == NotFound
    ensures found.Throws? ==> PutOutcome(found, saved, model, mapper).result.StatusCode() == 500
  {
  }

  /** The batches deleted are exactly the stored batches whose id no batch of the request
      carries, in stored order; a null list deletes them all. */
  lemma StaleBatchesExactly(entity: Event, model: EventDto)
    ensures forall b :: b in StaleBatches(entity, model) <==>
      b in entity.batches && (model.batches.None? || forall i :: 0 <= i < |model.batches.value| ==> model.batches.value[i].id != b.id)
    ensures model.batches.None? ==> StaleBatches(entity, model) == entity.batches
  {
    var p := (b: Batch) => b.id !in BatchIds(model);
    assert StaleBatches(entity, model) == Filter(entity.batches, p);
    FilterMembers(entity.batches, p);
    if model.batches.Some? {
      forall b: Batch {
        IdsOfMembers(model.batches.value, (d: BatchDto) => d.id, b.id);
      }
    } else {
      FilterAll(entity.batches, p);
    }
  }

  /** The social networks deleted are the stored ones whose id no *batch* of the request
      carries, whatever the request's social network list says. */
  lemma StaleSocialNetworksFollowBatches(entity: Event, model: EventDto, other: Option<seq<SocialNetworkDto>>)
    ensures forall n :: n in StaleSocialNetworks(entity, model) <==>
      n in entity.socialNetworks && n.id !in BatchIds(model)
    ensures StaleSocialNetworks(entity, model) == StaleSocialNetworks(entity, model.(socialNetworks := other))
  {
    FilterMembers(entity.socialNetworks, (n: SocialNetwork) => n.id !in BatchIds(model));
  }

  /** As written, a social network the request keeps is still deleted when no batch shares
      its id. */
  lemma KeptSocialNetworkDeleted(mapper: Mapper<EventDto, Event>)
    ensures var entity := Event(1, [], [SocialNetwork(5)]);
      var model := EventDto(1, Some([]), Some([SocialNetworkDto(5)]));
      5 in SocialNetworkIds(model)
      && PutOutcome(Ok(Some(entity)), Ok(true), model, mapper).issued[0]
         == DeleteRange([SocialNetworkEntity(SocialNetwork(5))])
  {
    var entity := Event(1, [], [SocialNetwork(5)]);
    var model := EventDto(1, Some([]), Some([SocialNetworkDto(5)]));
    assert BatchIds(model) == [];
    assert StaleBatches(entity, model) == [];
    assert [SocialNetwork(5)][1..] == [];
    assert StaleSocialNetworks(entity, model) == [SocialNetwork(5)];
    assert SocialNetworkEntities([SocialNetwork(5)]) == [SocialNetworkEntity(SocialNetwork(5))];
  }

  /** `Put` on a stored event issues at most one deletion of batches, then at most one of social
      networks, each non-empty, then the update and the save; nothing is ever deleted in an empty
      `DeleteRange`. */
  lemma PutIssues(entity: Event, saved: Result<bool>, model: EventDto, mapper: Mapper<EventDto, Event>)
    ensures var issued := PutOutcome(Ok(Some(entity)), saved, model, mapper).issued;
      issued[|issued| - 2..] == [Update(EventEntity(mapper.onto(model, entity))), SaveChanges]
      && (forall c :: c in issued && c.DeleteRange? ==> |c.entities| > 0)
      && (DeleteRange(BatchEntities(entity.batches)) in issued ==> |entity.batches| > 0)
      && (|StaleBatches(entity, model)| > 0 <==> issued[0] == DeleteRange(BatchEntities(StaleBatches(entity, model))))
  {
    var batches := DeleteIfAny(BatchEntities(StaleBatches(entity, model)));
    var networks := DeleteIfAny(SocialNetworkEntities(StaleSocialNetworks(entity, model)));
    var tail := [Update(EventEntity(mapper.onto(model, entity))), SaveChanges];
    var issued := PutOutcome(Ok(Some(entity)), saved, model, mapper).issued;
    assert issued == batches + networks + tail;
    forall c | c in issued && c.DeleteRange?
      ensures |c.entities| > 0
    {
      assert c in batches || c in networks;
    }
    if |StaleBatches(entity, model)| == 0 {
      assert batches == [];
      if networks != [] {
        assert networks[0].entities == SocialNetworkEntities(StaleSocialNetworks(entity, model));
        assert networks[0].entities[0].SocialNetworkEntity?;
      }
    }
  }

  /** How `Put` and `SimpleUpdate` answer a stored event: Created at `/api/event/{id}` with the
      updated event mapped back when the save wrote rows, BadRequest when it wrote none, status 500
      with "Database failed " and the exception's message when it threw. */
  lemma UpdateAnswers(entity: Event, saved: Result<bool>, model: EventDto, mapper: Mapper<EventDto, Event>)
    ensures var r := PutOutcome(Ok(Some(entity)), saved, model, mapper).result;
      (r.StatusCode() == 201 <==> saved == Ok(true))
      && (r.Created? ==> r == Created("/api/event/" + IntToString(model.id), mapper.toDto(mapper.onto(model, entity))))
      && (r.StatusCode() == 400 <==> saved == Ok(false))
      && (r.StatusCode() == 500 <==> saved.Throws?)
      && (saved.Throws? ==> r == ServerError("Database failed " + saved.error.message))
  {
  }

  /** `SimpleUpdate` is `Put` without the pruning: the same answer, and the same changes with the
      deletions left out. */
  lemma SimpleUpdateIsPutWithoutPruning(found: Result<Option<Event>>, saved: Result<bool>, model: EventDto,
                                        mapper: Mapper<EventDto, Event>)
    ensures SimpleUpdateOutcome(found, saved, model, mapper).result == PutOutcome(found, saved, model, mapper).result
    ensures found.Ok? && found.value.Some? ==>
      PutOutcome(found, saved, model, mapper).issued
      == Pruning(found.value.value, model) + SimpleUpdateOutcome(found, saved, model, mapper).issued
    ensures forall c :: c in SimpleUpdateOutcome(found, saved, model, mapper).issued ==> !c.DeleteRange?
  {
  }

  /** `Delete` removes the stored event and saves: Ok when rows were written, BadRequest when none
      were, status 500 with a fixed message, and no exception text, when the database fails. */
  lemma DeleteAnswers(found: Result<Option<Event>>, saved: Result<bool>)
    ensures var o := DeleteOutcome(found, saved);
      (o.result == NotFound <==> found == Ok(None))
      && (o.result == OkResult <==> found.Ok? && found.value.Some? && saved == Ok(true))
      && (o.result.StatusCode() == 500 ==> o.result == ServerError("Database connection failed"))
      && (found.Ok? && found.value.Some? ==> o.issued == [Command.Delete(EventEntity(found.value.value)), SaveChanges])
  {
  }
}

=== FILE: evento_controller.dfy ===
/**
  EventoController: the Portuguese-named twin of the event endpoints. `Put` replaces an evento
  and prunes the lotes and redes sociais the request no longer lists; `Delete` removes it.

  Unlike `EventController.Put`, this `Put` does not guard against null lists, and the catch turns
  what they throw into status 500 before any change is issued: a request without `Lotes` or
  `RedesSociais` throws a null reference from `ForEach`, and a stored evento without them makes
  `Where` throw ArgumentNullException for its `source`.
*/
module EventoController {
  import opened Wrappers
  import opened Clr
  import opened Text
  import opened Linq
  import opened ProAgilDomain
  import opened ProAgilRepository
  import opened WebApi

  const DatabaseFailed: string := "Banco Dados Falhou "
  const ConnectionFailed: string := "Falha na conexão com o banco de dados"

  function Location(id: int): string {
    "/api/evento/" + IntToString(id)
  }

  /** A list of the request that `Put` walks with `ForEach` is null. */
  predicate RequestHasNullList(model: EventoDto) {
    model.lotes.None? || model.redesSociais.None?
  }

  /** A list of the stored evento that `Put` filters with `Where` is null. */
  predicate StoredHasNullList(evento: Evento) {
    evento.lotes.None? || evento.redesSociais.None?
  }

  /** Any of the four lists `Put` uses is null. */
  predicate HasNullList(model: EventoDto, evento: Evento) {
    RequestHasNullList(model) || StoredHasNullList(evento)
  }

  /** The lote ids `Put` collects from the request. */
  function LoteIds(model: EventoDto): seq<int>
    requires model.lotes.Some?
  {
    IdsOf(model.lotes.value, (l: LoteDto) => l.id)
  }

  /** `Where(lote => !ids.Contains(lote.Id))`. */
  function UnlistedLotes(lotes: seq<Lote>, ids: seq<int>): seq<Lote> {
    Filter(lotes, (l: Lote) => l.id !in ids)
  }

  /** `Where(rede => !ids.Contains(rede.Id))`. */
  function UnlistedRedesSociais(redes: seq<RedeSocial>, ids: seq<int>): seq<RedeSocial> {
    Filter(redes, (n: RedeSocial) => n.id !in ids)
  }

  function LoteEntities(lotes: seq<Lote>): seq<Entity> {
    seq(|lotes|, i requires 0 <= i < |lotes| => LoteEntity(lotes[i]))
  }

  function RedeSocialEntities(redes: seq<RedeSocial>): seq<Entity> {
    seq(|redes|, i requires 0 <= i < |redes| => RedeSocialEntity(redes[i]))
  }

  /** The stored lotes whose id the request does not list. */
  function StaleLotes(evento: Evento, model: EventoDto): seq<Lote>
    requires !HasNullList(model, evento)
  {
    UnlistedLotes(evento.lotes.value, LoteIds(model))
  }

  /** The stored redes sociais whose id is not among the request's *lote* ids. */
  function StaleRedesSociais(evento: Evento, model: EventoDto): seq<RedeSocial>
    requires !HasNullList(model, evento)
  {
    UnlistedRedesSociais(evento.redesSociais.value, LoteIds(model))
  }

  /** The deletions `Put` issues before it updates the evento. */
  function Pruning(evento: Evento, model: EventoDto): seq<Command>
    requires !HasNullList(model, evento)
  {
    DeleteIfAny(LoteEntities(StaleLotes(evento, model)))
      + DeleteIfAny(RedeSocialEntities(StaleRedesSociais(evento, model)))
  }

  /** The specification of `Put`. */
  function PutOutcome(found: Result<Option<Evento>>, saved: Result<bool>, model: EventoDto,
                      mapper: Mapper<EventoDto, Evento>): Outcome<EventoDto> {
    match found
    case Throws(e) => Outcome(ServerError(DatabaseFailed + e.message), [])
    case Ok(None) => Outcome(NotFound, [])
    case Ok(Some(evento)) =>
      if RequestHasNullList(model) then
        Outcome(ServerError(DatabaseFailed + NullReferenceException().message), [])
      else if StoredHasNullList(evento) then
        Outcome(ServerError(DatabaseFailed + ArgumentNullException("source").message), [])
      else
        var updated := mapper.onto(model, evento);
        Outcome(UpdateAnswer(saved, Location(model.id), mapper.toDto(updated), DatabaseFailed),
                Pruning(evento, model) + [Update(EventoEntity(updated)), SaveChanges])
  }

  /** The specification of `Delete`. */
  function DeleteOutcome(found: Result<Option<Evento>>, saved: Result<bool>): Outcome<EventoDto> {
    match found
    case Throws(_) => Outcome(ServerError(ConnectionFailed), [])
    case Ok(None) => Outcome(NotFound, [])
    case Ok(Some(evento)) =>
      Outcome(DeleteAnswer(saved, ConnectionFailed), [Command.Delete(EventoEntity(evento)), SaveChanges])
  }

  /** The first half of `Put` once the lists are known to be there: delete the stored lotes and
      redes sociais the collected lote ids do not list. */
  method PruneChildren(repo: Repository, evento: Evento, model: EventoDto, idLotes: seq<int>)
    requires !HasNullList(model, evento) && idLotes == LoteIds(model)
    modifies repo
    ensures repo.log == old(repo.log) + Pruning(evento, model)
  {
    var lotes := UnlistedLotes(evento.lotes.value, idLotes);
    var redesSociais := UnlistedRedesSociais(evento.redesSociais.value, idLotes);
    if |lotes| > 0 {
      repo.DeleteRange(LoteEntities(lotes));
    }
    if |redesSociais| > 0 {
      repo.DeleteRange(RedeSocialEntities(redesSociais));
    }
  }

  /** `Put(id, model)`. */
  method Put(repo: Repository, id: int, model: EventoDto, mapper: Mapper<EventoDto, Evento>) returns (r: ActionResult<EventoDto>)
    modifies repo
    ensures var o := PutOutcome(repo.EventoById(id), repo.Saved(), model, mapper);
      r == o.result && repo.log == old(repo.log) + o.issued
  {
    var found := repo.GetEventoByIdAsync(id);
    if found.Throws? {
      return ServerError(DatabaseFailed + found.error.message);
    }
    if found.value.None? {
      return NotFound;
    }
    r := PutFound(repo, found.value.value, model, mapper);
  }

  /** The rest of `Put` once the stored evento is found: collect the request's ids, prune,
      update and save. */
  method PutFound(repo: Repository, evento: Evento, model: EventoDto, mapper: Mapper<EventoDto, Evento>)
    returns (r: ActionResult<EventoDto>)
    modifies repo
    ensures var o := PutOutcome(Ok(Some(evento)), repo.Saved(), model, mapper);
      r == o.result && repo.log == old(repo.log) + o.issued
  {
    if model.lotes.None? {
      return ServerError(DatabaseFailed + NullReferenceException().message);
    }
    var idLotes := CollectIds(model.lotes.value, (l: LoteDto) => l.id);
    if model.redesSociais.None? {
      return ServerError(DatabaseFailed + NullReferenceException().message);
    }
    var idRedesSociais := CollectIds(model.redesSociais.value, (n: RedeSocialDto) => n.id);
    if evento.lotes.None? || evento.redesSociais.None? {
      return ServerError(DatabaseFailed + ArgumentNullException("source").message);
    }
    PruneChildren(repo, evento, model, idLotes);
    var updated := mapper.onto(model, evento);
    repo.Update(EventoEntity(updated));
    var saved := repo.SaveChangesAsync();
    r := UpdateAnswer(saved, Location(model.id), mapper.toDto(updated), DatabaseFailed);
  }

  /** `Delete(id)`. */
  method Delete(repo: Repository, id: int) returns (r: ActionResult<EventoDto>)
    modifies repo
    ensures var o := DeleteOutcome(repo.EventoById(id), repo.Saved());
      r == o.result && repo.log == old(repo.log) + o.issued
  {
    var found := repo.GetEventoByIdAsync(id);
    if found.Throws? {
      return ServerError(ConnectionFailed);
    }
    if found.value.None? {
      return NotFound;
    }
    repo.Delete(EventoEntity(found.value.value));
    var saved := repo.SaveChangesAsync();
    r := DeleteAnswer(saved, ConnectionFailed);
  }

  // ---------------------------------------------------------------- properties

  /** An evento that is not stored, or a lookup that throws, changes nothing. */
  lemma NothingIssuedUnlessFound(found: Result<Option<Evento>>, saved: Result<bool>, model: EventoDto,
                                 mapper: Mapper<EventoDto, Evento>)
    requires !(found.Ok? && found.value.Some?)
    ensures PutOutcome(found, saved, model, mapper).issued == []
    ensures DeleteOutcome(found, saved).issued == []
    ensures found == Ok(None) <==> PutOutcome(found, saved, model, mapper).result == NotFound
    ensures found.Throws? ==> PutOutcome(found, saved, model, mapper).result.StatusCode() == 500
  {
  }

  /** A null list in the request: status 500 with the null reference's message; otherwise a null
      list in the stored evento: status 500 with the null `source` message. Either way no change
      is issued; with all four lists present the update and save are issued. */
  lemma NullListFails(evento: Evento, saved: Result<bool>, model: EventoDto, mapper: Mapper<EventoDto, Evento>)
    ensures var o := PutOutcome(Ok(Some(evento)), saved, model, mapper);
      RequestHasNullList(model) ==>
        o.result == ServerError("Banco Dados Falhou " + "Object reference not set to an instance of an object.")
        && o.issued == []
    ensures var o := PutOutcome(Ok(Some(evento)), saved, model, mapper);
      !RequestHasNullList(model) && StoredHasNullList(evento) ==>
        o.result == ServerError("Banco Dados Falhou " + "Value cannot be null. (Parameter 'source')")
        && o.issued == []
    ensures var o := PutOutcome(Ok(Some(evento)), saved, model, mapper);
      !HasNullList(model, evento) ==>
        o.issued[|o.issued| - 2..] == [Update(EventoEntity(mapper.onto(model, evento))), SaveChanges]
  {
  }

  /** The lotes deleted are exactly the stored lotes whose id no lote of the request carries. */
  lemma StaleLotesExactly(evento: Evento, model: EventoDto)
    requires !HasNullList(model, evento)
    ensures forall l :: l in StaleLotes(evento, model) <==>
      l in evento.lotes.value && forall i :: 0 <= i < |model.lotes.value| ==> model.lotes.value[i].id != l.id
  {
    var p := (l: Lote) => l.id !in LoteIds(model);
    assert StaleLotes(evento, model) == Filter(evento.lotes.value, p);
    FilterMembers(evento.lotes.value, p);
    forall l: Lote {
      IdsOfMembers(model.lotes.value, (d: LoteDto) => d.id, l.id);
    }
  }

  /** The redes sociais deleted are the stored ones whose id no *lote* of the request carries,
      whatever the request's redes sociais list. */
  lemma StaleRedesSociaisFollowLotes(evento: Evento, model: EventoDto, other: seq<RedeSocialDto>)
    requires !HasNullList(model, evento)
    ensures forall n :: n in StaleRedesSociais(evento, model) <==>
      n in evento.redesSociais.value && n.id !in LoteIds(model)
    ensures StaleRedesSociais(evento, model) == StaleRedesSociais(evento, model.(redesSociais := Some(other)))
  {
    FilterMembers(evento.redesSociais.value, (n: RedeSocial) => n.id !in LoteIds(model));
  }

  /** `Put` never issues an empty `DeleteRange`. */
  lemma PutDeletesOnlyWhenAny(found: Result<Option<Evento>>, saved: Result<bool>, model: EventoDto,
                              mapper: Mapper<EventoDto, Evento>)
    ensures forall c :: c in PutOutcome(found, saved, model, mapper).issued && c.DeleteRange? ==> |c.entities| > 0
  {
    if found.Ok? && found.value.Some? && !HasNullList(model, found.value.value) {
      var evento := found.value.value;
      var lotes := DeleteIfAny(LoteEntities(StaleLotes(evento, model)));
      var redes := DeleteIfAny(RedeSocialEntities(StaleRedesSociais(evento, model)));
      var tail := [Update(EventoEntity(mapper.onto(model, evento))), SaveChanges];
      assert PutOutcome(found, saved, model, mapper).issued == lotes + redes + tail;
      forall c: Command | c in lotes + redes + tail && c.DeleteRange?
        ensures |c.entities| > 0
      {
        assert c in lotes || c in redes;
      }
    }
  }

  /** How `Put` answers a stored evento whose lists are all present: Created at
      `/api/evento/{id}` when the save wrote rows, BadRequest when it wrote none, status 500 with
      the exception's message when it threw. */
  lemma UpdateAnswers(evento: Evento, saved: Result<bool>, model: EventoDto, mapper: Mapper<EventoDto, Evento>)
    requires !HasNullList(model, evento)
    ensures var r := PutOutcome(Ok(Some(evento)), saved, model, mapper).result;
      (r.StatusCode() == 201 <==> saved == Ok(true))
      && (r.Created? ==> r == Created("/api/evento/" + IntToString(model.id), mapper.toDto(mapper.onto(model, evento))))
      && (r.StatusCode() == 400 <==> saved == Ok(false))
      && (saved.Throws? ==> r == ServerError("Banco Dados Falhou " + saved.error.message))
  {
  }

  /** `Delete` removes the stored evento and saves: Ok when rows were written, BadRequest when
      none were, status 500 with a fixed message when the database fails. */
  lemma DeleteAnswers(found: Result<Option<Evento>>, saved: Result<bool>)
    ensures var o := DeleteOutcome(found, saved);
      (o.result == NotFound <==> found == Ok(None))
      && (o.result == OkResult <==> found.Ok? && found.value.Some? && saved == Ok(true))
      && (o.result.StatusCode() == 500 ==> o.result == ServerError("Falha na conexão com o banco de dados"))
      && (found.Ok? && found.value.Some? ==> o.issued == [Command.Delete(EventoEntity(found.value.value)), SaveChanges])
  {
  }
}

=== FILE: gemini_api_service.dfy ===
/**
  GeminiApiService: the retry gateway every LLM request of the agent goes through.

  The LLM is a stream of outcomes: `llm(i)` is what the i-th chat-completion request issued by
  the process returns (a reply or a thrown exception). A component that talks to the LLM is
  handed the number `k` of requests already issued and reports how many it issued itself, so
  that consecutive components read consecutive outcomes. `Task.Delay` is recorded as the
  sequence of waits, in seconds, instead of being slept.
*/
module GeminiApiService {
  import opened Wrappers
  import opened Text
  import opened Clr

  /** One chat-completion request: a reply (whose `Content` may be null) or an exception. */
  datatype LlmOutcome = Reply(content: Option<string>) | Failure(error: Exception)

  type Llm = nat -> LlmOutcome

  /** The exception filter of the retrying catch clause: an HttpRequestException whose message
      mentions 503 or "Service Unavailable". */
  predicate IsTransient(e: Exception) {
    e.kind == HttpRequest && (Contains(e.message, "503") || Contains(e.message, "Service Unavailable"))
  }

  predicate TransientAt(llm: Llm, i: nat) {
    llm(i).Failure? && IsTransient(llm(i).error)
  }

  /** What one `ExecuteWithRetry` call did: its outcome, the requests it issued, the waits. */
  datatype RetryRun = RetryRun(outcome: Result<Option<string>>, calls: nat, waits: seq<int>)

  /** The exception thrown once every attempt has failed transiently. */
  function Exhausted(maxRetries: int, last: Option<Exception>): (e: Exception)
    ensures e.kind == General && e.inner == last
  {
    Exception(General,
      "Failed after " + IntToString(maxRetries) + " attempts. Last error: "
        + (if last.Some? then last.value.message else ""),
      last)
  }

  /** The defaults of the two optional parameters. */
  const DefaultMaxRetries: int := 3
  const DefaultDelaySeconds: int := 2

  /** The attempts from `attempt` on, with `last` the most recent transient error so far. */
  function RetryFrom(llm: Llm, k: nat, attempt: int, maxRetries: int, delaySeconds: int,
                     last: Option<Exception>): RetryRun
    requires attempt >= 1
    decreases if attempt <= maxRetries then maxRetries - attempt + 1 else 0
  {
    if attempt > maxRetries then RetryRun(Throws(Exhausted(maxRetries, last)), 0, [])
    else
      match llm(k)
      case Reply(content) => RetryRun(Ok(content), 1, [])
      case Failure(e) =>
        if IsTransient(e) then
          var wait := if attempt < maxRetries then [delaySeconds * attempt] else [];
          var rest := RetryFrom(llm, k + 1, attempt + 1, maxRetries, delaySeconds, Some(e));
          RetryRun(rest.outcome, rest.calls + 1, wait + rest.waits)
        else
          RetryRun(Throws(e), 1, [])
  }

  /** The whole retry policy, starting from request number `k`. */
  function Retry(llm: Llm, k: nat, maxRetries: int, delaySeconds: int): RetryRun {
    RetryFrom(llm, k, 1, maxRetries, delaySeconds, None)
  }

  /** `ExecuteWithRetry`: the attempt loop. */
  method ExecuteWithRetry(llm: Llm, k: nat, maxRetries: int, delaySeconds: int)
    returns (outcome: Result<Option<string>>, calls: nat, waits: seq<int>)
    ensures RetryRun(outcome, calls, waits) == Retry(llm, k, maxRetries, delaySeconds)
  {
    var lastException: Option<Exception> := None;
    calls := 0;
    waits := [];
    var attempt := 1;
    while attempt <= maxRetries
      invariant attempt >= 1 && calls == attempt - 1
      invariant RetryResumes(llm, k, maxRetries, delaySeconds, attempt, calls, lastException, waits)
      decreases maxRetries - attempt
    {
      match llm(k + calls)
      case Reply(content) =>
        outcome := Ok(content);
        calls := calls + 1;
        return;
      case Failure(e) =>
        if IsTransient(e) {
          ResumeAfterTransient(llm, k, maxRetries, delaySeconds, attempt, calls, lastException, waits);
          lastException := Some(e);
          if attempt < maxRetries {
            waits := waits + [delaySeconds * attempt];
          }
          calls := calls + 1;
        } else {
          outcome := Throws(e);
          calls := calls + 1;
          return;
        }
      attempt := attempt + 1;
    }
    outcome := Throws(Exhausted(maxRetries, lastException));
  }

  /** The loop's invariant: after `calls` requests and the `waits` so far, what remains of the
      policy from `attempt` on completes the whole run. */
  predicate RetryResumes(llm: Llm, k: nat, maxRetries: int, delaySeconds: int, attempt: int, calls: nat,
                         last: Option<Exception>, waits: seq<int>)
  {
    attempt >= 1 &&
    var rest := RetryFrom(llm, k + calls, attempt, maxRetries, delaySeconds, last);
    Retry(llm, k, maxRetries, delaySeconds) == RetryRun(rest.outcome, calls + rest.calls, waits + rest.waits)
  }

  /** One transient failure: a request is spent and, unless it was the last attempt, a wait. */
  lemma ResumeAfterTransient(llm: Llm, k: nat, maxRetries: int, delaySeconds: int, attempt: int, calls: nat,
                             last: Option<Exception>, waits: seq<int>)
    requires RetryResumes(llm, k, maxRetries, delaySeconds, attempt, calls, last, waits)
    requires attempt <= maxRetries && TransientAt(llm, k + calls)
    ensures RetryResumes(llm, k, maxRetries, delaySeconds, attempt + 1, calls + 1, Some(llm(k + calls).error),
      waits + if attempt < maxRetries then [delaySeconds * attempt] else [])
  {
    var wait := if attempt < maxRetries then [delaySeconds * attempt] else [];
    var rest := RetryFrom(llm, k + calls + 1, attempt + 1, maxRetries, delaySeconds, Some(llm(k + calls).error));
    assert RetryFrom(llm, k + calls, attempt, maxRetries, delaySeconds, last)
      == RetryRun(rest.outcome, rest.calls + 1, wait + rest.waits);
    assert waits + (wait + rest.waits) == (waits + wait) + rest.waits;
  }

  function Max0(n: int): nat {
    if n < 0 then 0 else n
  }

  /** The shape of a run `r` from `attempt` on: bounded requests, retries only after transient
      failures, the first reply returned at once, other errors rethrown at once, a linearly
      growing wait after each transient failure but the last attempt's. */
  predicate RunShape(llm: Llm, k: nat, attempt: int, maxRetries: int, delaySeconds: int,
                     last: Option<Exception>, r: RetryRun)
  {
    && r.calls <= Max0(maxRetries - attempt + 1)
    && (forall i :: k <= i < k + r.calls - 1 ==> TransientAt(llm, i))
    && |r.waits| == Max0(r.calls - 1)
    && (forall i :: 0 <= i < |r.waits| ==> r.waits[i] == delaySeconds * (attempt + i))
    && (r.outcome.Ok? ==> r.calls >= 1 && llm(k + r.calls - 1) == Reply(r.outcome.value))
    && (r.outcome.Throws? ==>
          (r.calls >= 1 && llm(k + r.calls - 1) == Failure(r.outcome.error) && !IsTransient(r.outcome.error))
          || (r.calls == Max0(maxRetries - attempt + 1)
              && (r.calls >= 1 ==> TransientAt(llm, k + r.calls - 1))
              && r.outcome.error == Exhausted(maxRetries,
                   if r.calls == 0 then last else Some(llm(k + r.calls - 1).error))))
  }

  /** A transient failure followed by a run of the right shape gives a run of the right shape. */
  lemma TransientStep(llm: Llm, k: nat, attempt: int, maxRetries: int, delaySeconds: int,
                      last: Option<Exception>, rest: RetryRun)
    requires 1 <= attempt <= maxRetries && TransientAt(llm, k)
    requires RunShape(llm, k + 1, attempt + 1, maxRetries, delaySeconds, Some(llm(k).error), rest)
    ensures RunShape(llm, k, attempt, maxRetries, delaySeconds, last,
      RetryRun(rest.outcome, rest.calls + 1,
        (if attempt < maxRetries then [delaySeconds * attempt] else []) + rest.waits))
  {
    var wait := if attempt < maxRetries then [delaySeconds * attempt] else [];
    var waits := wait + rest.waits;
    if attempt == maxRetries {
      assert rest.calls == 0;
    }
    forall i | 0 <= i < |waits| ensures waits[i] == delaySeconds * (attempt + i) {
      if i > 0 {
        assert waits[i] == rest.waits[i - 1];
      }
    }
  }

  lemma {:induction false} RetryFromShape(llm: Llm, k: nat, attempt: int, maxRetries: int,
                                          delaySeconds: int, last: Option<Exception>)
    requires attempt >= 1
    ensures RunShape(llm, k, attempt, maxRetries, delaySeconds, last,
      RetryFrom(llm, k, attempt, maxRetries, delaySeconds, last))
    decreases if attempt <= maxRetries then maxRetries - attempt + 1 else 0
  {
    if attempt <= maxRetries && TransientAt(llm, k) {
      RetryFromShape(llm, k + 1, attempt + 1, maxRetries, delaySeconds, Some(llm(k).error));
      var rest := RetryFrom(llm, k + 1, attempt + 1, maxRetries, delaySeconds, Some(llm(k).error));
      TransientStep(llm, k, attempt, maxRetries, delaySeconds, last, rest);
    }
  }

  /** At most `maxRetries` requests, and none at all when `maxRetries <= 0`; a reply is the
      answer of the last request made, every earlier request having failed transiently. */
  lemma RetryCalls(llm: Llm, k: nat, maxRetries: int, delaySeconds: int)
    ensures var r := Retry(llm, k, maxRetries, delaySeconds);
      && r.calls <= Max0(maxRetries)
      && (forall i :: k <= i < k + r.calls - 1 ==> TransientAt(llm, i))
      && (r.outcome.Ok? ==> r.calls >= 1 && llm(k + r.calls - 1) == Reply(r.outcome.value))
  {
    RetryFromShape(llm, k, 1, maxRetries, delaySeconds, None);
  }

  /** A reply on the first request is returned as it is, after a single request. */
  lemma RetryFirstReply(llm: Llm, k: nat, maxRetries: int, delaySeconds: int)
    requires maxRetries >= 1 && llm(k).Reply?
    ensures Retry(llm, k, maxRetries, delaySeconds) == RetryRun(Ok(llm(k).content), 1, [])
  {
  }

  /** A non-transient exception is rethrown unchanged right after the attempt that raised it. */
  lemma RetryRethrows(llm: Llm, k: nat, maxRetries: int, delaySeconds: int)
    ensures var r := Retry(llm, k, maxRetries, delaySeconds);
      r.outcome.Throws? && r.outcome.error.kind != General ==>
        r.calls >= 1 && llm(k + r.calls - 1) == Failure(r.outcome.error)
        && !IsTransient(r.outcome.error)
  {
    RetryFromShape(llm, k, 1, maxRetries, delaySeconds, None);
  }

  /** After a transient failure on attempt a (counting from 1) the wait is `delaySeconds * a`;
      no wait follows the last request of a run. */
  lemma RetryWaits(llm: Llm, k: nat, maxRetries: int, delaySeconds: int)
    ensures var r := Retry(llm, k, maxRetries, delaySeconds);
      && |r.waits| == Max0(r.calls - 1)
      && forall i :: 0 <= i < |r.waits| ==> r.waits[i] == delaySeconds * (i + 1)
  {
    RetryFromShape(llm, k, 1, maxRetries, delaySeconds, None);
  }

  /** When every attempt fails transiently, all `maxRetries` requests are made and the final
      exception carries the last of those failures as its inner exception. */
  lemma RetryExhausted(llm: Llm, k: nat, maxRetries: int, delaySeconds: int)
    requires maxRetries >= 1
    requires forall i :: k <= i < k + maxRetries ==> TransientAt(llm, i)
    ensures var r := Retry(llm, k, maxRetries, delaySeconds);
      && r.calls == maxRetries
      && r.outcome.Throws? && r.outcome.error.kind == General
      && r.outcome.error.inner.Some? && llm(k + maxRetries - 1) == Failure(r.outcome.error.inner.value)
  {
    RetryFromShape(llm, k, 1, maxRetries, delaySeconds, None);
    var r := Retry(llm, k, maxRetries, delaySeconds);
    assert r.calls >= 1 ==> TransientAt(llm, k + r.calls - 1);
  }

  /** With the default parameters and a service that keeps answering 503: three requests, waits
      of 2 then 4 seconds, then the final exception. */
  lemma RetryDefaultsAllTransient(llm: Llm, k: nat)
    requires forall i :: k <= i < k + 3 ==> TransientAt(llm, i)
    ensures var r := Retry(llm, k, DefaultMaxRetries, DefaultDelaySeconds);
      && r.calls == 3
      && r.waits == [2, 4]
      && r.outcome.Throws? && r.outcome.error.kind == General
      && r.outcome.error.inner.Some? && llm(k + 2) == Failure(r.outcome.error.inner.value)
  {
    RetryExhausted(llm, k, 3, 2);
    RetryWaits(llm, k, 3, 2);
  }

  /** With `maxRetries <= 0` the LLM is never called and the exception has no inner exception. */
  lemma RetryNoAttempts(llm: Llm, k: nat, maxRetries: int, delaySeconds: int)
    requires maxRetries <= 0
    ensures var r := Retry(llm, k, maxRetries, delaySeconds);
      && r.calls == 0 && r.waits == []
      && r.outcome.Throws? && r.outcome.error.kind == General && r.outcome.error.inner == None
  {
  }
}

=== FILE: json.dfy ===
/**
  The JSON document tree that System.Text.Json's `JsonElement` exposes. Objects keep their members
  in document order, duplicates included; numbers are integral literals or "other" numbers
  (fraction or exponent), whose value the model does not carry.
*/
module Json {
  import opened Wrappers

  datatype Json =
    | JNull
    | JBool(b: bool)
    | JNumber(n: int)
    | JFloat
    | JString(s: string)
    | JArray(items: seq<Json>)
    | JObject(members: seq<Member>)

  datatype Member = Member(name: string, value: Json)

  /** Index of the LAST member called `name`, if any: a JsonElement property lookup lets a later duplicate win. */
  function LastMemberIndex(members: seq<Member>, name: string): (r: Option<nat>)
    ensures r.Some? ==> r.value < |members| && members[r.value].name == name
    ensures r.Some? ==> forall j :: r.value < j < |members| ==> members[j].name != name
    ensures r.None? ==> forall j :: 0 <= j < |members| ==> members[j].name != name
  {
    if members == [] then None
    else if members[|members| - 1].name == name then Some(|members| - 1)
    else LastMemberIndex(members[..|members| - 1], name)
  }

  /** `TryGetProperty(name)` on an object's members: the value of the last member with that name. */
  function Property(members: seq<Member>, name: string): Option<Json> {
    match LastMemberIndex(members, name)
    case Some(i) => Some(members[i].value)
    case None => None
  }

  /** The names of the members, in document order (with repetitions). */
  function Names(members: seq<Member>): (r: seq<string>)
    ensures |r| == |members| && forall i :: 0 <= i < |members| ==> r[i] == members[i].name
  {
    seq(|members|, i requires 0 <= i < |members| => members[i].name)
  }
}

=== FILE: json_helper.dfy ===
/**
  JsonHelper: the code-fence stripper applied to every LLM reply, the JSON-tree normaliser
  (`ConvertJsonElement`), the serializer's view of an object, and the (de)serialization entry
  points with their failure behaviour. Parsing JSON text and binding a tree to a typed object are
  System.Text.Json's work and come in as parameters.
*/
module JsonHelper {
  import opened Wrappers
  import opened Text
  import opened Json
  import opened Clr

  /** System.Text.Json's text reader: the document tree, or None when the text is not JSON. */
  type Parser = string -> Option<Json>

  /** `JsonSerializer.Deserialize(json, type, options)` on a parsed tree: the typed object,
      or None when the serializer throws. The flag is `PropertyNameCaseInsensitive`. */
  type Binder = (Json, ClrType, bool) -> Option<Value>

  const Int64Min: int := -0x8000_0000_0000_0000
  const Int64Max: int := 0x7FFF_FFFF_FFFF_FFFF

  /** "```", the Markdown code fence. */
  const Fence: string := "```"
  const JsonFence: string := "```json"

  // ---------------------------------------------------------------- CleanJsonResponse

  /** Strips a Markdown code fence from an LLM reply: trim, drop a leading "```json", then a
      leading "```", then a trailing "```", and trim again. Null or "" gives "". */
  function CleanJsonResponse(json: Option<string>): (r: string)
    ensures IsTrimmed(r)
    ensures IsNullOrEmpty(json) ==> r == ""
  {
    if IsNullOrEmpty(json) then "" else Trim(StripFences(Trim(json.value)))
  }

  /** The fence removal between the two trims. */
  function StripFences(a: string): (d: string)
    ensures |d| <= |a|
  {
    var b := if StartsWith(a, JsonFence) then a[|JsonFence|..] else a;
    var c := if StartsWith(b, Fence) then b[|Fence|..] else b;
    if EndsWith(c, Fence) then c[..|c| - |Fence|] else c
  }

  /** A reply body the cleaner must leave alone: trimmed, and neither opening nor closing a fence. */
  predicate IsBareBody(body: string) {
    IsTrimmed(body) && !StartsWith(body, Fence) && !EndsWith(body, Fence)
  }

  /** Cleaning a bare body changes nothing. */
  lemma CleanBareBody(body: string)
    requires IsBareBody(body)
    ensures CleanJsonResponse(Some(body)) == body
  {
    TrimOfTrimmed(body);
    assert StripFences(body) == body by {
      assert !StartsWith(body, JsonFence) by {
        if |body| >= 7 { assert body[..7][..3] == body[..3]; }
      }
    }
  }

  /** Stripping the fences of a fenced bare body leaves the body. */
  lemma StripFencedBody(body: string)
    requires IsBareBody(body)
    ensures StripFences(JsonFence + body + Fence) == body
  {
    var s := JsonFence + body + Fence;
    assert StartsWith(s, JsonFence) by { assert s[..7] == JsonFence; }
    var b := s[7..];
    assert b == body + Fence;
    if StartsWith(b, Fence) {
      // Only possible when the body is shorter than a fence and made of back-ticks alone.
      assert |body| < 3;
      var c := b[3..];
      assert c == body by {
        forall i | 0 <= i < |body| ensures c[i] == body[i] {
          assert b[i] == '`' && b[i + 3] == '`';
        }
      }
    } else {
      assert b[..|b| - 3] == body;
    }
  }

  /** Round trip: wrapping a bare body in a "```json ... ```" fence and cleaning gives the body back. */
  lemma CleanFencedBody(body: string)
    requires IsBareBody(body)
    ensures CleanJsonResponse(Some(JsonFence + body + Fence)) == body
  {
    var s := JsonFence + body + Fence;
    assert IsTrimmed(s) by { assert s[0] == '`' && s[|s| - 1] == '`'; }
    TrimOfTrimmed(s);
    StripFencedBody(body);
    TrimOfTrimmed(body);
  }

  // ---------------------------------------------------------------- Serialize

  /** The tree `JsonSerializer.Serialize` writes for an object (default naming, nulls written). */
  function ToJson(v: Value): Json
    decreases v
  {
    match v
    case Null => JNull
    case Bool(b) => JBool(b)
    case Integer(n) => JNumber(n)
    case Floating => JFloat
    case Str(s) => JString(s)
    case DateTimeValue(iso) => JString(iso)
    case List(items) => JArray(seq(|items|, i requires 0 <= i < |items| => ToJson(items[i])))
    case Dict(entries) =>
      JObject(seq(|entries|, i requires 0 <= i < |entries| =>
        Member(entries[i].key, ToJson(entries[i].value))))
    case Obj(_, fields) =>
      JObject(seq(|fields|, i requires 0 <= i < |fields| =>
        Member(fields[i].name, ToJson(fields[i].value))))
    case ObjectResult(_, status, value) =>
      JObject([Member("Value", ToJson(value)), Member("Formatters", JArray([])),
               Member("ContentTypes", JArray([])), Member("DeclaredType", JNull),
               Member("StatusCode", if status.Some? then JNumber(status.value) else JNull)])
    case StatusCodeResult(_, code) => JObject([Member("StatusCode", JNumber(code))])
  }

  // ---------------------------------------------------------------- ConvertJsonElement

  /** `dict[key] = v` on a Dictionary: overwrite in place when the key is present, else append. */
  function Put(entries: seq<Entry>, key: string, v: Value): seq<Entry> {
    if entries == [] then [Entry(key, v)]
    else if entries[0].key == key then [Entry(key, v)] + entries[1..]
    else [entries[0]] + Put(entries[1..], key, v)
  }

  /** The foreach over the pairs, assigning each one in turn. */
  function Assign(entries: seq<Entry>, pairs: seq<Entry>): seq<Entry>
    decreases |pairs|
  {
    if pairs == [] then entries
    else Assign(Put(entries, pairs[0].key, pairs[0].value), pairs[1..])
  }

  /** `TryGetValue` on a Dictionary. */
  function Lookup(entries: seq<Entry>, key: string): Option<Value> {
    if entries == [] then None
    else if entries[0].key == key then Some(entries[0].value)
    else Lookup(entries[1..], key)
  }

  function Keys(entries: seq<Entry>): set<string> {
    set e | e in entries :: e.key
  }

  predicate DistinctKeys(entries: seq<Entry>) {
    forall i, j :: 0 <= i < j < |entries| ==> entries[i].key != entries[j].key
  }

  /** JSON tree -> plain CLR objects: objects become dictionaries, arrays lists, integral
      numbers that fit a long become longs, others stand for doubles. */
  function ConvertJsonElement(j: Json): Value
    decreases j
  {
    match j
    case JObject(members) =>
      Dict(Assign([], seq(|members|, i requires 0 <= i < |members| =>
        Entry(members[i].name, ConvertJsonElement(members[i].value)))))
    case JArray(items) =>
      List(seq(|items|, i requires 0 <= i < |items| => ConvertJsonElement(items[i])))
    case JString(s) => Str(s)
    case JNumber(n) => if Int64Min <= n <= Int64Max then Integer(n) else Floating
    case JFloat => Floating
    case JBool(b) => Bool(b)
    case JNull => Null
  }

  /** An array converts to a list of the same length, element by element in order. */
  lemma ConvertArray(items: seq<Json>)
    ensures ConvertJsonElement(JArray(items)).List?
    ensures |ConvertJsonElement(JArray(items)).items| == |items|
    ensures forall i :: 0 <= i < |items| ==>
      ConvertJsonElement(JArray(items)).items[i] == ConvertJsonElement(items[i])
  {
  }

  lemma {:induction false} PutLookup(entries: seq<Entry>, key: string, v: Value, k: string)
    ensures Lookup(Put(entries, key, v), k) == if k == key then Some(v) else Lookup(entries, k)
  {
    if entries != [] && entries[0].key != key {
      PutLookup(entries[1..], key, v, k);
    }
  }

  /** The value a sequence of assignments leaves under `k`: the last assigned one. */
  function LastAssigned(pairs: seq<Entry>, k: string): Option<Value> {
    if pairs == [] then None
    else if pairs[|pairs| - 1].key == k then Some(pairs[|pairs| - 1].value)
    else LastAssigned(pairs[..|pairs| - 1], k)
  }

  lemma {:induction false} AssignLookup(entries: seq<Entry>, pairs: seq<Entry>, k: string)
    ensures Lookup(Assign(entries, pairs), k) ==
      if LastAssigned(pairs, k).Some? then LastAssigned(pairs, k) else Lookup(entries, k)
    decreases |pairs|
  {
    if pairs != [] {
      var e' := Put(entries, pairs[0].key, pairs[0].value);
      AssignLookup(e', pairs[1..], k);
      PutLookup(entries, pairs[0].key, pairs[0].value, k);
      LastAssignedCons(pairs, k);
    }
  }

  lemma {:induction false} LastAssignedCons(pairs: seq<Entry>, k: string)
    requires pairs != []
    ensures LastAssigned(pairs, k) ==
      if LastAssigned(pairs[1..], k).Some? then LastAssigned(pairs[1..], k)
      else if pairs[0].key == k then Some(pairs[0].value) else None
    decreases |pairs|
  {
    if |pairs| > 1 && pairs[|pairs| - 1].key != k {
      LastAssignedCons(pairs[..|pairs| - 1], k);
      assert pairs[..|pairs| - 1][1..] == pairs[1..][..|pairs| - 2];
    }
  }

  /** Member lookup and conversion commute: the converted dictionary holds, under each name, the
      conversion of the LAST member with that name, and no other keys. */
  lemma ConvertObjectLookup(members: seq<Member>, k: string)
    ensures Lookup(ConvertJsonElement(JObject(members)).entries, k) ==
      match Property(members, k)
      case Some(j) => Some(ConvertJsonElement(j))
      case None => None
  {
    var pairs := seq(|members|, i requires 0 <= i < |members| =>
      Entry(members[i].name, ConvertJsonElement(members[i].value)));
    AssignLookup([], pairs, k);
    LastAssignedProperty(members, pairs, k);
  }

  lemma {:induction false} LastAssignedProperty(members: seq<Member>, pairs: seq<Entry>, k: string)
    requires |pairs| == |members|
    requires forall i :: 0 <= i < |members| ==>
      pairs[i] == Entry(members[i].name, ConvertJsonElement(members[i].value))
    ensures LastAssigned(pairs, k) ==
      match Property(members, k)
      case Some(j) => Some(ConvertJsonElement(j))
      case None => None
  {
    if members != [] && members[|members| - 1].name != k {
      LastAssignedProperty(members[..|members| - 1], pairs[..|pairs| - 1], k);
    }
  }

  /** A tree the normaliser reproduces exactly: member names distinct in every object and
      every number an integral literal that fits in a long (or a non-integral one). */
  predicate WellFormed(j: Json)
    decreases j
  {
    match j
    case JNumber(n) => Int64Min <= n <= Int64Max
    case JArray(items) => forall i :: 0 <= i < |items| ==> WellFormed(items[i])
    case JObject(members) =>
      (forall i, i' :: 0 <= i < i' < |members| ==> members[i].name != members[i'].name)
      && forall i :: 0 <= i < |members| ==> WellFormed(members[i].value)
    case _ => true
  }

  lemma {:induction false} PutFresh(entries: seq<Entry>, key: string, v: Value)
    requires key !in Keys(entries)
    ensures Put(entries, key, v) == entries + [Entry(key, v)]
  {
    if entries != [] {
      assert entries[0] in entries;
      assert Keys(entries[1..]) <= Keys(entries) by {
        forall e | e in entries[1..] ensures e in entries { }
      }
      PutFresh(entries[1..], key, v);
    }
  }

  lemma {:induction false} AssignFresh(entries: seq<Entry>, pairs: seq<Entry>)
    requires DistinctKeys(entries + pairs)
    ensures Assign(entries, pairs) == entries + pairs
    decreases |pairs|
  {
    if pairs != [] {
      var all := entries + pairs;
      assert pairs[0].key !in Keys(entries) by {
        forall e | e in entries ensures e.key != pairs[0].key {
          var i :| 0 <= i < |entries| && entries[i] == e;
          assert all[i] == e && all[|entries|] == pairs[0];
        }
      }
      PutFresh(entries, pairs[0].key, pairs[0].value);
      assert (entries + [pairs[0]]) + pairs[1..] == all;
      AssignFresh(entries + [pairs[0]], pairs[1..]);
    }
  }

  /** Round trip: serializing the normalised objects gives back the tree they came from. */
  lemma {:induction false} ConvertRoundTrip(j: Json)
    requires WellFormed(j)
    ensures ToJson(ConvertJsonElement(j)) == j
    decreases j
  {
    match j
    case JArray(items) =>
      forall i | 0 <= i < |items| ensures ToJson(ConvertJsonElement(items[i])) == items[i] {
        ConvertRoundTrip(items[i]);
      }
      ArrayRoundTrip(items);
    case JObject(members) =>
      forall i | 0 <= i < |members| ensures ToJson(ConvertJsonElement(members[i].value)) == members[i].value {
        ConvertRoundTrip(members[i].value);
      }
      ObjectRoundTrip(members);
    case _ =>
  }

  lemma ArrayRoundTrip(items: seq<Json>)
    requires forall i :: 0 <= i < |items| ==> ToJson(ConvertJsonElement(items[i])) == items[i]
    ensures ToJson(ConvertJsonElement(JArray(items))) == JArray(items)
  {
    var vs := seq(|items|, i requires 0 <= i < |items| => ConvertJsonElement(items[i]));
    assert forall i :: 0 <= i < |items| ==> ToJson(vs[i]) == items[i];
  }

  lemma ObjectRoundTrip(members: seq<Member>)
    requires forall i, i' :: 0 <= i < i' < |members| ==> members[i].name != members[i'].name
    requires forall i :: 0 <= i < |members| ==> ToJson(ConvertJsonElement(members[i].value)) == members[i].value
    ensures ToJson(ConvertJsonElement(JObject(members))) == JObject(members)
  {
    var pairs := ObjectConverted(members);
    var back := ToJson(Dict(pairs));
    assert back.members == members by {
      assert |back.members| == |members|;
      forall i | 0 <= i < |members| ensures back.members[i] == members[i] {
        assert back.members[i] == Member(pairs[i].key, ToJson(pairs[i].value));
      }
    }
  }

  /** With distinct names, an object converts to the dictionary of its members in order. */
  lemma ObjectConverted(members: seq<Member>) returns (pairs: seq<Entry>)
    requires forall i, i' :: 0 <= i < i' < |members| ==> members[i].name != members[i'].name
    ensures |pairs| == |members|
    ensures forall i :: 0 <= i < |members| ==>
      pairs[i] == Entry(members[i].name, ConvertJsonElement(members[i].value))
    ensures ConvertJsonElement(JObject(members)) == Dict(pairs)
  {
    pairs := seq(|members|, i requires 0 <= i < |members| =>
      Entry(members[i].name, ConvertJsonElement(members[i].value)));
    assert [] + pairs == pairs;
    assert DistinctKeys(pairs) by {
      forall i, j | 0 <= i < j < |pairs| ensures pairs[i].key != pairs[j].key {
        assert pairs[i].key == members[i].name && pairs[j].key == members[j].name;
      }
    }
    AssignFresh([], pairs);
  }

  // ---------------------------------------------------------------- Deserialize

  /** `DeserializeToElement`: the tree of a JSON text; malformed text throws. */
  function DeserializeToElement(parse: Parser, text: string): (r: Result<Json>)
    ensures r.Throws? <==> parse(text).None?
  {
    match parse(text)
    case Some(j) => Ok(j)
    case None => Throws(Error(JsonError, "The input is not valid JSON."))
  }

  /** `Deserialize<Dictionary<string, JsonElement>>`: the members of a JSON object. The literal
      `null` deserializes to null, which throws InvalidOperationException; any other non-object
      throws JsonException. */
  function DeserializeDictionary(parse: Parser, text: string): (r: Result<seq<Member>>)
    ensures r.Ok? <==> parse(text).Some? && parse(text).value.JObject?
    ensures r.Ok? ==> r.value == parse(text).value.members
    ensures parse(text) == Some(JNull) ==> r.Throws? && r.error.kind == InvalidOperation
  {
    match parse(text)
    case None => Throws(Error(JsonError, "The input is not valid JSON."))
    case Some(JNull) => Throws(Error(InvalidOperation, "Deserialization returned null."))
    case Some(JObject(members)) => Ok(members)
    case Some(_) => Throws(Error(JsonError, "The JSON value could not be converted to a dictionary."))
  }

  /** `DeserializeParameter`: never throws; a value the serializer rejects becomes the type's
      default, which is null exactly for reference types and Nullable<T>. */
  function DeserializeParameter(bind: Binder, element: Json, t: ClrType): (v: Value)
    ensures bind(element, t, true).Some? ==> v == bind(element, t, true).value
    ensures bind(element, t, true).None? ==> v == DefaultValue(t)
    ensures bind(element, t, true).None? ==> (v == Null <==> !IsValueType(t) || t.NullableOf?)
  {
    match bind(element, t, true)
    case Some(v) => v
    case None => DefaultValue(t)
  }

  // ---------------------------------------------------------------- JsonElement accessors

  /** `element.TryGetProperty(name, out _)`: throws unless the element is an object. */
  function TryGetProperty(element: Json, name: string): (r: Result<Option<Json>>)
    ensures r.Throws? <==> !element.JObject?
    ensures r.Ok? ==> r.value == Property(element.members, name)
  {
    if element.JObject? then Ok(Property(element.members, name))
    else Throws(Error(InvalidOperation, "The requested operation requires an element of type 'Object'."))
  }

  /** `element.GetProperty(name)`: like TryGetProperty, but a missing name throws too. */
  function GetProperty(element: Json, name: string): (r: Result<Json>)
    ensures r.Ok? <==> element.JObject? && Property(element.members, name).Some?
    ensures r.Ok? ==> r.value == Property(element.members, name).value
  {
    match TryGetProperty(element, name)
    case Throws(e) => Throws(e)
    case Ok(None) => Throws(Error(KeyNotFound, "The given key was not present in the dictionary."))
    case Ok(Some(j)) => Ok(j)
  }

  /** `GetString()`: a string, null for the JSON null, and a throw for anything else. */
  function GetString(element: Json): (r: Result<Option<string>>)
    ensures r.Ok? <==> element.JString? || element.JNull?
    ensures element.JString? ==> r == Ok(Some(element.s))
    ensures element.JNull? ==> r == Ok(None)
  {
    match element
    case JString(s) => Ok(Some(s))
    case JNull => Ok(None)
    case _ => Throws(Error(InvalidOperation, "The requested operation requires an element of type 'String'."))
  }

  /** `GetInt32()`: an integral number within the range of int; anything else throws. */
  function GetInt32(element: Json): (r: Result<int>)
    ensures r.Ok? <==> element.JNumber? && -0x8000_0000 <= element.n < 0x8000_0000
    ensures r.Ok? ==> r.value == element.n
  {
    match element
    case JNumber(n) =>
      if -0x8000_0000 <= n < 0x8000_0000 then Ok(n)
      else Throws(Error(Format, "One of the identified items was in an invalid format."))
    case JFloat => Throws(Error(Format, "One of the identified items was in an invalid format."))
    case _ => Throws(Error(InvalidOperation, "The requested operation requires an element of type 'Number'."))
  }

  /** `GetBoolean()`: true or false; anything else throws. */
  function GetBoolean(element: Json): (r: Result<bool>)
    ensures r.Ok? <==> element.JBool?
    ensures r.Ok? ==> r.value == element.b
  {
    if element.JBool? then Ok(element.b)
    else Throws(Error(InvalidOperation, "The requested operation requires an element of type 'Boolean'."))
  }
}

=== FILE: linq.dfy ===
/** The LINQ operators the agent code leans on, over sequences. */
module Linq {
  import opened Wrappers

  /** The index `FirstOrDefault(p)` picks: the first element satisfying `p`, if any. */
  function FirstIndex<T>(xs: seq<T>, p: T -> bool): (r: Option<nat>)
    ensures r.Some? ==> r.value < |xs| && p(xs[r.value])
    ensures r.Some? ==> forall j :: 0 <= j < r.value ==> !p(xs[j])
    ensures r.None? ==> forall j :: 0 <= j < |xs| ==> !p(xs[j])
  {
    if xs == [] then None
    else if p(xs[0]) then Some(0)
    else
      match FirstIndex(xs[1..], p)
      case None => None
      case Some(i) => Some(i + 1)
  }

  /** `Where(p)`: the elements satisfying `p`, in their original order. */
  function Filter<T(!new)>(xs: seq<T>, p: T -> bool): (r: seq<T>)
    ensures |r| <= |xs|
  {
    if xs == [] then []
    else if p(xs[0]) then [xs[0]] + Filter(xs[1..], p)
    else Filter(xs[1..], p)
  }

  /** `SelectMany(f)`: the concatenation of `f` applied to each element in turn. */
  function SelectMany<T, U>(xs: seq<T>, f: T -> seq<U>): seq<U> {
    if xs == [] then [] else SelectMany(xs[..|xs| - 1], f) + f(xs[|xs| - 1])
  }

  lemma SelectManyStep<T, U>(xs: seq<T>, f: T -> seq<U>, i: nat)
    requires i < |xs|
    ensures SelectMany(xs[..i + 1], f) == SelectMany(xs[..i], f) + f(xs[i])
  {
    assert xs[..i + 1][..i] == xs[..i];
  }

  /** One more round of a loop that appends `f(xs[i])` for each `i` in turn. */
  lemma SelectManyExtend<T, U>(init: seq<U>, xs: seq<T>, f: T -> seq<U>, i: nat, acc: seq<U>, next: seq<U>)
    requires i < |xs| && acc == init + SelectMany(xs[..i], f) && next == f(xs[i])
    ensures acc + next == init + SelectMany(xs[..i + 1], f)
  {
    SelectManyStep(xs, f, i);
  }

  /** `Take(n)`. */
  function Take<T>(xs: seq<T>, n: int): (r: seq<T>)
    ensures |r| == if n <= 0 then 0 else if n < |xs| then n else |xs|
    ensures forall i :: 0 <= i < |r| ==> r[i] == xs[i]
  {
    if n <= 0 then [] else if n < |xs| then xs[..n] else xs
  }

  /** The elements kept are exactly those of `xs` satisfying `p`. */
  lemma {:induction false} FilterMembers<T(!new)>(xs: seq<T>, p: T -> bool)
    ensures forall x :: x in Filter(xs, p) <==> x in xs && p(x)
  {
    if xs != [] {
      FilterMembers(xs[1..], p);
      assert forall x :: x in xs <==> x == xs[0] || x in xs[1..];
    }
  }

  /** When no element satisfies `p`, nothing is kept. */
  lemma {:induction false} FilterNone<T(!new)>(xs: seq<T>, p: T -> bool)
    requires forall i :: 0 <= i < |xs| ==> !p(xs[i])
    ensures Filter(xs, p) == []
  {
    if xs != [] {
      FilterNone(xs[1..], p);
    }
  }

  /** When every element satisfies `p`, everything is kept. */
  lemma {:induction false} FilterAll<T(!new)>(xs: seq<T>, p: T -> bool)
    requires forall i :: 0 <= i < |xs| ==> p(xs[i])
    ensures Filter(xs, p) == xs
  {
    if xs != [] {
      FilterAll(xs[1..], p);
    }
  }

  lemma {:induction false} FilterAppend<T(!new)>(xs: seq<T>, ys: seq<T>, p: T -> bool)
    ensures Filter(xs + ys, p) == Filter(xs, p) + Filter(ys, p)
  {
    if xs == [] {
      assert xs + ys == ys;
    } else {
      assert (xs + ys)[0] == xs[0] && (xs + ys)[1..] == xs[1..] + ys;
      FilterAppend(xs[1..], ys, p);
    }
  }

  // ---------------------------------------------------------------- OrderBy

  /** `le` orders its values totally, ties allowed: what a key comparer gives `OrderBy`. */
  ghost predicate TotalPreorder<T(!new)>(le: (T, T) -> bool) {
    (forall a, b :: le(a, b) || le(b, a))
    && (forall a, b, c :: le(a, b) && le(b, c) ==> le(a, c))
  }

  predicate Sorted<T>(xs: seq<T>, le: (T, T) -> bool) {
    forall i, j :: 0 <= i < j < |xs| ==> le(xs[i], xs[j])
  }

  /** Inserts `x` after every element of `s` that is not greater than it. */
  function Insert<T>(x: T, s: seq<T>, le: (T, T) -> bool): (r: seq<T>)
    ensures multiset(r) == multiset(s) + multiset{x}
  {
    if s == [] then [x]
    else if !le(s[0], x) then [x] + s
    else
      assert s == [s[0]] + s[1..];
      [s[0]] + Insert(x, s[1..], le)
  }

  /** `OrderBy`: a stable sort, by insertion of each element in turn. */
  function OrderBy<T>(xs: seq<T>, le: (T, T) -> bool): (r: seq<T>)
    ensures multiset(r) == multiset(xs)
    ensures |r| == |xs|
  {
    if xs == [] then []
    else
      assert xs == xs[..|xs| - 1] + [xs[|xs| - 1]];
      var r := Insert(xs[|xs| - 1], OrderBy(xs[..|xs| - 1], le), le);
      assert |r| == |multiset(r)|;
      r
  }

  lemma {:induction false} InsertSorted<T(!new)>(x: T, s: seq<T>, le: (T, T) -> bool)
    requires TotalPreorder(le) && Sorted(s, le)
    ensures Sorted(Insert(x, s, le), le)
  {
    if s != [] && le(s[0], x) {
      InsertSorted(x, s[1..], le);
      var r := Insert(x, s[1..], le);
      forall y | y in r ensures le(s[0], y) {
        assert y in multiset(r);
        if y != x {
          assert y in multiset(s[1..]);
          var j :| 0 <= j < |s[1..]| && s[1..][j] == y;
          assert s[j + 1] == y;
        }
      }
    }
  }

  /** The result of `OrderBy` is sorted. */
  lemma {:induction false} OrderBySorted<T(!new)>(xs: seq<T>, le: (T, T) -> bool)
    requires TotalPreorder(le)
    ensures Sorted(OrderBy(xs, le), le)
  {
    if xs != [] {
      OrderBySorted(xs[..|xs| - 1], le);
      InsertSorted(xs[|xs| - 1], OrderBy(xs[..|xs| - 1], le), le);
    }
  }

  predicate Equiv<T>(le: (T, T) -> bool, x: T, a: T) {
    le(x, a) && le(a, x)
  }

  /** The elements of `xs` that tie with `a`, in their order in `xs`. */
  function Ties<T>(xs: seq<T>, a: T, le: (T, T) -> bool): seq<T> {
    if xs == [] then []
    else (if Equiv(le, xs[0], a) then [xs[0]] else []) + Ties(xs[1..], a, le)
  }

  lemma {:induction false} TiesAppend<T>(xs: seq<T>, ys: seq<T>, a: T, le: (T, T) -> bool)
    ensures Ties(xs + ys, a, le) == Ties(xs, a, le) + Ties(ys, a, le)
  {
    if xs == [] {
      assert xs + ys == ys;
    } else {
      var head := if Equiv(le, xs[0], a) then [xs[0]] else [];
      assert (xs + ys)[0] == xs[0] && (xs + ys)[1..] == xs[1..] + ys;
      assert Ties(xs + ys, a, le) == head + Ties(xs[1..] + ys, a, le);
      TiesAppend(xs[1..], ys, a, le);
      assert Ties(xs, a, le) == head + Ties(xs[1..], a, le);
    }
  }

  lemma {:induction false} TiesNone<T>(xs: seq<T>, a: T, le: (T, T) -> bool)
    requires forall i :: 0 <= i < |xs| ==> !Equiv(le, xs[i], a)
    ensures Ties(xs, a, le) == []
  {
    if xs != [] {
      TiesNone(xs[1..], a, le);
    }
  }

  /** Nothing in a sorted `s` whose head is above `x` ties with `x`. */
  lemma NoTiesAbove<T(!new)>(x: T, s: seq<T>, a: T, le: (T, T) -> bool)
    requires TotalPreorder(le) && Sorted(s, le)
    requires s != [] && !le(s[0], x) && Equiv(le, x, a)
    ensures Ties(s, a, le) == []
  {
    TiesNone(s, a, le);
  }

  lemma SortedTail<T>(s: seq<T>, le: (T, T) -> bool)
    requires s != [] && Sorted(s, le)
    ensures Sorted(s[1..], le)
  {
  }

  lemma TiesInsertFront<T(!new)>(x: T, s: seq<T>, a: T, le: (T, T) -> bool)
    requires TotalPreorder(le) && Sorted(s, le)
    requires s != [] && !le(s[0], x)
    ensures Ties(Insert(x, s, le), a, le) == Ties(s, a, le) + Ties([x], a, le)
  {
    assert Insert(x, s, le) == [x] + s;
    TiesAppend([x], s, a, le);
    if Equiv(le, x, a) {
      NoTiesAbove(x, s, a, le);
      assert Ties(s, a, le) + Ties([x], a, le) == Ties([x], a, le);
    } else {
      assert Ties([x], a, le) == [];
    }
  }

  lemma {:induction false} TiesInsert<T(!new)>(x: T, s: seq<T>, a: T, le: (T, T) -> bool)
    requires TotalPreorder(le) && Sorted(s, le)
    ensures Ties(Insert(x, s, le), a, le) == Ties(s, a, le) + Ties([x], a, le)
  {
    if s == [] {
    } else if !le(s[0], x) {
      TiesInsertFront(x, s, a, le);
    } else {
      SortedTail(s, le);
      TiesInsert(x, s[1..], a, le);
      var t := Ties([s[0]], a, le);
      calc {
        Ties(Insert(x, s, le), a, le);
        Ties([s[0]] + Insert(x, s[1..], le), a, le);
        { TiesAppend([s[0]], Insert(x, s[1..], le), a, le); }
        t + Ties(Insert(x, s[1..], le), a, le);
        t + (Ties(s[1..], a, le) + Ties([x], a, le));
        { TiesAppend([s[0]], s[1..], a, le); assert [s[0]] + s[1..] == s; }
        Ties(s, a, le) + Ties([x], a, le);
      }
    }
  }

  /** `OrderBy` is stable: elements that tie keep their relative order. */
  lemma {:induction false} OrderByStable<T(!new)>(xs: seq<T>, a: T, le: (T, T) -> bool)
    requires TotalPreorder(le)
    ensures Ties(OrderBy(xs, le), a, le) == Ties(xs, a, le)
  {
    if xs != [] {
      var init := xs[..|xs| - 1];
      OrderByStable(init, a, le);
      OrderBySorted(init, le);
      TiesInsert(xs[|xs| - 1], OrderBy(init, le), a, le);
      TiesAppend(init, [xs[|xs| - 1]], a, le);
      assert init + [xs[|xs| - 1]] == xs;
    }
  }
}

=== FILE: multi_step_executor.dfy ===
/**
  MultiStepExecutor: the plan of a multi-step request, the execution of its steps in order and
  the local `TRANSFORM_DATA` step.

  The LLM, the controllers, the JSON reader, the typed binder and the JSON writer are the
  parameters gathered in `World`. The prompts sent to the LLM do not influence its outcomes in
  this model, so what only feeds a prompt (the user message, a step's `Transformation`, the data
  chosen for transformation) is kept only where the source decides something with it.
*/
module MultiStep {
  import opened Wrappers
  import opened Text
  import opened Json
  import opened Clr
  import opened Linq
  import opened Calendar
  import opened JsonHelper
  import opened GeminiApiService
  import opened ControllerInvoker
  import opened ParameterExtraction

  /** `ExecutionStep` (`ParameterMappings` is never read and is not kept). */
  datatype ExecutionStep = ExecutionStep(
    order: int,
    description: Option<string>,
    controller: Option<string>,
    action: Option<string>,
    parameterSource: Option<string>,
    transformation: Option<string>)

  /** `ExecutionPlan`. */
  datatype ExecutionPlan = ExecutionPlan(isMultiStep: bool, userMessage: Option<string>, steps: seq<ExecutionStep>)

  /** `new ExecutionPlan { IsMultiStep = false }`: what every failed analysis degrades to. */
  const SingleStepPlan: ExecutionPlan := ExecutionPlan(false, None, [])

  // ---------------------------------------------------------------- AnalyzeExecutionPlan

  /** The (last) member called `name` is there and is a string or null. */
  predicate HasStringMember(members: seq<Member>, name: string) {
    Property(members, name).Some? && (Property(members, name).value.JString? || Property(members, name).value.JNull?)
  }

  /** The string such a member holds, or null. */
  function MemberString(members: seq<Member>, name: string): Option<string>
    requires HasStringMember(members, name)
  {
    match Property(members, name).value
    case JString(s) => Some(s)
    case _ => None
  }

  /** The (last) `order` member is an integral number within the range of int. */
  predicate HasOrder(members: seq<Member>) {
    Property(members, "order").Some? && Property(members, "order").value.JNumber?
    && -0x8000_0000 <= Property(members, "order").value.n < 0x8000_0000
  }

  /** What makes an element of `steps` readable: an object whose `order` is an int, whose four
      text members are strings or null, and whose `transformation`, if present, is too. */
  predicate ReadableStep(element: Json) {
    && element.JObject?
    && HasOrder(element.members)
    && HasStringMember(element.members, "description")
    && HasStringMember(element.members, "controller")
    && HasStringMember(element.members, "action")
    && HasStringMember(element.members, "parameterSource")
    && (Property(element.members, "transformation").None? || HasStringMember(element.members, "transformation"))
  }

  /** `element.GetProperty(name).GetString()`. */
  function StringMember(element: Json, name: string): (r: Result<Option<string>>)
    ensures r.Ok? <==> element.JObject? && HasStringMember(element.members, name)
    ensures r.Ok? ==> r.value == MemberString(element.members, name)
  {
    var member :- GetProperty(element, name);
    GetString(member)
  }

  /** The optional `transformation`: absent gives null, present must be a string or null. */
  function OptionalStringMember(element: Json, name: string): (r: Result<Option<string>>)
    requires element.JObject?
    ensures Property(element.members, name).None? ==> r == Ok(None)
    ensures r.Ok? <==> Property(element.members, name).None? || HasStringMember(element.members, name)
    ensures HasStringMember(element.members, name) ==> r == Ok(MemberString(element.members, name))
  {
    match Property(element.members, name)
    case None => Ok(None)
    case Some(member) => GetString(member)
  }

  /** One element of `steps`, read field by field in the order of the object initializer. */
  function ParseStep(element: Json): (r: Result<ExecutionStep>)
    ensures r.Ok? ==> element.JObject?
    ensures r.Ok? && Property(element.members, "transformation").None? ==> r.value.transformation == None
    ensures r.Ok? <==> ReadableStep(element)
    ensures r.Ok? ==>
      var m := element.members;
      && r.value.order == Property(m, "order").value.n
      && r.value.description == MemberString(m, "description")
      && r.value.controller == MemberString(m, "controller")
      && r.value.action == MemberString(m, "action")
      && r.value.parameterSource == MemberString(m, "parameterSource")
      && r.value.transformation == (if Property(m, "transformation").None? then None else MemberString(m, "transformation"))
  {
    var orderElement :- GetProperty(element, "order");
    var order :- GetInt32(orderElement);
    var description :- StringMember(element, "description");
    var controller :- StringMember(element, "controller");
    var action :- StringMember(element, "action");
    var parameterSource :- StringMember(element, "parameterSource");
    var transformation :- OptionalStringMember(element, "transformation");
    Ok(ExecutionStep(order, description, controller, action, parameterSource, transformation))
  }

  /** A `foreach` that reads every item in turn: the values in item order, or the first failure. */
  function ParseEach<T>(items: seq<Json>, parseOne: Json -> Result<T>): Result<seq<T>> {
    if items == [] then Ok([])
    else
      var init :- ParseEach(items[..|items| - 1], parseOne);
      var last :- parseOne(items[|items| - 1]);
      Ok(init + [last])
  }

  /** The `foreach` over the `steps` array. */
  function ParseSteps(items: seq<Json>): Result<seq<ExecutionStep>> {
    ParseEach(items, ParseStep)
  }

  /** `EnumerateArray()`: the items of an array; anything else throws. */
  function Elements(element: Json): (r: Result<seq<Json>>)
    ensures r.Ok? <==> element.JArray?
    ensures r.Ok? ==> r.value == element.items
  {
    if element.JArray? then Ok(element.items)
    else Throws(Error(InvalidOperation, "The requested operation requires an element of type 'Array'."))
  }

  /** The body of the `try` block: the plan the cleaned reply describes, or what it throws. */
  function ReadPlan(message: string, jsonResponse: string, parse: Parser): Result<ExecutionPlan> {
    var planData :- DeserializeToElement(parse, jsonResponse);
    var flag :- GetProperty(planData, "isMultiStep");
    var isMultiStep :- GetBoolean(flag);
    if !isMultiStep then Ok(SingleStepPlan)
    else
      // `planData` is an object here, so `TryGetProperty` cannot throw.
      var stepsElement := Property(planData.members, "steps");
      if stepsElement.None? then Ok(ExecutionPlan(true, Some(message), []))
      else
        var items :- Elements(stepsElement.value);
        var steps :- ParseSteps(items);
        Ok(ExecutionPlan(true, Some(message), steps))
  }

  /** The `catch` clause: any exception while reading degrades to a single-step plan. */
  function PlanFromReply(message: string, jsonResponse: string, parse: Parser): ExecutionPlan {
    match ReadPlan(message, jsonResponse, parse)
    case Throws(_) => SingleStepPlan
    case Ok(plan) => plan
  }

  /** What an analysis did: its plan (or the exception of the LLM request, which is outside the
      `try`) and the number of LLM requests. */
  datatype Analysis = Analysis(outcome: Result<ExecutionPlan>, calls: nat)

  /** `AnalyzeExecutionPlan`, with the LLM requests numbered from `k`. */
  function Analyze(message: string, llm: Llm, k: nat, parse: Parser): Analysis {
    var run := Retry(llm, k, DefaultMaxRetries, DefaultDelaySeconds);
    match run.outcome
    case Throws(e) => Analysis(Throws(e), run.calls)
    case Ok(content) => Analysis(Ok(PlanFromReply(message, CleanJsonResponse(TrimmedContent(content)), parse)), run.calls)
  }

  /** Reading every item succeeds exactly when each item can be read, and then gives the items'
      values in order. */
  lemma {:induction false} ParseEachPointwise<T>(items: seq<Json>, parseOne: Json -> Result<T>)
    ensures ParseEach(items, parseOne).Ok? <==> forall i :: 0 <= i < |items| ==> parseOne(items[i]).Ok?
    ensures ParseEach(items, parseOne).Ok? ==>
      |ParseEach(items, parseOne).value| == |items|
      && forall i :: 0 <= i < |items| ==> ParseEach(items, parseOne).value[i] == parseOne(items[i]).value
  {
    if items != [] {
      var init := items[..|items| - 1];
      ParseEachPointwise(init, parseOne);
      assert forall i :: 0 <= i < |init| ==> init[i] == items[i];
    }
  }

  /** When every item before `i` can be read and item `i` cannot, reading fails with item `i`'s
      exception: the first failure is the one reported. */
  lemma {:induction false} ParseEachFirstFailure<T>(items: seq<Json>, parseOne: Json -> Result<T>, i: nat)
    requires i < |items| && ParseEach(items[..i], parseOne).Ok? && parseOne(items[i]).Throws?
    ensures ParseEach(items, parseOne) == Throws(parseOne(items[i]).error)
    decreases |items|
  {
    var init := items[..|items| - 1];
    if i == |items| - 1 {
      assert init == items[..i];
    } else {
      assert init[..i] == items[..i] && init[i] == items[i];
      ParseEachFirstFailure(init, parseOne, i);
    }
  }

  /** The steps parse exactly when every element does, and then they are the elements' steps in
      array order. */
  lemma ParseStepsPointwise(items: seq<Json>)
    ensures ParseSteps(items).Ok? <==> forall i :: 0 <= i < |items| ==> ParseStep(items[i]).Ok?
    ensures ParseSteps(items).Ok? ==>
      |ParseSteps(items).value| == |items|
      && forall i :: 0 <= i < |items| ==> ParseSteps(items).value[i] == ParseStep(items[i]).value
  {
    ParseEachPointwise(items, ParseStep);
  }

  /** A reply that is not a plan, or that says it is not multi-step, gives the single-step plan;
      a multi-step plan carries the user's message. */
  lemma PlanShape(message: string, jsonResponse: string, parse: Parser)
    ensures var plan := PlanFromReply(message, jsonResponse, parse);
      && (plan.isMultiStep ==> plan.userMessage == Some(message))
      && (!plan.isMultiStep ==> plan == SingleStepPlan)
    ensures parse(jsonResponse).None? ==> PlanFromReply(message, jsonResponse, parse) == SingleStepPlan
    ensures var j := parse(jsonResponse);
      j.Some? && j.value.JObject? && Property(j.value.members, "isMultiStep") == Some(JBool(false)) ==>
        PlanFromReply(message, jsonResponse, parse) == SingleStepPlan
  {
  }

  /** One step that cannot be read throws away the steps read before it. */
  lemma LateErrorDiscardsSteps(message: string, jsonResponse: string, parse: Parser, items: seq<Json>, i: int)
    requires 0 <= i < |items| && ParseStep(items[i]).Throws?
    requires var j := parse(jsonResponse);
      && j.Some? && j.value.JObject? && Property(j.value.members, "isMultiStep") == Some(JBool(true))
      && Property(j.value.members, "steps") == Some(JArray(items))
    ensures PlanFromReply(message, jsonResponse, parse) == SingleStepPlan
  {
    ParseStepsPointwise(items);
  }

  /** When every step can be read, the plan holds them all, in array order. */
  lemma StepsInArrayOrder(message: string, jsonResponse: string, parse: Parser, items: seq<Json>)
    requires forall i :: 0 <= i < |items| ==> ParseStep(items[i]).Ok?
    requires var j := parse(jsonResponse);
      && j.Some? && j.value.JObject? && Property(j.value.members, "isMultiStep") == Some(JBool(true))
      && Property(j.value.members, "steps") == Some(JArray(items))
    ensures var plan := PlanFromReply(message, jsonResponse, parse);
      && plan.isMultiStep && plan.userMessage == Some(message) && |plan.steps| == |items|
      && forall i :: 0 <= i < |items| ==> plan.steps[i] == ParseStep(items[i]).value
  {
    ParseStepsPointwise(items);
  }

  // ---------------------------------------------------------------- ExecuteSingleStep

  /** The outside world a step runs against. `write` is System.Text.Json's writer. */
  datatype World = World(
    assemblies: Assemblies,
    invoke: Invoker,
    llm: Llm,
    parse: Parser,
    bind: Binder,
    write: Json -> string,
    today: Date)

  /** The anonymous objects `ExecuteSingleStep` returns. A refused transformation has no `data`
      member at all. */
  datatype StepResult =
    | TransformRefused(message: string, step: Option<string>)
    | Transformed(data: Value, isArray: bool, transformation: Option<string>, step: Option<string>)
    | ApiFailed(data: Value, message: string, controller: Option<string>, action: Option<string>, step: Option<string>)
    | ApiSucceeded(data: Value, controller: Option<string>, action: Option<string>, step: Option<string>)
  {
    /** The envelope has a `data` member. */
    predicate HasData() {
      !TransformRefused?
    }

    /** Its `success` member is true. */
    predicate Succeeded() {
      Transformed? || ApiSucceeded?
    }
  }

  /** What a step did: its envelope or exception, and the number of LLM requests it made. */
  datatype StepRun = StepRun(outcome: Result<StepResult>, calls: nat)

  const TransformAction: string := "TRANSFORM_DATA"
  const PreviousStepSource: string := "previous_step"
  const NullDataMessage: string := "Previous step data is null. Check if the previous step was executed correctly."
  const EmptyArrayMessage: string := "Previous step array is empty."
  const NoDataMessage: string := "No data returned in previous step to be processed."
  const ApiFailureMessage: string := "API returned failure"

  /** What `TransformData` does with the previous data before asking the LLM: refuse, or send a
      JSON value for transformation. */
  datatype Selection = Refuse(message: string) | Send(json: Json)

  /** The guards of `TransformData`: null data, an empty array and a null `data` member are
      refused; a non-empty array, at the top or under `data`, sends its first element. A scalar
      makes `TryGetProperty` throw. */
  function TransformInput(previousData: Value): Result<Selection> {
    if previousData == Null then Ok(Refuse(NullDataMessage))
    else
      var element := ToJson(previousData);
      if element.JArray? then
        if |element.items| > 0 then Ok(Send(element.items[0])) else Ok(Refuse(EmptyArrayMessage))
      else
        var data :- TryGetProperty(element, "data");
        match data
        case None => Ok(Send(element))
        case Some(d) =>
          if d.JNull? then Ok(Refuse(NoDataMessage))
          else if d.JArray? && |d.items| > 0 then Ok(Send(d.items[0]))
          else Ok(Send(d))
  }

  /** The LLM's cleaned reply turned into the step's envelope. The `rPs` checks only log, but
      `TryGetProperty` throws when the reply is neither an array nor an object. */
  function Transformation(step: ExecutionStep, transformedJson: string, parse: Parser): Result<StepResult> {
    var transformedData :- DeserializeToElement(parse, transformedJson);
    var cleanData := ConvertJsonElement(transformedData);
    if transformedData.JArray? then
      Ok(Transformed(cleanData, true, step.transformation, step.description))
    else
      var _ :- TryGetProperty(transformedData, "rPs");
      Ok(Transformed(cleanData, false, step.transformation, step.description))
  }

  /** `TransformData`. */
  function TransformData(step: ExecutionStep, previousData: Value, w: World, k: nat): StepRun {
    match TransformInput(previousData)
    case Throws(e) => StepRun(Throws(e), 0)
    case Ok(Refuse(message)) => StepRun(Ok(TransformRefused(message, step.description)), 0)
    case Ok(Send(_)) =>
      var run := Retry(w.llm, k, DefaultMaxRetries, DefaultDelaySeconds);
      match run.outcome
      case Throws(e) => StepRun(Throws(e), run.calls)
      case Ok(content) =>
        StepRun(Transformation(step, CleanJsonResponse(TrimmedContent(content)), w.parse), run.calls)
  }

  /** The arguments of a resolved method: none without parameters; the first one from the
      previous data when the step asks for it and there is data (the rest stay null); otherwise
      all of them extracted from the step's description. */
  function Arguments(step: ExecutionStep, previousData: Value, parameters: seq<Param>, w: World, k: nat): Extraction {
    if |parameters| == 0 then Extraction(Ok([]), 0)
    else if step.parameterSource == Some(PreviousStepSource) && previousData != Null then
      FirstArgument(FromPreviousStep(previousData, parameters[0].paramType, w.llm, k, w.parse, w.bind), |parameters|)
    else Extract(parameters, w.llm, k, w.today, w.parse, w.bind)
  }

  /** The `count` arguments when the first one is what was `built` from the previous step: the
      others stay null, and a failure to build is the extraction's failure. */
  function FirstArgument(built: Built, count: nat): (r: Extraction)
    requires count > 0
    ensures r.calls == built.calls
    ensures r.outcome.Ok? <==> built.outcome.Ok?
    ensures r.outcome.Throws? ==> r.outcome.error == built.outcome.error
    ensures r.outcome.Ok? ==>
      && |r.outcome.value| == count
      && r.outcome.value[0] == built.outcome.value
      && forall i :: 1 <= i < count ==> r.outcome.value[i] == Null
  {
    match built.outcome
    case Throws(e) => Extraction(Throws(e), built.calls)
    case Ok(v) => Extraction(Ok([v] + seq(count - 1, _ => Null)), built.calls)
  }

  /** The public properties of `fields` whose name equals `name` ignoring case. */
  function Matching(fields: seq<Field>, name: string): (r: seq<Field>)
    ensures forall f :: f in r <==> f in fields && EqualsIgnoreCase(f.name, name)
    ensures r == [] <==> forall f :: f in fields ==> !EqualsIgnoreCase(f.name, name)
  {
    if fields == [] then []
    else (if EqualsIgnoreCase(fields[0].name, name) then [fields[0]] else []) + Matching(fields[1..], name)
  }

  /** `GetType().GetProperty(name, IgnoreCase | Public | Instance)`: only objects with public
      properties of their own can have one; two candidates make the lookup ambiguous. */
  function PropertyIgnoringCase(v: Value, name: string): (r: Result<Option<Field>>)
    ensures r.Ok? && r.value.Some? ==> v.Obj? && r.value.value in v.fields && EqualsIgnoreCase(r.value.value.name, name)
    ensures r.Ok? && r.value.None? ==> !v.Obj? || forall f :: f in v.fields ==> !EqualsIgnoreCase(f.name, name)
  {
    if !v.Obj? then Ok(None)
    else
      var candidates := Matching(v.fields, name);
      if |candidates| == 0 then Ok(None)
      else if |candidates| == 1 then Ok(Some(candidates[0]))
      else Throws(Error(AmbiguousMatch, "Ambiguous match found for '" + name + "'."))
  }

  /** How the `Success` probe judges an invoked result. */
  datatype Verdict = Accepted | Rejected(message: string)

  /** The `Success` probe: rejected only by a `bool` property `Success` that is false, with the
      serialized `Messages` (if any) as the message. */
  function Probe(result: Value, write: Json -> string): Result<Verdict> {
    if result == Null then Ok(Accepted)
    else
      var success :- PropertyIgnoringCase(result, "Success");
      if success.None? || success.value.declared != BoolType || success.value.value == Bool(true) then Ok(Accepted)
      else
        var messages :- PropertyIgnoringCase(result, "Messages");
        Ok(Rejected(if messages.Some? then write(ToJson(messages.value.value)) else ApiFailureMessage))
  }

  /** The envelope of an invoked controller action. */
  function Envelope(step: ExecutionStep, invoked: Result<Value>, write: Json -> string): Result<StepResult> {
    var result :- invoked;
    var verdict :- Probe(result, write);
    match verdict
    case Accepted => Ok(ApiSucceeded(result, step.controller, step.action, step.description))
    case Rejected(message) => Ok(ApiFailed(result, message, step.controller, step.action, step.description))
  }

  /** `ExecuteSingleStep`: a transformation is handled locally; any other step is resolved to a
      controller method, given its arguments, invoked and probed. */
  function ExecuteSingleStep(step: ExecutionStep, previousData: Value, w: World, k: nat): StepRun {
    if step.action == Some(TransformAction) then TransformData(step, previousData, w, k)
    else
      var controller := step.controller.GetOr("");
      var action := step.action.GetOr("");
      match FindControllerAndMethod(w.assemblies, controller, action)
      case Throws(e) => StepRun(Throws(e), 0)
      case Ok(target) =>
        var args := Arguments(step, previousData, target.action.parameters, w, k);
        match args.outcome
        case Throws(e) => StepRun(Throws(e), args.calls)
        case Ok(methodParams) =>
          StepRun(Envelope(step, InvokeController(w.assemblies, w.invoke, controller, action, methodParams), w.write),
                  args.calls)
  }

  /** A `TRANSFORM_DATA` step never looks at the controllers: its run is the same whatever
      assemblies and invoker the world holds. */
  lemma TransformNeverResolves(step: ExecutionStep, previousData: Value, w: World, k: nat,
                               assemblies: Assemblies, invoke: Invoker)
    requires step.action == Some(TransformAction)
    ensures ExecuteSingleStep(step, previousData, w, k)
      == ExecuteSingleStep(step, previousData, w.(assemblies := assemblies, invoke := invoke), k)
    ensures ExecuteSingleStep(step, previousData, w, k) == TransformData(step, previousData, w, k)
  {
  }

  /** The argument array always matches the parameters; zero parameters need no request. */
  lemma ArgumentsShape(step: ExecutionStep, previousData: Value, parameters: seq<Param>, w: World, k: nat)
    ensures var a := Arguments(step, previousData, parameters, w, k);
      a.outcome.Ok? ==> |a.outcome.value| == |parameters|
    ensures |parameters| == 0 ==> Arguments(step, previousData, parameters, w, k) == Extraction(Ok([]), 0)
  {
    if |parameters| > 0 && !(step.parameterSource == Some(PreviousStepSource) && previousData != Null) {
      ExtractLength(parameters, w.llm, k, w.today, w.parse, w.bind);
    }
  }

  /** From the previous step only argument 0 is filled, with what `BuildParametersFromPreviousStep`
      built; every other argument stays null. */
  lemma PreviousStepFillsFirstOnly(step: ExecutionStep, previousData: Value, parameters: seq<Param>, w: World, k: nat)
    requires |parameters| > 0 && step.parameterSource == Some(PreviousStepSource) && previousData != Null
    ensures var a := Arguments(step, previousData, parameters, w, k);
      var built := FromPreviousStep(previousData, parameters[0].paramType, w.llm, k, w.parse, w.bind);
      && a.calls == built.calls
      && (a.outcome.Ok? <==> built.outcome.Ok?)
      && (a.outcome.Ok? ==>
            && a.outcome.value[0] == built.outcome.value
            && forall i :: 1 <= i < |parameters| ==> a.outcome.value[i] == Null)
  {
  }

  /** Any other step with parameters extracts all of them from its description. */
  lemma OtherwiseExtracted(step: ExecutionStep, previousData: Value, parameters: seq<Param>, w: World, k: nat)
    requires |parameters| > 0 && !(step.parameterSource == Some(PreviousStepSource) && previousData != Null)
    ensures Arguments(step, previousData, parameters, w, k) == Extract(parameters, w.llm, k, w.today, w.parse, w.bind)
  {
  }

  /** The probe rejects exactly a result with a single public `bool` property named `Success`
      (ignoring case) whose value is not true; a result without one passes. */
  lemma ProbeRejects(result: Value, write: Json -> string)
    ensures var p := Probe(result, write);
      p.Ok? && p.value.Rejected? ==>
        result.Obj? && |Matching(result.fields, "Success")| == 1
        && Matching(result.fields, "Success")[0].declared == BoolType
        && Matching(result.fields, "Success")[0].value != Bool(true)
    ensures !result.Obj? || (forall f :: f in result.fields ==> !EqualsIgnoreCase(f.name, "Success")) ==>
      Probe(result, write) == Ok(Accepted)
  {
  }

  /** A rejection carries the serialized `Messages`, or "API returned failure" without one. */
  lemma ProbeMessage(result: Value, write: Json -> string)
    requires var p := Probe(result, write); p.Ok? && p.value.Rejected?
    ensures var m := Matching(result.fields, "Messages");
      && (|m| == 0 ==> Probe(result, write) == Ok(Rejected(ApiFailureMessage)))
      && (|m| == 1 ==> Probe(result, write) == Ok(Rejected(write(ToJson(m[0].value)))))
  {
    var messages := PropertyIgnoringCase(result, "Messages");
    assert messages.Ok?;
    assert Probe(result, write)
      == Ok(Rejected(if messages.value.Some? then write(ToJson(messages.value.value.value)) else ApiFailureMessage));
  }

  /** The transformation's guards refuse without asking the LLM: null data, an empty array, and an
      object whose `data` is null. */
  lemma TransformGuards(step: ExecutionStep, previousData: Value, w: World, k: nat)
    requires || previousData == Null
             || ToJson(previousData) == JArray([])
             || (ToJson(previousData).JObject? && Property(ToJson(previousData).members, "data") == Some(JNull))
    ensures var r := TransformData(step, previousData, w, k);
      && r.calls == 0 && r.outcome.Ok? && r.outcome.value.TransformRefused?
      && r.outcome.value.message ==
           if previousData == Null then NullDataMessage
           else if ToJson(previousData).JArray? then EmptyArrayMessage
           else NoDataMessage
  {
  }

  /** A non-empty array, at the top or under `data`, is sent by its first element alone. */
  lemma TransformSendsFirstElement(previousData: Value)
    requires previousData != Null
    ensures var j := ToJson(previousData);
      j.JArray? && |j.items| > 0 ==> TransformInput(previousData) == Ok(Send(j.items[0]))
    ensures var j := ToJson(previousData);
      j.JObject? && Property(j.members, "data").Some? && Property(j.members, "data").value.JArray?
      && |Property(j.members, "data").value.items| > 0 ==>
        TransformInput(previousData) == Ok(Send(Property(j.members, "data").value.items[0]))
  {
  }

  /** An array reply gives a successful array envelope whose data is a list of the same length;
      an object reply gives a successful envelope whose data is the normalised object, whatever
      `rPs` members it has. */
  lemma TransformationReply(step: ExecutionStep, transformedJson: string, parse: Parser)
    requires parse(transformedJson).Some?
    ensures var j := parse(transformedJson).value;
      var r := Transformation(step, transformedJson, parse);
      && (j.JArray? ==>
            && r.Ok? && r.value.Transformed? && r.value.isArray
            && r.value.data.List? && |r.value.data.items| == |j.items|)
      && (j.JObject? ==> r == Ok(Transformed(ConvertJsonElement(j), false, step.transformation, step.description)))
      && (!j.JArray? && !j.JObject? ==> r.Throws?)
  {
    var j := parse(transformedJson).value;
    if j.JArray? {
      ConvertArray(j.items);
    }
  }

  // ---------------------------------------------------------------- ExecuteMultiStepOperation

  /** A step's execution as the loop sees it: step, previous data and first request number. */
  type StepExecutor = (ExecutionStep, Value, nat) -> StepRun

  /** `ExecuteSingleStep` against a world. */
  function Executor(w: World): StepExecutor {
    (step: ExecutionStep, previousData: Value, k: nat) => ExecuteSingleStep(step, previousData, w, k)
  }

  /** The key comparison of `OrderBy(s => s.Order)`. */
  predicate OrderLe(a: ExecutionStep, b: ExecutionStep) {
    a.order <= b.order
  }

  lemma OrderLeTotalPreorder()
    ensures TotalPreorder(OrderLe)
  {
  }

  /** The steps in execution order. */
  function Ordered(steps: seq<ExecutionStep>): seq<ExecutionStep> {
    OrderBy(steps, OrderLe)
  }

  /** The anonymous object `ExecuteMultiStepOperation` returns. */
  datatype MultiStepResult =
    | Completed(message: string, data: Value, totalSteps: nat)
    | Failed(message: string, results: seq<StepResult>)

  /** What a run did: its result and the number of LLM requests it made. */
  datatype Run = Run(outcome: MultiStepResult, calls: nat)

  /** The message of the RuntimeBinderException raised by `dynResult.data` on an envelope without
      a `data` member. */
  const MissingDataMessage: string := "'<>f__AnonymousType' does not contain a definition for 'data'"

  const ErrorPrefix: string := "Error in step "
  const FailurePrefix: string := "Failure in step "
  const DetailsSeparator: string := ". Details: "
  const CompletionPrefix: string := "Multi-step operation completed successfully ("
  const CompletionSuffix: string := " steps)"

  function ErrorMessage(step: ExecutionStep, message: string): string {
    ErrorPrefix + IntToString(step.order) + ": " + message
  }

  function FailureMessage(step: ExecutionStep, details: string): string {
    FailurePrefix + IntToString(step.order) + ": " + step.description.GetOr("") + DetailsSeparator + details
  }

  function CompletionMessage(total: nat): string {
    CompletionPrefix + IntToString(total) + CompletionSuffix
  }

  /** The step's envelope lets the run go on: it has `data` and `success` is true. */
  predicate Continues(outcome: Result<StepResult>) {
    outcome.Ok? && outcome.value.HasData() && outcome.value.Succeeded()
  }

  /** The loop from step `i` on, with the data of the step before, the envelopes collected so far
      and `total` the number of steps in the plan. */
  function RunFrom(exec: StepExecutor, steps: seq<ExecutionStep>, i: nat, previousData: Value,
                   results: seq<StepResult>, k: nat, total: nat): Run
    decreases |steps| - i
  {
    if i >= |steps| then Run(MultiStepResult.Completed(CompletionMessage(total), previousData, total), 0)
    else
      var s := exec(steps[i], previousData, k);
      match s.outcome
      case Throws(e) => Run(Failed(ErrorMessage(steps[i], e.message), results), s.calls)
      case Ok(r) =>
        if !r.HasData() then Run(Failed(ErrorMessage(steps[i], MissingDataMessage), results + [r]), s.calls)
        else if !r.Succeeded() then Run(Failed(FailureMessage(steps[i], r.message), results + [r]), s.calls)
        else
          var rest := RunFrom(exec, steps, i + 1, r.data, results + [r], k + s.calls, total);
          Run(rest.outcome, s.calls + rest.calls)
  }

  /** `ExecuteMultiStepOperation`: the steps in `Order`, the first with null as previous data. */
  function ExecuteMultiStep(plan: ExecutionPlan, w: World, k: nat): Run {
    RunFrom(Executor(w), Ordered(plan.steps), 0, Null, [], k, |plan.steps|)
  }

  /** One executed step: which step, the previous data it was given and what it returned. */
  datatype Executed = Executed(step: ExecutionStep, input: Value, outcome: Result<StepResult>)

  /** The steps a run executes from step `i` on, in order. */
  function Trace(exec: StepExecutor, steps: seq<ExecutionStep>, i: nat, previousData: Value, k: nat): seq<Executed>
    decreases |steps| - i
  {
    if i >= |steps| then []
    else
      var s := exec(steps[i], previousData, k);
      [Executed(steps[i], previousData, s.outcome)]
        + (if Continues(s.outcome) then Trace(exec, steps, i + 1, s.outcome.value.data, k + s.calls) else [])
  }

  /** The envelopes among the executed steps, in order. */
  function Envelopes(trace: seq<Executed>): seq<StepResult> {
    if trace == [] then []
    else (if trace[0].outcome.Ok? then [trace[0].outcome.value] else []) + Envelopes(trace[1..])
  }

  /** The steps run in order, the first given the data it was started with and each later one
      exactly the `data` of the step before; every step but the last went on. */
  lemma {:induction false} TraceThreadsData(exec: StepExecutor, steps: seq<ExecutionStep>, i: nat,
                                            previousData: Value, k: nat)
    requires i <= |steps|
    ensures var t := Trace(exec, steps, i, previousData, k);
      && |t| <= |steps| - i
      && (i < |steps| ==> |t| > 0 && t[0].input == previousData)
      && (forall j :: 0 <= j < |t| ==> t[j].step == steps[i + j])
      && (forall j :: 0 <= j < |t| - 1 ==> Continues(t[j].outcome))
      && (forall j :: 1 <= j < |t| ==> t[j].input == t[j - 1].outcome.value.data)
    decreases |steps| - i
  {
    if i < |steps| {
      var s := exec(steps[i], previousData, k);
      if Continues(s.outcome) {
        TraceThreadsData(exec, steps, i + 1, s.outcome.value.data, k + s.calls);
      }
    }
  }

  /** The trace of a step that went on: that step, then the trace of the rest. */
  lemma TraceStep(exec: StepExecutor, steps: seq<ExecutionStep>, i: nat, previousData: Value, k: nat)
    requires i < |steps|
    ensures var s := exec(steps[i], previousData, k);
      var t := Trace(exec, steps, i, previousData, k);
      && |t| > 0 && t[0] == Executed(steps[i], previousData, s.outcome)
      && (Continues(s.outcome) ==> t[1..] == Trace(exec, steps, i + 1, s.outcome.value.data, k + s.calls))
      && (!Continues(s.outcome) ==> |t| == 1)
  {
  }

  /** A run from step `i` on completes exactly when every step went on; it then returns the last
      step's data (the data it started with when there were no steps) and the plan's step count. */
  predicate CompletesWithTrace(exec: StepExecutor, steps: seq<ExecutionStep>, i: nat, previousData: Value,
                               results: seq<StepResult>, k: nat, total: nat)
    requires i <= |steps|
  {
    var r := RunFrom(exec, steps, i, previousData, results, k, total);
    var t := Trace(exec, steps, i, previousData, k);
    && (r.outcome.Completed? <==> |t| == |steps| - i && forall j :: 0 <= j < |t| ==> Continues(t[j].outcome))
    && (r.outcome.Completed? ==>
          && r.outcome.totalSteps == total
          && r.outcome.message == CompletionMessage(total)
          && r.outcome.data == if t == [] then previousData else t[|t| - 1].outcome.value.data)
  }

  lemma {:induction false} RunCompletes(exec: StepExecutor, steps: seq<ExecutionStep>, i: nat, previousData: Value,
                                        results: seq<StepResult>, k: nat, total: nat)
    requires i <= |steps|
    ensures CompletesWithTrace(exec, steps, i, previousData, results, k, total)
    decreases |steps| - i
  {
    if i < |steps| {
      var s := exec(steps[i], previousData, k);
      if Continues(s.outcome) {
        RunCompletes(exec, steps, i + 1, s.outcome.value.data, results + [s.outcome.value], k + s.calls, total);
      }
      CompletesAfterStep(exec, steps, i, previousData, results, k, total);
    }
  }

  /** The inductive step of `RunCompletes`: a step that stopped the run is the last of the trace
      and the run did not complete; a step that went on passes the completion of the rest up. */
  lemma CompletesAfterStep(exec: StepExecutor, steps: seq<ExecutionStep>, i: nat, previousData: Value,
                           results: seq<StepResult>, k: nat, total: nat)
    requires i < |steps|
    requires var s := exec(steps[i], previousData, k);
      Continues(s.outcome) ==>
        CompletesWithTrace(exec, steps, i + 1, s.outcome.value.data, results + [s.outcome.value], k + s.calls, total)
    ensures CompletesWithTrace(exec, steps, i, previousData, results, k, total)
  {
    var s := exec(steps[i], previousData, k);
    var t := Trace(exec, steps, i, previousData, k);
    TraceStep(exec, steps, i, previousData, k);
    if Continues(s.outcome) {
      var d := s.outcome.value.data;
      var rest := Trace(exec, steps, i + 1, d, k + s.calls);
      assert RunFrom(exec, steps, i, previousData, results, k, total).outcome
        == RunFrom(exec, steps, i + 1, d, results + [s.outcome.value], k + s.calls, total).outcome;
      TraceShift(t, rest);
    }
  }

  /** A trace whose first step went on: every step of it went on exactly when every step of
      the rest did, and it ends where the rest ends. */
  lemma TraceShift(t: seq<Executed>, rest: seq<Executed>)
    requires |t| > 0 && Continues(t[0].outcome) && t[1..] == rest
    ensures (forall j :: 0 <= j < |t| ==> Continues(t[j].outcome))
      <==> (forall j :: 0 <= j < |rest| ==> Continues(rest[j].outcome))
    ensures rest != [] ==> t[|t| - 1] == rest[|rest| - 1]
    ensures rest == [] ==> |t| == 1
  {
    assert forall j :: 1 <= j < |t| ==> t[j] == rest[j - 1];
  }

  /** The envelopes of a trace whose first step went on. */
  lemma EnvelopesStep(t: seq<Executed>)
    requires |t| > 0 && t[0].outcome.Ok?
    ensures Envelopes(t) == [t[0].outcome.value] + Envelopes(t[1..])
  {
  }

  /** A failed run from step `i` on stops at its last executed step, which did not go on, and
      `results` then holds the envelopes of the executed steps (the failing one included unless
      it threw). */
  predicate FailsAtLastStep(exec: StepExecutor, steps: seq<ExecutionStep>, i: nat, previousData: Value,
                            results: seq<StepResult>, k: nat, total: nat)
    requires i <= |steps|
  {
    var r := RunFrom(exec, steps, i, previousData, results, k, total);
    var t := Trace(exec, steps, i, previousData, k);
    r.outcome.Failed? ==>
      && |t| > 0
      && !Continues(t[|t| - 1].outcome)
      && r.outcome.results == results + Envelopes(t)
      && r.outcome.message == StopMessage(t[|t| - 1])
  }

  lemma {:induction false} RunFails(exec: StepExecutor, steps: seq<ExecutionStep>, i: nat, previousData: Value,
                                    results: seq<StepResult>, k: nat, total: nat)
    requires i <= |steps|
    ensures FailsAtLastStep(exec, steps, i, previousData, results, k, total)
    decreases |steps| - i
  {
    if i < |steps| {
      var s := exec(steps[i], previousData, k);
      if Continues(s.outcome) {
        RunFails(exec, steps, i + 1, s.outcome.value.data, results + [s.outcome.value], k + s.calls, total);
        FailsAfterStep(exec, steps, i, previousData, results, k, total);
      } else {
        var t := Trace(exec, steps, i, previousData, k);
        TraceStep(exec, steps, i, previousData, k);
        assert t[1..] == [];
        StopsAtFirst(exec, steps, i, previousData, results, k, total);
      }
    }
  }

  /** The inductive step of `RunFails`: a step that went on passes the failure of the rest up. */
  lemma FailsAfterStep(exec: StepExecutor, steps: seq<ExecutionStep>, i: nat, previousData: Value,
                       results: seq<StepResult>, k: nat, total: nat)
    requires i < |steps|
    requires Continues(exec(steps[i], previousData, k).outcome)
    requires var s := exec(steps[i], previousData, k);
      FailsAtLastStep(exec, steps, i + 1, s.outcome.value.data, results + [s.outcome.value], k + s.calls, total)
    ensures FailsAtLastStep(exec, steps, i, previousData, results, k, total)
  {
    var s := exec(steps[i], previousData, k);
    var t := Trace(exec, steps, i, previousData, k);
    var t' := Trace(exec, steps, i + 1, s.outcome.value.data, k + s.calls);
    TraceStep(exec, steps, i, previousData, k);
    RunFromStep(exec, steps, i, previousData, results, k, total);
    if RunFrom(exec, steps, i, previousData, results, k, total).outcome.Failed? {
      LastAndEnvelopes(t, t', results, s.outcome.value);
    }
  }

  /** A step that went on leaves the outcome to the steps after it. */
  lemma RunFromStep(exec: StepExecutor, steps: seq<ExecutionStep>, i: nat, previousData: Value,
                    results: seq<StepResult>, k: nat, total: nat)
    requires i < |steps|
    requires Continues(exec(steps[i], previousData, k).outcome)
    ensures var s := exec(steps[i], previousData, k);
      RunFrom(exec, steps, i, previousData, results, k, total).outcome
      == RunFrom(exec, steps, i + 1, s.outcome.value.data, results + [s.outcome.value], k + s.calls, total).outcome
  {
  }

  /** A trace with a first step that returned `v` in front of `rest`: same last step, and the
      envelopes of `rest` after `v`. */
  lemma LastAndEnvelopes(t: seq<Executed>, rest: seq<Executed>, results: seq<StepResult>, v: StepResult)
    requires |t| > 0 && |rest| > 0 && t[0].outcome == Ok(v) && t[1..] == rest
    ensures t[|t| - 1] == rest[|rest| - 1]
    ensures results + [v] + Envelopes(rest) == results + Envelopes(t)
  {
    EnvelopesStep(t);
  }

  /** The message a run stops with, after the step `last`: an exception names the step and the
      exception's message; a missing `data` member names the binder's error; `success == false`
      names the step, its description and the envelope's message. */
  function StopMessage(last: Executed): string
    requires !Continues(last.outcome)
  {
    if last.outcome.Throws? then ErrorMessage(last.step, last.outcome.error.message)
    else if !last.outcome.value.HasData() then ErrorMessage(last.step, MissingDataMessage)
    else FailureMessage(last.step, last.outcome.value.message)
  }

  /** A step that does not go on ends the run there. */
  lemma StopsAtFirst(exec: StepExecutor, steps: seq<ExecutionStep>, i: nat, previousData: Value,
                     results: seq<StepResult>, k: nat, total: nat)
    requires i < |steps| && !Continues(exec(steps[i], previousData, k).outcome)
    ensures var s := exec(steps[i], previousData, k);
      var e := Executed(steps[i], previousData, s.outcome);
      RunFrom(exec, steps, i, previousData, results, k, total)
        == Run(Failed(StopMessage(e), results + Envelopes([e])), s.calls)
  {
    var s := exec(steps[i], previousData, k);
    var e := Executed(steps[i], previousData, s.outcome);
    assert [e][1..] == [];
    if s.outcome.Throws? {
      assert Envelopes([e]) == [];
      assert results + [] == results;
    } else {
      assert Envelopes([e]) == [s.outcome.value];
    }
  }

  /** The plan's steps run in ascending `Order`, steps with equal `Order` in plan order. */
  lemma ExecutionOrder(plan: ExecutionPlan)
    ensures Sorted(Ordered(plan.steps), OrderLe)
    ensures multiset(Ordered(plan.steps)) == multiset(plan.steps)
    ensures forall s :: Ties(Ordered(plan.steps), s, OrderLe) == Ties(plan.steps, s, OrderLe)
  {
    OrderLeTotalPreorder();
    OrderBySorted(plan.steps, OrderLe);
    forall s {
      OrderByStable(plan.steps, s, OrderLe);
    }
  }
}

/**
  `AnalyzeExecutionPlan` and `ExecuteMultiStepOperation` themselves.
*/
module MultiStepExecutor {
  import opened Wrappers
  import opened Json
  import opened Clr
  import opened JsonHelper
  import opened GeminiApiService
  import opened ParameterExtraction
  import opened MultiStep

  /** The `foreach` that reads the `steps` array, appending each step in turn. */
  method ReadSteps(items: seq<Json>) returns (r: Result<seq<ExecutionStep>>)
    ensures r == ParseSteps(items)
  {
    var steps: seq<ExecutionStep> := [];
    for i := 0 to |items|
      invariant ParseEach(items[..i], ParseStep) == Ok(steps)
    {
      assert items[..i + 1][..i] == items[..i];
      var step := ParseStep(items[i]);
      if step.Throws? {
        ParseEachFirstFailure(items, ParseStep, i);
        return Throws(step.error);
      }
      steps := steps + [step.value];
    }
    assert items[..|items|] == items;
    r := Ok(steps);
  }

  /** The `try` block of `AnalyzeExecutionPlan`. */
  method TryReadPlan(message: string, jsonResponse: string, parse: Parser) returns (r: Result<ExecutionPlan>)
    ensures r == ReadPlan(message, jsonResponse, parse)
  {
    var planData := DeserializeToElement(parse, jsonResponse);
    if planData.Throws? {
      return Throws(planData.error);
    }
    var flag := GetProperty(planData.value, "isMultiStep");
    if flag.Throws? {
      return Throws(flag.error);
    }
    var isMultiStep := GetBoolean(flag.value);
    if isMultiStep.Throws? {
      return Throws(isMultiStep.error);
    }
    if !isMultiStep.value {
      return Ok(SingleStepPlan);
    }
    var plan := ExecutionPlan(true, Some(message), []);
    var stepsElement := Property(planData.value.members, "steps");
    if stepsElement.Some? {
      var items := Elements(stepsElement.value);
      if items.Throws? {
        return Throws(items.error);
      }
      var steps := ReadSteps(items.value);
      if steps.Throws? {
        return Throws(steps.error);
      }
      plan := plan.(steps := steps.value);
    }
    r := Ok(plan);
  }

  /** `AnalyzeExecutionPlan`, with the LLM requests numbered from `k`. */
  method AnalyzeExecutionPlan(message: string, llm: Llm, k: nat, parse: Parser)
    returns (outcome: Result<ExecutionPlan>, calls: nat)
    ensures Analysis(outcome, calls) == Analyze(message, llm, k, parse)
  {
    var reply, used, waits := ExecuteWithRetry(llm, k, DefaultMaxRetries, DefaultDelaySeconds);
    calls := used;
    if reply.Throws? {
      return Throws(reply.error), calls;
    }
    var jsonResponse := CleanJsonResponse(TrimmedContent(reply.value));
    var read := TryReadPlan(message, jsonResponse, parse);
    outcome := Ok(if read.Throws? then SingleStepPlan else read.value);
  }

  /** The loop of `ExecuteMultiStepOperation` over the ordered steps, each run by `exec`. */
  method RunSteps(exec: StepExecutor, steps: seq<ExecutionStep>, total: nat, k: nat)
    returns (outcome: MultiStepResult, calls: nat)
    ensures Run(outcome, calls) == RunFrom(exec, steps, 0, Null, [], k, total)
  {
    var results: seq<StepResult> := [];
    var previousStepData := Null;
    calls := 0;
    for i := 0 to |steps|
      invariant var rest := RunFrom(exec, steps, i, previousStepData, results, k + calls, total);
        Run(rest.outcome, calls + rest.calls) == RunFrom(exec, steps, 0, Null, [], k, total)
    {
      var s := exec(steps[i], previousStepData, k + calls);
      calls := calls + s.calls;
      if s.outcome.Throws? {
        return Failed(ErrorMessage(steps[i], s.outcome.error.message), results), calls;
      }
      var stepResult := s.outcome.value;
      results := results + [stepResult];
      if !stepResult.HasData() {
        return Failed(ErrorMessage(steps[i], MissingDataMessage), results), calls;
      }
      previousStepData := stepResult.data;
      if !stepResult.Succeeded() {
        return Failed(FailureMessage(steps[i], stepResult.message), results), calls;
      }
    }
    outcome := MultiStepResult.Completed(CompletionMessage(total), previousStepData, total);
  }

  /** `ExecuteMultiStepOperation`, with the LLM requests numbered from `k`: the plan's steps in
      `Order`, each run by `ExecuteSingleStep`. */
  method ExecuteMultiStepOperation(plan: ExecutionPlan, w: World, k: nat)
    returns (outcome: MultiStepResult, calls: nat)
    ensures Run(outcome, calls) == ExecuteMultiStep(plan, w, k)
  {
    outcome, calls := RunSteps(Executor(w), Ordered(plan.steps), |plan.steps|, k);
  }
}

=== FILE: parameter_extraction_service.dfy ===
/**
  ParameterExtractionService: how the arguments of a controller action are obtained, either
  from an LLM reading the user's message or from the payload of the previous step.

  The LLM, System.Text.Json's reader and its typed binder are the parameters introduced in
  `GeminiApiService` and `JsonHelper`; `today` and `clock` stand for `DateTime.Now`. The prompts
  sent to the LLM do not influence which outcome it returns in this model, so only the ways in
  which building them can throw are kept.
*/
module ParameterExtraction {
  import opened Wrappers
  import opened Text
  import opened Json
  import opened Clr
  import opened Calendar
  import opened JsonHelper
  import opened GeminiApiService
  import opened ControllerInvoker
  import opened AgentPrompts

  /** What an extraction did: its outcome and the number of LLM requests it issued. */
  datatype Extraction = Extraction(outcome: Result<seq<Value>>, calls: nat)

  /** `extractionResult.Content?.Trim()`. */
  function TrimmedContent(content: Option<string>): (r: Option<string>)
    ensures r.Some? <==> content.Some?
    ensures r.Some? ==> IsTrimmed(r.value)
  {
    if content.Some? then Some(Trim(content.value)) else None
  }

  /** The trimmed content is the content with white space, and only white space, cut from
      both ends. */
  lemma TrimmedContentInContent(content: Option<string>)
    requires content.Some?
    ensures var r := TrimmedContent(content).value;
      exists i :: OccursAt(content.value, r, i) && (forall j :: 0 <= j < i ==> IsWhiteSpace(content.value[j]))
                  && (forall j :: i + |r| <= j < |content.value| ==> IsWhiteSpace(content.value[j]))
  {
    assert TrimmedContent(content).value == Trim(content.value);
    TrimRemovesWhiteSpace(content.value);
  }

  /** The argument for parameter `p` given the extracted dictionary: the bound value of the entry
      named like the parameter, or the parameter type's default when there is none. */
  function Slot(members: seq<Member>, p: Param, bind: Binder): Value {
    match Property(members, p.name)
    case Some(element) => DeserializeParameter(bind, element, p.paramType)
    case None => DefaultValue(p.paramType)
  }

  /** The argument comes from the LAST member named like the parameter; with no such member it
      is the type's default, which is null exactly for reference and nullable types. */
  lemma SlotFromLastMember(members: seq<Member>, p: Param, bind: Binder)
    ensures (forall j :: 0 <= j < |members| ==> members[j].name != p.name) ==>
      var v := Slot(members, p, bind);
      v == DefaultValue(p.paramType) && (v == Null <==> !IsValueType(p.paramType) || p.paramType.NullableOf?)
    ensures forall k ::
      (0 <= k < |members| && members[k].name == p.name && forall j :: k < j < |members| ==> members[j].name != p.name)
      ==> Slot(members, p, bind) == DeserializeParameter(bind, members[k].value, p.paramType)
  {
  }

  /** One `Slot` per parameter, in parameter order. */
  function Slots(parameters: seq<Param>, members: seq<Member>, bind: Binder): (r: seq<Value>)
    ensures |r| == |parameters|
  {
    seq(|parameters|, i requires 0 <= i < |parameters| => Slot(members, parameters[i], bind))
  }

  /** The slots once the reply is known: all null for an empty reply, otherwise one `Slot` per
      parameter, or the exception the dictionary deserialization throws. */
  function FillSlots(parameters: seq<Param>, jsonParams: Option<string>, parse: Parser, bind: Binder)
    : (r: Result<seq<Value>>)
    ensures r.Ok? ==> |r.value| == |parameters|
  {
    if IsNullOrEmpty(jsonParams) then Ok(seq(|parameters|, _ => Null))
    else
      match DeserializeDictionary(parse, CleanJsonResponse(jsonParams))
      case Throws(e) => Throws(e)
      case Ok(members) => Ok(Slots(parameters, members, bind))
  }

  /** `ExtractMethodParameters`, starting at LLM request number `k`: nothing to do without
      parameters; otherwise the prompt is built (which throws when its date anchors overflow),
      the LLM is asked through the retry policy and its reply fills the slots. The message and the
      method's names only shape the prompt, so they do not appear here. */
  function Extract(parameters: seq<Param>, llm: Llm, k: nat, today: Date, parse: Parser, bind: Binder): Extraction
  {
    if |parameters| == 0 then Extraction(Ok([]), 0)
    else if AnchorsOverflow(today) then Extraction(Throws(OutOfRange()), 0)
    else Answer(parameters, llm, k, parse, bind)
  }

  /** The part of `ExtractMethodParameters` after the prompt: the retried request and the
      filling of the slots from its reply. */
  function Answer(parameters: seq<Param>, llm: Llm, k: nat, parse: Parser, bind: Binder): Extraction {
    var run := Retry(llm, k, DefaultMaxRetries, DefaultDelaySeconds);
    match run.outcome
    case Throws(e) => Extraction(Throws(e), run.calls)
    case Ok(content) => Extraction(FillSlots(parameters, TrimmedContent(content), parse, bind), run.calls)
  }

  /** The arguments always match the parameters one for one. */
  lemma ExtractLength(parameters: seq<Param>, llm: Llm, k: nat, today: Date, parse: Parser, bind: Binder)
    ensures var x := Extract(parameters, llm, k, today, parse, bind);
      x.outcome.Ok? ==> |x.outcome.value| == |parameters|
  {
  }

  /** Without parameters the result is empty and the LLM is not asked. */
  lemma ExtractNoParameters(llm: Llm, k: nat, today: Date, parse: Parser, bind: Binder)
    ensures Extract([], llm, k, today, parse, bind)
      == Extraction(Ok([]), 0)
  {
  }

  /** With parameters, exactly one retried request is made (unless the prompt cannot be built,
      which happens only in January 0001 and December 9999). */
  lemma ExtractCalls(parameters: seq<Param>, llm: Llm, k: nat, today: Date, parse: Parser, bind: Binder)
    requires |parameters| > 0 && !AnchorsOverflow(today)
    ensures Extract(parameters, llm, k, today, parse, bind).calls
      == Retry(llm, k, DefaultMaxRetries, DefaultDelaySeconds).calls
  {
  }

  /** A reply whose content is null or blank leaves every slot null, value types included. */
  lemma EmptyReplyNulls(parameters: seq<Param>, content: Option<string>, parse: Parser, bind: Binder)
    requires content.None? || Trim(content.value) == ""
    ensures var r := FillSlots(parameters, TrimmedContent(content), parse, bind);
      r.Ok? && |r.value| == |parameters| && forall i :: 0 <= i < |parameters| ==> r.value[i] == Null
  {
  }

  /** With a reply that holds a JSON object, slot i is the bound value of the member named like
      parameter i (the last such member), or, when there is none, default(T) for a value type and
      null for anything else. */
  lemma SlotsFromReply(parameters: seq<Param>, content: string, parse: Parser, bind: Binder, i: int)
    requires Trim(content) != "" && 0 <= i < |parameters|
    requires var text := CleanJsonResponse(Some(Trim(content)));
      parse(text).Some? && parse(text).value.JObject?
    ensures var r := FillSlots(parameters, Some(Trim(content)), parse, bind);
      var members := parse(CleanJsonResponse(Some(Trim(content)))).value.members;
      var p := parameters[i];
      && r.Ok?
      && (Property(members, p.name).Some? ==>
            r.value[i] == DeserializeParameter(bind, Property(members, p.name).value, p.paramType))
      && (Property(members, p.name).None? ==>
            r.value[i] == DefaultValue(p.paramType)
            && (r.value[i] == Null <==> !IsValueType(p.paramType) || p.paramType.NullableOf?))
  {
    assert TrimmedContent(Some(content)) == Some(Trim(content));
  }

  /** A reply that is not a JSON object fails the whole extraction; the null literal fails with
      InvalidOperationException. */
  lemma NonObjectReplyThrows(parameters: seq<Param>, content: string, parse: Parser, bind: Binder)
    requires Trim(content) != ""
    requires var text := CleanJsonResponse(Some(Trim(content)));
      parse(text).None? || !parse(text).value.JObject?
    ensures var r := FillSlots(parameters, Some(Trim(content)), parse, bind);
      && r.Throws?
      && (parse(CleanJsonResponse(Some(Trim(content)))) == Some(JNull) ==> r.error.kind == InvalidOperation)
  {
  }

  // ---------------------------------------------------------------- BuildParametersFromPreviousStep

  /** What building an argument from the previous step did. */
  datatype Built = Built(outcome: Result<Value>, calls: nat)

  /** `JsonSerializer.Deserialize(json, targetType, ...)` on a tree: the bound object, or the
      JsonException the serializer throws. */
  function Bound(bound: Option<Value>): (r: Result<Value>)
    ensures r.Ok? <==> bound.Some?
    ensures r.Ok? ==> r.value == bound.value
    ensures r.Throws? ==> r.error.kind == JsonError
  {
    if bound.Some? then Ok(bound.value)
    else Throws(Error(JsonError, "The JSON value could not be converted to the target type."))
  }

  /** `BuildParametersFromPreviousStep`: with a `data` member in the previous payload, that member
      is bound case-insensitively and the LLM is not asked; otherwise one retried request maps the
      payload, and the cleaned reply is parsed and bound case-sensitively. A payload that is not
      a JSON object makes `TryGetProperty` throw. */
  function FromPreviousStep(previousData: Value, targetType: ClrType, llm: Llm, k: nat,
                            parse: Parser, bind: Binder): (r: Built)
    ensures !ToJson(previousData).JObject? ==> r.outcome.Throws? && r.outcome.error.kind == InvalidOperation && r.calls == 0
    ensures ToJson(previousData).JObject? && Property(ToJson(previousData).members, "data").Some? ==>
      r == Built(Bound(bind(Property(ToJson(previousData).members, "data").value, targetType, true)), 0)
    ensures ToJson(previousData).JObject? && Property(ToJson(previousData).members, "data").None? ==>
      r.calls == Retry(llm, k, DefaultMaxRetries, DefaultDelaySeconds).calls
  {
    match TryGetProperty(ToJson(previousData), "data")
    case Throws(e) => Built(Throws(e), 0)
    case Ok(Some(data)) => Built(Bound(bind(data, targetType, true)), 0)
    case Ok(None) =>
      var run := Retry(llm, k, DefaultMaxRetries, DefaultDelaySeconds);
      match run.outcome
      case Throws(e) => Built(Throws(e), run.calls)
      case Ok(content) =>
        var jsonResponse := CleanJsonResponse(TrimmedContent(content));
        match parse(jsonResponse)
        case None => Built(Throws(Error(JsonError, "The input does not contain any JSON tokens.")), run.calls)
        case Some(tree) => Built(Bound(bind(tree, targetType, false)), run.calls)
  }

  /** On the LLM path a successful result is the case-sensitive binding of the cleaned reply. */
  lemma PreviousStepMapped(previousData: Value, targetType: ClrType, llm: Llm, k: nat,
                           parse: Parser, bind: Binder)
    requires ToJson(previousData).JObject? && Property(ToJson(previousData).members, "data").None?
    ensures var r := FromPreviousStep(previousData, targetType, llm, k, parse, bind);
      var run := Retry(llm, k, DefaultMaxRetries, DefaultDelaySeconds);
      r.outcome.Ok? ==>
        && run.outcome.Ok?
        && var text := CleanJsonResponse(TrimmedContent(run.outcome.value));
        && parse(text).Some?
        && bind(parse(text).value, targetType, false) == Some(r.outcome.value)
  {
  }
}

/**
  `ExtractMethodParameters` itself: the argument array, filled slot by slot.
*/
module ParameterExtractionService {
  import opened Wrappers
  import opened Text
  import opened Json
  import opened Clr
  import opened Calendar
  import opened JsonHelper
  import opened GeminiApiService
  import opened ControllerInvoker
  import opened AgentPrompts
  import opened ParameterExtraction

  /** The `for` loop over the parameters, once the dictionary has been read. */
  method FillFromDictionary(methodParams: array<Value>, parameters: seq<Param>, members: seq<Member>, bind: Binder)
    requires methodParams.Length == |parameters|
    modifies methodParams
    ensures methodParams[..] == Slots(parameters, members, bind)
  {
    for i := 0 to |parameters|
      invariant forall j :: 0 <= j < i ==> methodParams[j] == Slot(members, parameters[j], bind)
    {
      methodParams[i] := Slot(members, parameters[i], bind);
    }
    assert methodParams[..] == Slots(parameters, members, bind);
  }

  /** The request and the filling of the argument array. */
  method AskAndFill(parameters: seq<Param>, llm: Llm, k: nat, parse: Parser, bind: Binder)
    returns (outcome: Result<seq<Value>>, calls: nat)
    ensures Extraction(outcome, calls) == Answer(parameters, llm, k, parse, bind)
  {
    var methodParams := new Value[|parameters|](_ => Null);
    var reply, used, waits := ExecuteWithRetry(llm, k, DefaultMaxRetries, DefaultDelaySeconds);
    calls := used;
    if reply.Throws? {
      outcome := Throws(reply.error);
      return;
    }
    var jsonParams := TrimmedContent(reply.value);
    if !IsNullOrEmpty(jsonParams) {
      var extracted := DeserializeDictionary(parse, CleanJsonResponse(jsonParams));
      if extracted.Throws? {
        outcome := Throws(extracted.error);
        return;
      }
      FillFromDictionary(methodParams, parameters, extracted.value, bind);
    } else {
      assert methodParams[..] == seq(|parameters|, _ => Null);
    }
    outcome := Ok(methodParams[..]);
  }

  /** `ExtractMethodParameters`, with the LLM requests numbered from `k`. */
  method ExtractMethodParameters(message: string, controllerName: string, actionName: string,
                                 parameters: seq<Param>, llm: Llm, k: nat, today: Date, clock: string,
                                 parse: Parser, bind: Binder)
    returns (outcome: Result<seq<Value>>, calls: nat)
    requires Valid(today)
    ensures Extraction(outcome, calls) == Extract(parameters, llm, k, today, parse, bind)
  {
    if |parameters| == 0 {
      return Ok([]), 0;
    }
    var prompt := ExtractionPrompt(message, controllerName, actionName, parameters, today, clock);
    if prompt.Throws? {
      return Throws(prompt.error), 0;
    }
    outcome, calls := AskAndFill(parameters, llm, k, parse, bind);
  }
}

=== FILE: parameter_info_builder.dfy ===
/**
  ParameterInfoBuilder: the parameter descriptions placed in the LLM prompts.

  A `StringBuilder` filled by `AppendLine` calls is modelled by the sequence of the appended
  lines; `Render` gives the text `ToString()` returns.
*/
module ParameterInfoBuilder {
  import opened Text
  import opened Clr
  import opened Linq
  import opened ControllerInvoker

  const OptionalIndicator: string := " (optional, can be null)"
  const RequiredIndicator: string := " (required)"
  const DateTimeFormatLine: string := Indent + "Format: 'yyyy-MM-ddTHH:mm:ss' (e.g.: '2025-11-18T10:30:00')"
  const Indent: string := "    "
  const EntryMark: string := "  - "
  const ListOfLabel: string := "List of "

  /** The text of a StringBuilder after `AppendLine(l)` for each line in turn. */
  function Render(lines: seq<string>): string {
    if lines == [] then "" else Render(lines[..|lines| - 1]) + lines[|lines| - 1] + "\n"
  }

  /** A property that may be left null: `Nullable<T>` or any reference type. */
  predicate IsOptional(t: ClrType) {
    t.NullableOf? || !IsValueType(t)
  }

  function Indicator(t: ClrType): string {
    if IsOptional(t) then OptionalIndicator else RequiredIndicator
  }

  /** A property is announced as optional exactly when the binder's fallback for it is null. */
  lemma OptionalIffNullDefault(t: ClrType)
    ensures Indicator(t) == OptionalIndicator <==> DefaultValue(t) == Null
  {
  }

  /** A parameter whose properties are described: a class other than string. */
  predicate IsComplex(t: ClrType) {
    IsClass(t) && t != StringType
  }

  predicate IsDateTime(t: ClrType) {
    t == DateTimeType || t == NullableOf(DateTimeType)
  }

  /** How a property's type is named: "List of T" for List<T>, the type name otherwise. */
  function TypeText(t: ClrType): string {
    if t.ListOf? then ListOfLabel + Name(t.element) else Name(t)
  }

  function PropertyLine(p: Prop): string {
    EntryMark + p.name + ": " + TypeText(p.propType) + Indicator(p.propType)
  }

  /** The lines for one property: its line, then the format line for DateTime and DateTime?. */
  function PropertyLines(p: Prop): (r: seq<string>)
    ensures |r| == (if IsDateTime(p.propType) then 2 else 1) && r[0] == PropertyLine(p)
    ensures IsDateTime(p.propType) ==> r[1] == DateTimeFormatLine
    ensures forall i :: 0 <= i < |r| ==> |r[i]| > 0 && r[i][0] == ' '
  {
    assert PropertyLine(p)[0] == ' ';
    assert DateTimeFormatLine[0] == ' ';
    if IsDateTime(p.propType) then [PropertyLine(p), DateTimeFormatLine] else [PropertyLine(p)]
  }

  function PropertiesLines(props: seq<Prop>): (r: seq<string>)
    ensures forall i :: 0 <= i < |r| ==> |r[i]| > 0 && r[i][0] == ' '
  {
    if props == [] then []
    else PropertiesLines(props[..|props| - 1]) + PropertyLines(props[|props| - 1])
  }

  const HeaderStart: string := "\n## Parameter: "
  const TypeStart: string := " (Type: "

  function HeaderLine(p: Param): string {
    HeaderStart + p.name + TypeStart + Name(p.paramType) + ")"
  }

  const PropertiesOf: string := "Properties of "
  const SimpleTypeLabel: string := "Simple type: "

  function PropertiesHeading(t: ClrType): (r: string)
    ensures |r| > 0 && r[0] == 'P'
  {
    var r := PropertiesOf + Name(t) + ":";
    assert r[0] == PropertiesOf[0];
    r
  }

  function SimpleTypeLine(t: ClrType): (r: string)
    ensures |r| > 0 && r[0] == 'S'
  {
    var r := SimpleTypeLabel + Name(t);
    assert r[0] == SimpleTypeLabel[0];
    r
  }

  /** What follows a parameter's header: its properties, or the "Simple type" line. */
  function BlockBody(t: ClrType): (r: seq<string>)
    ensures forall i :: 0 <= i < |r| ==> |r[i]| > 0 && r[i][0] != '\n'
  {
    if IsComplex(t) then
      (if |Properties(t)| > 0 then [PropertiesHeading(t)] + PropertiesLines(Properties(t)) else [])
    else [SimpleTypeLine(t)]
  }

  /** Everything written for one parameter. */
  function ParameterBlock(p: Param): seq<string> {
    [HeaderLine(p)] + BlockBody(p.paramType)
  }

  function InfoLines(parameters: seq<Param>): seq<string> {
    if parameters == [] then []
    else InfoLines(parameters[..|parameters| - 1]) + ParameterBlock(parameters[|parameters| - 1])
  }

  /** The inner loop of `BuildParameterInfo`: the lines for each property in turn. */
  method AppendProperties(lines: seq<string>, props: seq<Prop>) returns (r: seq<string>)
    ensures r == lines + PropertiesLines(props)
  {
    r := lines;
    for j := 0 to |props|
      invariant r == lines + PropertiesLines(props[..j])
    {
      assert props[..j + 1][..j] == props[..j];
      r := r + PropertyLines(props[j]);
    }
    assert props[..|props|] == props;
  }

  /** What `BuildParameterInfo` writes after a parameter's header line. */
  method RenderBlockBody(t: ClrType) returns (body: seq<string>)
    ensures body == BlockBody(t)
  {
    body := [];
    if IsComplex(t) {
      var props := Properties(t);
      if |props| > 0 {
        body := AppendProperties([PropertiesHeading(t)], props);
      }
    } else {
      body := [SimpleTypeLine(t)];
    }
  }

  /** `BuildParameterInfo`: a block per parameter, in order, listing every property. */
  method BuildParameterInfo(parameters: seq<Param>) returns (lines: seq<string>)
    ensures lines == InfoLines(parameters)
  {
    lines := [];
    for i := 0 to |parameters|
      invariant lines == InfoLines(parameters[..i])
    {
      var p := parameters[i];
      assert parameters[..i + 1][..i] == parameters[..i];
      var body := RenderBlockBody(p.paramType);
      lines := lines + ([HeaderLine(p)] + body);
    }
    assert parameters[..|parameters|] == parameters;
  }

  predicate IsHeader(line: string) {
    |line| > 0 && line[0] == '\n'
  }

  predicate IsPropertyEntry(line: string) {
    StartsWith(line, EntryMark)
  }

  /** The property lines proper, one per property, in order. */
  function Entries(props: seq<Prop>): (r: seq<string>)
    ensures |r| == |props| && forall i :: 0 <= i < |props| ==> r[i] == PropertyLine(props[i])
  {
    if props == [] then [] else Entries(props[..|props| - 1]) + [PropertyLine(props[|props| - 1])]
  }

  lemma EntryOfProperty(p: Prop)
    ensures Filter(PropertyLines(p), IsPropertyEntry) == [PropertyLine(p)]
  {
    assert IsPropertyEntry(PropertyLine(p)) by { assert PropertyLine(p)[..4] == EntryMark; }
    if IsDateTime(p.propType) {
      assert !IsPropertyEntry(DateTimeFormatLine) by { assert DateTimeFormatLine[2] == Indent[2]; }
      assert PropertyLines(p)[1..] == [DateTimeFormatLine];
      assert [DateTimeFormatLine][1..] == [];
    } else {
      assert PropertyLines(p)[1..] == [];
    }
  }

  lemma {:induction false} PropertiesLinesShape(props: seq<Prop>)
    ensures Filter(PropertiesLines(props), IsPropertyEntry) == Entries(props)
  {
    if props != [] {
      var init := props[..|props| - 1];
      var p := props[|props| - 1];
      PropertiesLinesShape(init);
      FilterAppend(PropertiesLines(init), PropertyLines(p), IsPropertyEntry);
      EntryOfProperty(p);
    }
  }

  /** Within a parameter's block only its header is a header line. */
  lemma BlockHeaders(p: Param)
    ensures Filter(ParameterBlock(p), IsHeader) == [HeaderLine(p)]
  {
    var body := BlockBody(p.paramType);
    FilterNone(body, IsHeader);
    FilterAppend([HeaderLine(p)], body, IsHeader);
    assert IsHeader(HeaderLine(p));
    assert [HeaderLine(p)][1..] == [];
  }

  /** The header line of each parameter, in parameter order. */
  function HeaderLines(parameters: seq<Param>): (r: seq<string>)
    ensures |r| == |parameters|
    ensures forall i :: 0 <= i < |parameters| ==> r[i] == HeaderLine(parameters[i])
  {
    if parameters == [] then [] else HeaderLines(parameters[..|parameters| - 1]) + [HeaderLine(parameters[|parameters| - 1])]
  }

  /** One "## Parameter" header per parameter, in parameter order. */
  lemma {:induction false} HeadersInOrder(parameters: seq<Param>)
    ensures Filter(InfoLines(parameters), IsHeader) == HeaderLines(parameters)
  {
    if parameters != [] {
      var init := parameters[..|parameters| - 1];
      var last := parameters[|parameters| - 1];
      HeadersInOrder(init);
      BlockHeaders(last);
      FilterAppend(InfoLines(init), ParameterBlock(last), IsHeader);
    }
  }

  /** A line that does not start with a space is not a property entry. */
  lemma NotEntry(line: string)
    requires |line| > 0 && line[0] != ' '
    ensures !IsPropertyEntry(line)
  {
  }

  /** A class parameter lists every one of its properties, in order, with no cap; any other
      parameter (string included) gets a single "Simple type" line. */
  lemma BlockContents(p: Param)
    ensures !IsComplex(p.paramType) ==>
      ParameterBlock(p) == [HeaderLine(p), SimpleTypeLine(p.paramType)]
    ensures IsComplex(p.paramType) ==>
      Filter(ParameterBlock(p), IsPropertyEntry) == Entries(Properties(p.paramType))
  {
    if IsComplex(p.paramType) {
      ComplexBlockContents(p);
    }
  }

  /** The lines of a class parameter's block before its property lines. */
  function ComplexHead(p: Param): seq<string> {
    if |Properties(p.paramType)| > 0 then [HeaderLine(p), PropertiesHeading(p.paramType)] else [HeaderLine(p)]
  }

  lemma ComplexHeadHasNoEntry(p: Param)
    ensures Filter(ComplexHead(p), IsPropertyEntry) == []
  {
    assert HeaderLine(p)[0] == '\n';
    NotEntry(HeaderLine(p));
    NotEntry(PropertiesHeading(p.paramType));
    FilterNone(ComplexHead(p), IsPropertyEntry);
  }

  lemma ComplexBlockSplit(p: Param)
    requires IsComplex(p.paramType)
    ensures ParameterBlock(p) == ComplexHead(p) + PropertiesLines(Properties(p.paramType))
  {
    var props := Properties(p.paramType);
    var header := HeaderLine(p);
    if |props| > 0 {
      var heading := PropertiesHeading(p.paramType);
      assert BlockBody(p.paramType) == [heading] + PropertiesLines(props);
      assert ComplexHead(p) == [header] + [heading];
    } else {
      assert BlockBody(p.paramType) == [];
      assert PropertiesLines(props) == [];
    }
  }

  lemma ComplexBlockContents(p: Param)
    requires IsComplex(p.paramType)
    ensures Filter(ParameterBlock(p), IsPropertyEntry) == Entries(Properties(p.paramType))
  {
    var props := Properties(p.paramType);
    ComplexBlockSplit(p);
    ComplexHeadHasNoEntry(p);
    FilterAppend(ComplexHead(p), PropertiesLines(props), IsPropertyEntry);
    PropertiesLinesShape(props);
  }

  // ---------------------------------------------------------------- GetTypePropertiesDescription

  const DescriptionCap: int := 20

  function DescriptionLine(p: Prop): string {
    "- " + p.name + ": " + Name(p.propType)
  }

  /** `GetTypePropertiesDescription`: one line per property, in order, for the first 20 only. */
  method GetTypePropertiesDescription(t: ClrType) returns (lines: seq<string>)
    ensures |lines| == if |Properties(t)| < DescriptionCap then |Properties(t)| else DescriptionCap
    ensures forall i :: 0 <= i < |lines| ==> lines[i] == DescriptionLine(Properties(t)[i])
  {
    var props := Take(Properties(t), DescriptionCap);
    lines := [];
    for i := 0 to |props|
      invariant |lines| == i
      invariant forall j :: 0 <= j < i ==> lines[j] == DescriptionLine(props[j])
    {
      lines := lines + [DescriptionLine(props[i])];
    }
  }
}

=== FILE: repository.dfy ===
/**
  ProAgilRepository: the data access the event controllers call. The Entity Framework context is
  modelled by the rows it holds and by the log of changes queued on it; `SaveChangesAsync`
  commits the log and reports whether any row was written.

  The database's behaviour is fixed when the repository is built: the rows, the exception a
  query raises when the database cannot be reached, and what committing reports.
*/
module ProAgilRepository {
  import opened Wrappers
  import opened Clr
  import opened ProAgilDomain

  /** An entity handed to the repository's generic `Update<T>`, `Delete<T>` and `DeleteRange<T>`. */
  datatype Entity =
    | EventEntity(event: Event)
    | BatchEntity(batch: Batch)
    | SocialNetworkEntity(socialNetwork: SocialNetwork)
    | EventoEntity(evento: Evento)
    | LoteEntity(lote: Lote)
    | RedeSocialEntity(redeSocial: RedeSocial)

  /** A change queued on the context, or the save that commits the queue. */
  datatype Command =
    | DeleteRange(entities: seq<Entity>)
    | Update(entity: Entity)
    | Delete(entity: Entity)
    | SaveChanges

  class Repository {
    /** The stored rows, by id. */
    const events: map<int, Event>
    const eventos: map<int, Evento>
    /** The exception a query raises when the database cannot be reached. */
    const queryFault: Option<Exception>
    /** What the context's own `SaveChangesAsync` reports: the number of rows written, or the
        exception it throws. */
    const written: Result<nat>
    /** The changes issued so far, in order. */
    var log: seq<Command>

    constructor(events: map<int, Event>, eventos: map<int, Evento>, queryFault: Option<Exception>, written: Result<nat>)
      ensures this.events == events && this.eventos == eventos
      ensures this.queryFault == queryFault && this.written == written
      ensures log == []
    {
      this.events := events;
      this.eventos := eventos;
      this.queryFault := queryFault;
      this.written := written;
      log := [];
    }

    /** What a lookup by id answers: the fault, the row, or null. */
    function Lookup<T>(rows: map<int, T>, id: int): Result<Option<T>> {
      if queryFault.Some? then Throws(queryFault.value)
      else if id in rows then Ok(Some(rows[id]))
      else Ok(None)
    }

    function EventById(id: int): Result<Option<Event>> {
      Lookup(events, id)
    }

    function EventoById(id: int): Result<Option<Evento>> {
      Lookup(eventos, id)
    }

    /** What `SaveChangesAsync` answers: whether more than zero rows were written. */
    function Saved(): Result<bool> {
      match written
      case Ok(n) => Ok(n > 0)
      case Throws(e) => Throws(e)
    }

    /** `GetEventByIdAsync`: the stored event with this id, null when there is none. */
    method GetEventByIdAsync(id: int) returns (r: Result<Option<Event>>)
      ensures r == EventById(id)
      ensures r.Ok? <==> queryFault.None?
      ensures r.Ok? ==> (r.value.Some? <==> id in events) && (r.value.Some? ==> r.value.value == events[id])
    {
      if queryFault.Some? {
        return Throws(queryFault.value);
      }
      r := if id in events then Ok(Some(events[id])) else Ok(None);
    }

    /** The evento lookup the `EventoController` calls. */
    method GetEventoByIdAsync(id: int) returns (r: Result<Option<Evento>>)
      ensures r == EventoById(id)
      ensures r.Ok? <==> queryFault.None?
      ensures r.Ok? ==> (r.value.Some? <==> id in eventos) && (r.value.Some? ==> r.value.value == eventos[id])
    {
      if queryFault.Some? {
        return Throws(queryFault.value);
      }
      r := if id in eventos then Ok(Some(eventos[id])) else Ok(None);
    }

    method DeleteRange(entities: seq<Entity>)
      modifies this
      ensures log == old(log) + [Command.DeleteRange(entities)]
    {
      log := log + [Command.DeleteRange(entities)];
    }

    method Update(entity: Entity)
      modifies this
      ensures log == old(log) + [Command.Update(entity)]
    {
      log := log + [Command.Update(entity)];
    }

    method Delete(entity: Entity)
      modifies this
      ensures log == old(log) + [Command.Delete(entity)]
    {
      log := log + [Command.Delete(entity)];
    }

    /** `SaveChangesAsync`: true exactly when the commit wrote at least one row; the context's
        exception passes through. */
    method SaveChangesAsync() returns (r: Result<bool>)
      modifies this
      ensures log == old(log) + [SaveChanges]
      ensures r == Saved()
      ensures r == Ok(true) <==> written.Ok? && written.value > 0
      ensures r == Ok(false) <==> written == Ok(0)
      ensures r.Throws? <==> written.Throws?
      ensures r.Throws? ==> r.error == written.error
    {
      log := log + [SaveChanges];
      match written
      case Ok(n) => r := Ok(n > 0);
      case Throws(e) => r := Throws(e);
    }
  }
}

=== FILE: text.dfy ===
/**
  The string primitives of .NET that the agent code relies on, as functions over `seq<char>`.
  Comparisons are ordinal; the case-insensitive ones fold ASCII letters only.
*/
module Text {
  import opened Wrappers

  /** `char.IsWhiteSpace`: the Unicode White_Space characters. */
  predicate IsWhiteSpace(c: char) {
    c == ' ' || ('\t' <= c <= '\r') || c == '\U{0085}' || c == '\U{00A0}' || c == '\U{1680}'
    || ('\U{2000}' <= c <= '\U{200A}') || c == '\U{2028}' || c == '\U{2029}'
    || c == '\U{202F}' || c == '\U{205F}' || c == '\U{3000}'
  }

  /** Neither the first nor the last character is white space. */
  predicate IsTrimmed(s: string) {
    s == [] || (!IsWhiteSpace(s[0]) && !IsWhiteSpace(s[|s| - 1]))
  }

  /** `TrimStart()`: the longest suffix of `s` that does not begin with white space. */
  function TrimStart(s: string): (r: string)
    ensures |r| <= |s| && r == s[|s| - |r|..]
    ensures forall i :: 0 <= i < |s| - |r| ==> IsWhiteSpace(s[i])
    ensures r == [] || !IsWhiteSpace(r[0])
  {
    if |s| > 0 && IsWhiteSpace(s[0]) then TrimStart(s[1..]) else s
  }

  /** `TrimEnd()`: the longest prefix of `s` that does not end with white space. */
  function TrimEnd(s: string): (r: string)
    ensures |r| <= |s| && r == s[..|r|]
    ensures forall i :: |r| <= i < |s| ==> IsWhiteSpace(s[i])
    ensures r == [] || !IsWhiteSpace(r[|r| - 1])
  {
    if |s| > 0 && IsWhiteSpace(s[|s| - 1]) then TrimEnd(s[..|s| - 1]) else s
  }

  /** `Trim()`: `s` without its leading and trailing white space. */
  function Trim(s: string): (r: string)
    ensures IsTrimmed(r)
    ensures |r| <= |s|
  {
    TrimEnd(TrimStart(s))
  }

  /** Trimming removes white space only: the trimmed text sits in the original with nothing but
      white space before and after it. */
  lemma TrimRemovesWhiteSpace(s: string)
    ensures var r := Trim(s);
      exists i :: OccursAt(s, r, i) && (forall j :: 0 <= j < i ==> IsWhiteSpace(s[j]))
                  && (forall j :: i + |r| <= j < |s| ==> IsWhiteSpace(s[j]))
  {
    var t := TrimStart(s);
    var r := TrimEnd(t);
    PrefixOfSuffix(s, t, r);
    var i := |s| - |t|;
    assert r == Trim(s);
    assert forall j :: 0 <= j < i ==> IsWhiteSpace(s[j]);
    assert forall j :: i + |r| <= j < |s| ==> IsWhiteSpace(s[j]) by {
      forall j | i + |r| <= j < |s|
        ensures IsWhiteSpace(s[j])
      {
        assert s[j] == t[j - i];
      }
    }
    assert OccursAt(s, r, i);
  }

  /** A prefix `r` of a suffix `t` of `s` occurs in `s` where `t` starts. */
  lemma PrefixOfSuffix(s: string, t: string, r: string)
    requires |t| <= |s| && t == s[|s| - |t|..]
    requires |r| <= |t| && r == t[..|r|]
    ensures OccursAt(s, r, |s| - |t|)
    ensures r != [] ==> r[0] == t[0]
  {
    assert r == s[|s| - |t|..][..|r|] == s[|s| - |t|..|s| - |t| + |r|];
  }

  /** Trimming a string that is already trimmed changes nothing. */
  lemma TrimOfTrimmed(s: string)
    requires IsTrimmed(s)
    ensures Trim(s) == s
  {
  }

  /** `p` occurs in `s` starting at index `i`. */
  predicate OccursAt(s: string, p: string, i: int) {
    0 <= i <= |s| - |p| && s[i..i + |p|] == p
  }

  predicate StartsWith(s: string, prefix: string) {
    |prefix| <= |s| && s[..|prefix|] == prefix
  }

  predicate EndsWith(s: string, suffix: string) {
    |suffix| <= |s| && s[|s| - |suffix|..] == suffix
  }

  /** Ordinal `Contains`: `p` occurs somewhere in `s`. */
  function Contains(s: string, p: string): (b: bool)
    ensures b <==> exists i :: OccursAt(s, p, i)
  {
    if StartsWith(s, p) then
      assert OccursAt(s, p, 0);
      true
    else if |s| == 0 then
      false
    else
      var b := Contains(s[1..], p);
      if b then
        var i :| OccursAt(s[1..], p, i);
        assert OccursAt(s, p, i + 1) by { assert s[i + 1..i + 1 + |p|] == s[1..][i..i + |p|]; }
        b
      else
        forall i | OccursAt(s, p, i) ensures i > 0 && OccursAt(s[1..], p, i - 1) {
          OccursAtStart(s, p);
          assert i != 0;
          assert s[1..][i - 1..i - 1 + |p|] == s[i..i + |p|];
        }
        b
  }

  /** `p` occurs at index 0 of `s` exactly when `s` starts with `p`. */
  lemma OccursAtStart(s: string, p: string)
    ensures OccursAt(s, p, 0) <==> StartsWith(s, p)
  {
    if |p| <= |s| {
      assert s[0..|p|] == s[..|p|];
    }
  }

  /** Upper-cases an ASCII letter; every other character is left as it is. */
  function Upper(c: char): char {
    if 'a' <= c <= 'z' then (c as int - 32) as char else c
  }

  function UpperAll(s: string): (r: string)
    ensures |r| == |s| && forall i :: 0 <= i < |s| ==> r[i] == Upper(s[i])
  {
    seq(|s|, i requires 0 <= i < |s| => Upper(s[i]))
  }

  /** `string.Equals(a, b, StringComparison.OrdinalIgnoreCase)`. */
  predicate EqualsIgnoreCase(a: string, b: string) {
    UpperAll(a) == UpperAll(b)
  }

  /** `s.Contains(p, StringComparison.OrdinalIgnoreCase)`. */
  predicate ContainsIgnoreCase(s: string, p: string) {
    Contains(UpperAll(s), UpperAll(p))
  }

  /** `string.IsNullOrEmpty`. */
  predicate IsNullOrEmpty(s: Option<string>) {
    s == None || s == Some("")
  }

  /** `string.IsNullOrWhiteSpace`. */
  predicate IsNullOrWhiteSpace(s: Option<string>) {
    s == None || forall i :: 0 <= i < |s.value| ==> IsWhiteSpace(s.value[i])
  }

  /** Number of occurrences of character `c` in `s`. */
  function Count(s: string, c: char): nat {
    if s == [] then 0 else (if s[0] == c then 1 else 0) + Count(s[1..], c)
  }

  /** `s.Split(sep)`: the pieces between separators, empty pieces included. */
  function Split(s: string, sep: char): (parts: seq<string>)
    ensures |parts| == Count(s, sep) + 1
    ensures forall k :: 0 <= k < |parts| ==> Count(parts[k], sep) == 0
  {
    if s == [] then [""]
    else
      var rest := Split(s[1..], sep);
      if s[0] == sep then [""] + rest
      else [[s[0]] + rest[0]] + rest[1..]
  }

  /** Puts the pieces back together with `sep` between them. */
  function Join(parts: seq<string>, sep: char): string
    requires |parts| > 0
  {
    if |parts| == 1 then parts[0] else parts[0] + [sep] + Join(parts[1..], sep)
  }

  /** Splitting loses nothing: joining the pieces with the separator gives the input back. */
  lemma {:induction false} SplitJoin(s: string, sep: char)
    ensures Join(Split(s, sep), sep) == s
  {
    if s != [] {
      var rest := Split(s[1..], sep);
      SplitJoin(s[1..], sep);
      if s[0] != sep && |rest| > 1 {
        assert Split(s, sep)[1..] == rest[1..];
      }
    }
  }

  /** The decimal rendering of an integer, as `int.ToString()` gives it. */
  function IntToString(n: int): (r: string)
    ensures |r| > 0
    decreases if n < 0 then 1 - n else n
  {
    if n < 0 then "-" + IntToString(-n)
    else if n < 10 then [('0' as int + n) as char]
    else IntToString(n / 10) + [('0' as int + n % 10) as char]
  }

  predicate IsDigit(c: char) {
    '0' <= c <= '9'
  }

  predicate AllDigits(s: string) {
    forall i :: 0 <= i < |s| ==> IsDigit(s[i])
  }

  /** The number the decimal digits `s` stand for. */
  function DigitsValue(s: string): nat
    requires AllDigits(s)
  {
    if s == [] then 0 else DigitsValue(s[..|s| - 1]) * 10 + (s[|s| - 1] as int - '0' as int)
  }

  /** The rendering of a natural number is its decimal digits. */
  lemma {:induction false} RenderingDigits(m: nat)
    ensures AllDigits(IntToString(m)) && DigitsValue(IntToString(m)) == m
  {
    if m >= 10 {
      RenderingDigits(m / 10);
      var s := IntToString(m);
      assert s == IntToString(m / 10) + [('0' as int + m % 10) as char];
      assert s[..|s| - 1] == IntToString(m / 10);
    }
  }

  /** A run of zeros stands for 0. */
  lemma {:induction false} ZerosValue(z: string)
    requires forall i :: 0 <= i < |z| ==> z[i] == '0'
    ensures AllDigits(z) && DigitsValue(z) == 0
  {
    if z != [] {
      ZerosValue(z[..|z| - 1]);
    }
  }

  /** Leading zeros do not change the value of a run of digits. */
  lemma {:induction false} LeadingZeros(z: string, digits: string)
    requires forall i :: 0 <= i < |z| ==> z[i] == '0'
    requires AllDigits(digits)
    ensures AllDigits(z + digits) && DigitsValue(z + digits) == DigitsValue(digits)
  {
    if digits == [] {
      assert z + digits == z;
      ZerosValue(z);
    } else {
      var front := digits[..|digits| - 1];
      LeadingZeros(z, front);
      assert (z + digits)[..|z + digits| - 1] == z + front;
    }
  }

  /** `n` in decimal, left-padded with zeros to `width` digits (format strings such as "yyyy"). */
  function PadDigits(n: nat, width: nat): (r: string)
    ensures |r| >= width
  {
    var d := IntToString(n);
    if |d| >= width then d else seq(width - |d|, _ => '0') + d
  }

  /** Zero padding keeps the digits' value: a padded rendering reads back as the number. */
  lemma PadDigitsValue(n: nat, width: nat)
    ensures AllDigits(PadDigits(n, width)) && DigitsValue(PadDigits(n, width)) == n
  {
    var d := IntToString(n);
    RenderingDigits(n);
    if |d| < width {
      LeadingZeros(seq(width - |d|, _ => '0'), d);
    }
  }

  /** Ordinal `s.LastIndexOf(p)`: the start of the last occurrence of `p`, or -1. */
  function LastIndexOf(s: string, p: string): (i: int)
    ensures i == -1 || OccursAt(s, p, i)
    ensures forall j :: i < j ==> !OccursAt(s, p, j)
  {
    LastIndexBefore(s, p, |s| - |p|)
  }

  /** The last occurrence of `p` that starts at or before `from`, or -1. */
  function LastIndexBefore(s: string, p: string, from: int): (i: int)
    requires from <= |s| - |p|
    ensures i == -1 || (i <= from && OccursAt(s, p, i))
    ensures forall j :: i < j <= from ==> !OccursAt(s, p, j)
    decreases from + 1
  {
    if from < 0 then -1
    else if s[from..from + |p|] == p then from
    else LastIndexBefore(s, p, from - 1)
  }

  /** `string.CompareOrdinal(a, b) <= 0`: lexicographic by character code, a prefix first. */
  predicate OrdinalLe(a: string, b: string)
    decreases |a|
  {
    a == [] || (b != [] && (a[0] < b[0] || (a[0] == b[0] && OrdinalLe(a[1..], b[1..]))))
  }

  lemma {:induction false} OrdinalLeTotal(a: string, b: string)
    ensures OrdinalLe(a, b) || OrdinalLe(b, a)
    decreases |a|
  {
    if a != [] && b != [] && a[0] == b[0] {
      OrdinalLeTotal(a[1..], b[1..]);
    }
  }

  lemma {:induction false} OrdinalLeTransitive(a: string, b: string, c: string)
    requires OrdinalLe(a, b) && OrdinalLe(b, c)
    ensures OrdinalLe(a, c)
    decreases |a|
  {
    if a != [] && a[0] == b[0] && b[0] == c[0] {
      OrdinalLeTransitive(a[1..], b[1..], c[1..]);
    }
  }
}

=== FILE: type_helper.dfy ===
/** TypeHelper: the example literal shown for a property type in the extraction prompt. */
module TypeHelper {
  import opened Clr
  import opened Calendar

  /** The types that have an example of their own; every other type is shown as `null`. */
  predicate HasExample(t: ClrType) {
    t == StringType || t == IntType || t == NullableOf(IntType) || t == BoolType
    || t == NullableOf(BoolType) || t == DateTimeType || t == NullableOf(DateTimeType) || t.ListOf?
  }

  /** `GetExampleValue`; `today` stands for `DateTime.Now`. */
  function GetExampleValue(t: ClrType, today: Date): (r: string)
    requires Valid(today)
    ensures r == "null" <==> !HasExample(t)
    ensures t == StringType ==> r == "\"example\""
    ensures t == IntType || t == NullableOf(IntType) ==> r == "123"
    ensures t == BoolType || t == NullableOf(BoolType) ==> r == "true"
    ensures t == DateTimeType || t == NullableOf(DateTimeType) ==>
      |r| == 21 && r[0] == '"' && r[1..11] == FormatDate(today) && r[11..] == "T00:00:00\""
    ensures t.ListOf? ==> r == "[]"
  {
    if t == StringType then "\"example\""
    else if t == IntType || t == NullableOf(IntType) then "123"
    else if t == BoolType || t == NullableOf(BoolType) then "true"
    else if t == DateTimeType || t == NullableOf(DateTimeType) then
      var r := "\"" + FormatDate(today) + "T00:00:00\"";
      assert r[1..11] == FormatDate(today);
      r
    else if t.ListOf? then "[]"
    else "null"
  }
}

=== FILE: web_api.dfy ===
/**
  WebApi: what the event controllers share — their action results, the object mapper they are
  given, the `ForEach` that collects ids from a list of transfer objects, and how an update
  answers once its save has run.
*/
module WebApi {
  import opened Wrappers
  import opened Clr
  import opened ProAgilRepository

  /** The action results of the CRUD endpoints. */
  datatype ActionResult<T> =
    | NotFound
    | Created(location: string, value: T)
    | OkResult
    | BadRequest
    | ServerError(message: string)
  {
    function StatusCode(): int {
      match this
      case NotFound => 404
      case Created(_, _) => 201
      case OkResult => 200
      case BadRequest => 400
      case ServerError(_) => 500
    }
  }

  /** An endpoint's answer together with the changes it issued on the repository. */
  datatype Outcome<T> = Outcome(result: ActionResult<T>, issued: seq<Command>)

  /** The AutoMapper profile: `Map(model, entity)` copies the transfer object onto the entity,
      `Map<Dto>(entity)` turns an entity back into a transfer object. */
  datatype Mapper<!Dto, !E> = Mapper(onto: (Dto, E) -> E, toDto: E -> Dto)

  /** The ids of the items, in list order. */
  function IdsOf<T>(items: seq<T>, idOf: T -> int): (r: seq<int>)
    ensures |r| == |items|
    ensures forall i :: 0 <= i < |items| ==> r[i] == idOf(items[i])
  {
    if items == [] then [] else IdsOf(items[..|items| - 1], idOf) + [idOf(items[|items| - 1])]
  }

  /** An id is collected exactly when some item carries it. */
  lemma IdsOfMembers<T>(items: seq<T>, idOf: T -> int, x: int)
    ensures x in IdsOf(items, idOf) <==> exists i :: 0 <= i < |items| && idOf(items[i]) == x
  {
    var ids := IdsOf(items, idOf);
    if x in ids {
      var i :| 0 <= i < |ids| && ids[i] == x;
      assert idOf(items[i]) == x;
    }
  }

  /** `items.ForEach(item => ids.Add(item.Id))` on a fresh list. */
  method CollectIds<T>(items: seq<T>, idOf: T -> int) returns (ids: seq<int>)
    ensures ids == IdsOf(items, idOf)
  {
    ids := [];
    for i := 0 to |items|
      invariant ids == IdsOf(items[..i], idOf)
    {
      assert items[..i + 1][..i] == items[..i];
      ids := ids + [idOf(items[i])];
    }
    assert items[..|items|] == items;
  }

  /** `if (xs.Length > 0) _repo.DeleteRange(xs)`. */
  function DeleteIfAny(entities: seq<Entity>): (r: seq<Command>)
    ensures |r| <= 1
    ensures forall c :: c in r ==> c == DeleteRange(entities) && |entities| > 0
    ensures |entities| > 0 ==> r == [DeleteRange(entities)]
  {
    if |entities| > 0 then [DeleteRange(entities)] else []
  }

  /** What an update answers once its save has run: Created at `location` with the entity mapped
      back, BadRequest when nothing was written, status 500 with the exception's message after
      `prefix` when the save threw. */
  function UpdateAnswer<T>(saved: Result<bool>, location: string, dto: T, prefix: string): (r: ActionResult<T>)
    ensures r.StatusCode() == 201 <==> saved == Ok(true)
    ensures r.StatusCode() == 400 <==> saved == Ok(false)
    ensures r.StatusCode() == 500 <==> saved.Throws?
    ensures r.Created? ==> r == Created(location, dto)
    ensures r.ServerError? ==> r.message == prefix + saved.error.message
  {
    match saved
    case Throws(e) => ServerError(prefix + e.message)
    case Ok(true) => Created(location, dto)
    case Ok(false) => BadRequest
  }

  /** What a delete answers once its save has run; a thrown exception becomes the fixed
      `message`, without the exception's own text. */
  function DeleteAnswer<T>(saved: Result<bool>, message: string): (r: ActionResult<T>)
    ensures r.StatusCode() == 200 <==> saved == Ok(true)
    ensures r.StatusCode() == 400 <==> saved == Ok(false)
    ensures r.StatusCode() == 500 <==> saved.Throws?
    ensures r.ServerError? ==> r.message == message
  {
    match saved
    case Throws(_) => ServerError(message)
    case Ok(true) => OkResult
    case Ok(false) => BadRequest
  }
}

=== FILE: wrappers.dfy ===
/** Optional values: the model's stand-in for a C# reference or Nullable<T> that may be null. */
module Wrappers {

  datatype Option<+T> = None | Some(value: T) {

    /** The wrapped value, or `default` when there is none (C#'s `??`). */
    function GetOr(default: T): T {
      match this
      case Some(v) => v
      case None => default
    }
  }
}
